=== FILE: README.md ===
# psyarxivdb pipeline, modelled in Dafny

This project models the data pipeline of psyarxivdb, a harvester and local database of
PsyArXiv preprints taken from the OSF API. The pipeline has these stages:

- **Harvest** (`osf/harvester.py`).
  - Pages of preprints sorted by `date_modified` are requested.
  - Each record is saved into the `raw_data` table.
  - The harvest resumes from the newest stored `date_modified`.
  - After each page, the next URL is rebuilt from the last saved date.
  - On a 404 the resume point steps back six hours.
  - An optional record limit is enforced.
- **Gap repair** (`tools/fix_gaps.py`).
  - The sorted dates in `raw_data` are scanned for gaps longer than a threshold.
  - A gap is refilled by a range harvest that stops at the first record past its end.
  - A dry run counts first-page records without writing.
- **Raw store and tracker** (`osf/database.py`, `osf/tracker.py`).
  - `raw_data` and `harvested_preprints` are tables keyed by preprint id, written by upsert.
  - Queries select pending rows, the newest timestamps and counts.
  - The tracker's `is_ingested` flag is set by ingestion, cleared by a re-harvest, and reset in bulk.
- **Ingestion** (`osf/ingestor.py`, `osf/entities.py`).
  - Each raw row with no `preprints` row is flattened into one, in `date_modified` order and up to a limit.
  - Success, error and processed counters are kept, and the run commits every 100 records.
  - The entity module writes providers, contributors with their links, and subjects with their links.
  - It also writes a normalised tag list: split on `,` and `;`, stripped, deduplicated and sorted.
- **Version flags** (`tools/fix_version_flags.py`).
  - Each id has a base id, given by a `LIKE '%_v%'` test and `SUBSTR`/`INSTR`.
  - Rows are ranked by version within each base id.
  - The tool reports rows whose `is_latest_version` flag is wrong.
  - A consistency check compares two counts.
  - The exit code of the tool's `main` is modelled too.
- **UI view** (`osf/optimizer_ui.py`).
  - The `preprints_ui` table is rebuilt for all candidates, or for the new and stale ones only.
  - Work goes in batches.
  - Each row gets a contributor list, a first author, subjects and a tag list.
  - The builder returns the number of records written.

## How the model is built

**Tables.**
- The main database is the class `Db.Database`. It has one field per table, of type `Option<map<...>>`, where `None` means the table does not exist.
- The tracker database is the class `Tracker.TrackerDb`.
- A row is a map from column name to `Cell`: `Null`, `Int`, `Text` or `JsonText(doc)`. `JsonText(doc)` is the text `json.dumps(doc)` wrote.
- An upsert merges the given columns into the existing row (`Db.UpsertRow`).

**Queries.**
- SQL queries are functions over the maps.
- Comparison follows SQLite's rules (`Sql.SqlLess`): NULL sorts before integers, which sort before text.
- Text compares in code-point order.
- `ORDER BY` on equal keys is broken by primary key (`Sql.Before`).

**Loops.** Loops that change state are methods with `while`/`for` loops. Each is proved equal to a specification function, and the properties are lemmas about that function:
- the harvest loop;
- the range harvest;
- the gap scan;
- the ingestion loop;
- the contributor and subject loops;
- the tag loop;
- the UI batch loop;
- the path validation loop.

**Parameters.** Everything outside the program becomes a parameter:
- the API is a sequence of `Harvester.Response` values;
- the clock (`now`) is a string;
- SQLite's `datetime()` is a function;
- the set of existing files is a set;
- write failures are sets of positions (`faults`, `refused*`);
- the order of a Python `set` is the listing `order`.

**Configuration.** Two settings that `osf/config.py` does not define are modelled as parameters:
- `config.STORE_JSON_AS` is the `storeMode` parameter of `Db.AddRawData`. `None` means the attribute is missing; then the lookup raises, the handler catches it, and `add_raw_data` returns False.
- `config.TRACKER_DB_PATH` is the `configured` field of `Tracker.TrackerDb`.

**Schemas.** The `preprint_contributors` schema differs between files:
- `osf/database.py:94-101` declares `osf_user_id` and `author_index`;
- `osf/entities.py:92-97` writes `contributor_id` and `contributor_index`;
- `osf/optimizer_ui.py:145-151` reads `contributor_id` and `contributor_index`.

Each module models its own file's view of the table.

**Tags.**
- `process_tags` does not fold case.
- A tag made only of whitespace passes the emptiness test before it is stripped, so it is stored as `""`. `Entities.TagPieces` keeps that behaviour.

## Model

| member | source | states |
|---|---|---|
| Db.Database.constructor | osf/database.py:14-28 | a fresh database file has none of the tables |
| Db.Database.InitDb | osf/database.py:30-106 | creates each of `raw_data`, `preprints`, `contributors`, `preprint_contributors` that is missing, empty, and leaves existing tables and every other table as they were |
| Db.UpsertRow | osf/database.py:135-141 | an upsert keeps every key and adds exactly the written key |
| Db.RawPayload | osf/database.py:125-129 | the payload is the file path exactly when the mode is "path" and a non-empty path is given, otherwise the serialised document |
| Db.RawRowFor | osf/database.py:121-123 | the row succeeds exactly when the document and its `attributes` are dicts, and then carries the document's `date_created`, `date_modified`, the payload and the fetch time |
| Db.AddRawData | osf/database.py:108-146 | True exactly when the storage mode is configured, the write is accepted and the document is readable; then `raw_data` is the old table with only this id's row replaced, and the id counts as harvested; a missing mode or unreadable document changes nothing; otherwise `init_db` has run, so `raw_data`, `preprints`, `contributors` and `preprint_contributors` exist, and a refused write leaves `raw_data` as `init_db` left it; no other table is written |
| Db.MostRecentDate | osf/database.py:148-187 | None exactly when the file or `raw_data` is missing or no row has a `date_created`; otherwise a stored `date_created` that no other ranks above, values without the timestamp shape ranking as `0001-01-01T00:00:00.000000` |
| Db.UnprocessedRows | osf/database.py:220-244 | empty when the file or either table is missing; otherwise exactly the raw rows whose id has no `preprints` row, unchanged |
| Db.IsPreprintHarvested | osf/database.py:200-218 | False when the file or `raw_data` is missing; otherwise True exactly when `raw_data` has a positive number of rows with the id |
| Db.UnprocessedAreHarvested | osf/database.py:200-244 | every row waiting for ingestion is harvested, and a harvested id waits for ingestion exactly when it has no `preprints` row |
| Db.UpsertAllContents | osf/database.py:268 | after a batch upsert each key holds the row of its last record, keys without a record keep their row, and no other key appears |
| Db.AddRawDataBatch | osf/database.py:252-273 | returns `len(records)` on success and 0 when the write raises; a successful non-empty batch upserts every record into `raw_data`; without a connection `init_db` creates the missing `raw_data`, `preprints`, `contributors` and `preprint_contributors`, and with one those three stay as they were; no other table is written |
| Db.RecreateIndexes | osf/database.py:285-315 | the count is 2 for each of `preprints` and `raw_data` that exists |
| Harvester.UrlPartsAre | osf/harvester.py:27-44 | the query parameters are the defaults with `filter[date_modified][gt]` set to the resume point (or `2010-01-01`) in place, and the parts are the seven `key=value` strings in that order, with `embed` expanded in list order |
| Harvester.OneDateFilter | osf/harvester.py:27-44 | exactly one part starts `filter[date_modified][gt]=`, it carries the resume point, and `sort=date_modified` is always present |
| Harvester.AppendListParts | osf/harvester.py:38-40 | a list value appends one `key=item` per item, in order |
| Harvester.BuildApiUrl | osf/harvester.py:18-44 | the loop builds the URL the two lemmas above describe |
| Harvester.SaveWritesOnlyItsRow | osf/harvester.py:56-81 | a record without a truthy id gives False and writes nothing; True means exactly one row, the record's, was written with its dates and serialised document; nothing else is ever written |
| Harvester.SavePreprint | osf/harvester.py:46-81 | the method returns what `save_preprint` returns and leaves `raw_data` as described; its frame is `raw_data` alone, so no other table changes |
| Harvester.ResumePointIsNewest | osf/harvester.py:177-198 | None exactly when the table is missing or has no non-empty `date_modified`; otherwise the newest date cut before its first `.` |
| Harvester.RecordStepFacts | osf/harvester.py:118-129 | each record is counted once, saved at most once, adds at most one row, and moves the last saved date only when saved, to its own date |
| Harvester.PageRecordsStep | osf/harvester.py:116-134 | the page loop stops after a record that raised or reached the limit and otherwise goes on with the next record |
| Harvester.RecordStepSaves | osf/harvester.py:118-129 | a record is counted, and moves the last saved date to its own date exactly when it is saved: a dict with a readable date, a truthy id and readable attributes whose write is not refused |
| Harvester.PageRecordsFacts | osf/harvester.py:116-134 | within a page: handled records bounded by the page, saves bounded by handled records, rows only added, the limit not overshot, and the date returned unchanged when nothing was saved |
| Harvester.LastSavedIsLast | osf/harvester.py:116-129 | the last-saved date of the first records handled is `last` when none was saved, else the date of a saved record after which no handled record was saved |
| Harvester.LastSavedIsRecordDate | osf/harvester.py:116-129 | a last-saved date found is the date of one of the records handled |
| Harvester.LastSavedShift | osf/harvester.py:116-129 | the last-saved date of a page is that of the rest of the page started from the first record's verdict |
| Harvester.PageRecordsLastSaved | osf/harvester.py:116-134 | the date a page's record loop leaves in `last_processed_date` is the date of the last handled record whose save returned True, or the one it started with when none was |
| Harvester.PageStepResumes | osf/harvester.py:136-147 | after a page `from_date` changes only if a record was saved, and then to a page record's date that is neither falsy nor 'unknown'; no next link ends the loop; a truthy next link gives a non-empty URL: `str(next)` when nothing was saved, and the URL rebuilt from `from_date` when it moved |
| Harvester.PageStepShape | osf/harvester.py:112-139 | a page that raised nothing read its `data` list, ran its records, and set `from_date` from the date they left |
| Harvester.PageStepResumePoint | osf/harvester.py:116-139 | after a page that raised nothing, `from_date` is the date of the last handled record whose save returned True, unless none was saved or that date is falsy or 'unknown' |
| Harvester.HarvestStep | osf/harvester.py:109-167 | one loop pass moves the run to the state the response leads to |
| Harvester.PageStepBounded | osf/harvester.py:116-147 | a page keeps the run's bounds invariant |
| Harvester.StepBounded | osf/harvester.py:109-167 | every response, page or error, keeps the run's bounds invariant |
| Harvester.HarvestBounded | osf/harvester.py:99-175 | over the whole run `saved_count <= preprint_count <= limit`, no row is removed and at most `saved_count` rows are added |
| Harvester.OtherErrorsRetry | osf/harvester.py:153-167 | a request error that is not a 404 with a resume point retries the same URL with nothing changed |
| Harvester.NotFoundStepsBackSixHours | osf/harvester.py:155-162 | a 404 with a readable resume point moves it exactly six hours back, to whole seconds, and the next URL asks for records after it |
| Harvester.StepBackFormats | osf/harvester.py:155-160 | the step back writes the earlier time with `strftime('%Y-%m-%dT%H:%M:%S')` and rebuilds the URL |
| Harvester.StepBackKeepsCounts | osf/harvester.py:155-162 | the step back changes neither counter nor any row |
| Harvester.HarvestRecord | osf/harvester.py:118-134 | one pass of the record loop is the next step of the page function; no table but `raw_data` is written |
| Harvester.HarvestRecords | osf/harvester.py:117-134 | the record loop computes the page function; no table but `raw_data` is written |
| Harvester.HarvestPage | osf/harvester.py:113-151 | the handling of one page computes the page step; no table but `raw_data` is written |
| Harvester.StepBackResumePoint | osf/harvester.py:155-162 | the 404 branch computes the step back |
| Harvester.HarvestResponse | osf/harvester.py:110-167 | one pass of the `while` loop computes the step for its response; no table but `raw_data` is written |
| Harvester.HarvestStart | osf/harvester.py:93-98 | `init_db` creates the missing `raw_data`, `preprints`, `contributors` and `preprint_contributors`, and the run starts from the newest stored date with zero counts; no other table is written |
| Harvester.HarvestPreprints | osf/harvester.py:83-175 | the result and rows are those of the run from the resume point; a returned `saved_count` lies between 0 and `preprint_count`, and `preprint_count` never exceeds the limit; `preprints`, `contributors` and `preprint_contributors` are as `init_db` leaves them, and no other table is written |
| Harvester.HarvestLoop | osf/harvester.py:109-167 | the `while` loop computes the run; no table but `raw_data` is written |
| FixGaps.SortedDatesAscend | tools/fix_gaps.py:50-57 | one value per dated row, each a row's date, ascending |
| FixGaps.ParseDates | tools/fix_gaps.py:65-70 | a successful parse gives one value per text |
| FixGaps.ParseDatesReads | tools/fix_gaps.py:65-70 | each value is its text read by `fromisoformat`, all naive or all aware |
| FixGaps.ParseDatesSnoc | tools/fix_gaps.py:65-70 | reading one more text appends its value, or fails on an unreadable text or a naive/aware mix |
| FixGaps.ParseDatesPrefixErr | tools/fix_gaps.py:65-70 | the first failure in row order is the one that escapes |
| FixGaps.GapsOfSnoc | tools/fix_gaps.py:62-77 | one more value adds at most the gap with the previous value |
| FixGaps.GapsAreLongPairs | tools/fix_gaps.py:62-77 | every gap is a consecutive pair strictly more than `max_gap_hours` apart with its exact length, and there are at most n-1 |
| FixGaps.LongPairsAreGaps | tools/fix_gaps.py:62-77 | every consecutive pair strictly more than `max_gap_hours` apart is reported |
| FixGaps.GapsMoveForward | tools/fix_gaps.py:62-77 | with a non-negative threshold every gap has start before end |
| FixGaps.GapsInOrder | tools/fix_gaps.py:62-77 | for values in time order the gaps come in time order without overlap |
| FixGaps.GapEndsBeforeLast | tools/fix_gaps.py:62-77 | a gap among the earlier values ends no later than the last but one value |
| FixGaps.DetectGapsFacts | tools/fix_gaps.py:45-77 | no gaps without `raw_data` or with fewer than two dates; otherwise it fails exactly when a date does not read, and succeeds with exactly the consecutive pairs more than `max_gap_hours` apart, fewer than the dates |
| FixGaps.DetectGaps | tools/fix_gaps.py:33-77 | the method returns what the gap function describes and changes nothing |
| FixGaps.ScanDates | tools/fix_gaps.py:62-77 | the scan loop returns the gaps of the parsed dates or the first exception |
| FixGaps.ScanDate | tools/fix_gaps.py:65-75 | one pass either raises what reading the next date raises, or extends the parsed dates by it and the gap list to the gaps of the longer list |
| FixGaps.RangeRecordKeeps | tools/fix_gaps.py:151-164 | a record keeps the range invariant: counts grow, rows are only added, and every row written is within the range |
| FixGaps.RangeRecordsKeep | tools/fix_gaps.py:151-164 | a page keeps the range invariant |
| FixGaps.RangeStepKeeps | tools/fix_gaps.py:143-174 | a response keeps the range invariant |
| FixGaps.RangeHarvestKeeps | tools/fix_gaps.py:143-176 | over a range harvest `saved_count` never decreases, no row is removed, at most `saved_count` rows are added, and every row written is dated no later than the end (so undated records are never written) |
| FixGaps.StopsAtFirstPastEnd | tools/fix_gaps.py:150-167 | the first record past the end stops the harvest: it and every later record are neither saved nor counted |
| FixGaps.RequestErrorEndsRange | tools/fix_gaps.py:172-174 | a failed request ends the range harvest without retry |
| FixGaps.RangeSaveRecord | tools/fix_gaps.py:151-164 | one record's handling computes the record function; no table but `raw_data` is written |
| FixGaps.RangePage | tools/fix_gaps.py:150-164 | the page loop computes the page function; no table but `raw_data` is written |
| FixGaps.RangeResponse | tools/fix_gaps.py:144-174 | one pass of the `while url` loop computes the step; no table but `raw_data` is written |
| FixGaps.HarvestDateRange | tools/fix_gaps.py:125-176 | raises exactly when the end date cannot be read, then writing nothing; otherwise returns the run's `saved_count` and leaves its rows; no table but `raw_data` is written |
| FixGaps.FillGap | tools/fix_gaps.py:79-123 | harvests from the gap's start written by `strftime`, bounded by its end; the rows added are at most the records saved, and all lie in the range; no table but `raw_data` is written |
| FixGaps.RangeLoop | tools/fix_gaps.py:143-176 | the `while url` loop computes the range harvest; no table but `raw_data` is written |
| FixGaps.CountInGapBounds | tools/fix_gaps.py:101-107 | the dry-run count is the number of first-page records inside the gap, both ends inclusive, at most the page size, failing exactly when a record raises |
| FixGaps.CountInGapStep | tools/fix_gaps.py:101-107 | the count from a record on is its verdict plus the count of the rest |
| FixGaps.FillGapDryRun | tools/fix_gaps.py:93-113 | the dry run requests the first page from the gap's start and reports the count, writing nothing |
| FixGaps.CountPage | tools/fix_gaps.py:102-107 | the counting loop computes the count |
| Tracker.PendingOrder | osf/tracker.py:135-145 | only pending ids are listed |
| Tracker.PendingRows | osf/tracker.py:127-145 | pending rows only, unchanged, at most `int(limit)` when the limit is truthy and positive, otherwise all |
| Tracker.PendingRowsOrdered | osf/tracker.py:135-145 | the rows come once each in ascending `date_created`, and no pending row left out by the limit is dated before a listed one |
| Tracker.Newest | osf/tracker.py:96-116 | the greatest non-null value of the column, or None when there is none |
| Tracker.ResetAll | osf/tracker.py:189 | ingested rows become pending, nothing else changes |
| Tracker.ResetMakesIngestedPending | osf/tracker.py:166-197 | after a reset the pending rows are the old pending plus the old ingested, and none is ingested |
| Tracker.CountPaths | osf/tracker.py:221-233 | the loop counts the rows whose path is a file, and valid plus invalid is the row count |
| Tracker.TrackerDb.constructor | osf/tracker.py:11-20 | the tracker starts with the given configuration and table |
| Tracker.TrackerDb.InitTrackerDb | osf/tracker.py:22-44 | False without a configured path; otherwise creates the table when missing and keeps an existing one |
| Tracker.TrackerDb.AddHarvestedPreprint | osf/tracker.py:46-63 | on success the row is written with every column and `is_ingested = 0`, so a re-harvested id is pending again; a failure gives False |
| Tracker.TrackerDb.MarkAsIngested | osf/tracker.py:65-73 | sets `is_ingested = 1` on that row only; a missing table or row gives False and changes nothing |
| Tracker.TrackerDb.MostRecentHarvestDate | osf/tracker.py:75-94 | the greatest `date_harvested`, None without the table or without a non-null date |
| Tracker.TrackerDb.MostRecentPreprintDate | osf/tracker.py:96-116 | the greatest non-null `date_created`, None without the table or without one |
| Tracker.TrackerDb.IsPreprintHarvested | osf/tracker.py:118-125 | true exactly when the table exists and holds the id |
| Tracker.TrackerDb.PendingIngestion | osf/tracker.py:127-145 | the pending listing above, raising only when unconfigured |
| Tracker.TrackerDb.HarvestedCount | osf/tracker.py:147-154 | the number of rows, 0 without the table |
| Tracker.TrackerDb.PendingCount | osf/tracker.py:156-164 | the number of pending rows, 0 without the table |
| Tracker.TrackerDb.PendingWithinTotal | osf/tracker.py:147-164 | pending count at most the total, both 0 without the table, and the unlimited listing has the pending count of rows |
| Tracker.TrackerDb.ResetIngestionStatus | osf/tracker.py:166-197 | returns (k, True) with k the rows ingested before, after which none is ingested; (0, True) without the table or ingested rows; (0, False) on failure with nothing changed |
| Tracker.TrackerDb.ValidateFilePaths | osf/tracker.py:199-241 | (valid, invalid, total) with total the row count and valid + invalid = total; (0, 0, 0) for a missing or empty table |
| Ingestor.ContributorEntry | osf/ingestor.py:29-38 | a contributor that is not a dict raises; otherwise name, index and bibliographic come from the user and contributor attributes with defaults `''`, 0 and True |
| Ingestor.ContributorEntries | osf/ingestor.py:27-38 | one entry per embedded contributor in order, failing exactly when one contributor fails |
| Ingestor.DownloadCell | osf/ingestor.py:56 | `download_url` is a link or None |
| Ingestor.ReadParts | osf/ingestor.py:21-44 | a non-dict document raises; the reads give the document's attributes and its contributor entries |
| Ingestor.ExtractPreprintData | osf/ingestor.py:11-75 | a non-dict document raises; otherwise the row has exactly the `preprints` columns |
| Ingestor.ExtractedId | osf/ingestor.py:47 | the row keeps the given id |
| Ingestor.ExtractedDoi | osf/ingestor.py:54 | `publication_doi` is `https://doi.org/` plus the DOI exactly when the DOI is truthy, and NULL otherwise |
| Ingestor.ExtractedFlags | osf/ingestor.py:58-62 | `is_published` and `has_coi` are 0 or 1, and `is_latest_version` is 1 when absent |
| Ingestor.ExtractedContributors | osf/ingestor.py:27-72 | the `contributors` column lists one entry per embedded contributor, in order |
| Ingestor.ProcessPreprint | osf/ingestor.py:77-91 | True exactly when extraction succeeds and the write is accepted, and then the row is upserted; False changes nothing; no table but `preprints` is written |
| Ingestor.PendingListing | osf/ingestor.py:149-171 | raw rows without a `preprints` row with their payloads, as many as the limit allows |
| Ingestor.PendingListingSorted | osf/ingestor.py:155-164 | the records come once each in ascending `date_modified` |
| Ingestor.PendingListingFirst | osf/ingestor.py:155-164 | no unprocessed row left out by the limit is dated before a listed one |
| Ingestor.PendingListingComplete | osf/ingestor.py:163-164 | without an effective limit every unprocessed row is listed |
| Ingestor.UnprocessedListing | osf/ingestor.py:149-171 | no records without `raw_data`, a raised error without `preprints`, otherwise the pending listing |
| Ingestor.ListingMatchesDatabase | osf/ingestor.py:155-161 | without a limit the listing holds exactly the ids that the database module's `get_unprocessed_preprints` returns |
| Ingestor.IngestStep | osf/ingestor.py:116-141 | one more record upserts its row only when added, and adds to the counters by its verdict |
| Ingestor.TalliesBounded | osf/ingestor.py:113-141 | `success <= processed <= len(unprocessed)` |
| Ingestor.IngestTableKeys | osf/ingestor.py:116-141 | the new `preprints` keys are exactly the records added, and rows the listing does not name are untouched |
| Ingestor.ProcessRecord | osf/ingestor.py:116-141 | one pass of the loop moves the table and the counters one record on; no table but `preprints` is written |
| Ingestor.CommitStep | osf/ingestor.py:142-144 | the commit points stay the multiples of 100 up to `processed` |
| Ingestor.IngestListing | osf/ingestor.py:113-147 | every record lands in success or errors, `processed` counts the records with a payload, the table is the ingested table, and commits happen at each hundredth processed record; no table but `preprints` is written |
| Ingestor.ProcessAllNewPreprints | osf/ingestor.py:93-147 | the counters and table are those of ingesting the pending listing; nothing pending gives (0, 0, 0); `init_db` creates the missing `contributors` and `preprint_contributors`, and no other table is written |
| Entities.KeepStripped | osf/entities.py:160 | no kept piece is empty |
| Entities.CollectTags | osf/entities.py:148-163 | the loop builds `all_tags` |
| Entities.KeepStrippedClean | osf/entities.py:156-161 | stripped pieces hold no separator or surrounding space and are found in the tag |
| Entities.TagPiecesClean | osf/entities.py:149-163 | every piece of an entry is clean and found, case kept, in the entry |
| Entities.AllTagsClean | osf/entities.py:148-163 | every collected tag is clean and found in a string entry |
| Entities.StoredTagsProperties | osf/entities.py:156-172 | the stored list is strictly ascending, holds exactly the collected tags, and each is clean and found with its case in an input tag |
| Entities.ProcessTags | osf/entities.py:138-175 | the normalised list is written to the preprint's `tags` column when the tags iterate and the row exists; any failure changes nothing; no table but `preprints` is written |
| Entities.ProviderId | osf/entities.py:21-22 | a non-dict `relationships` raises |
| Entities.ProcessProvider | osf/entities.py:11-31 | with a truthy provider id the row is upserted and the id returned; otherwise None and nothing written; no table but `providers` is written |
| Entities.ReadEntityParts | osf/entities.py:187-189 | a non-dict document raises; this extraction reads no contributors |
| Entities.ExtractEntityData | osf/entities.py:177-218 | a non-dict document raises; otherwise the row has this module's columns |
| Entities.EntityProviderAndTags | osf/entities.py:200-208 | the row's tags are the empty list and its provider is the id `process_provider` stores |
| Entities.EntityAgreesWithIngestor | osf/entities.py:177-218 | where both extractions succeed they agree on every shared column except `tags` |
| Entities.UserIdAt | osf/entities.py:46-52 | a non-dict contributor raises |
| Entities.ContributorRows | osf/entities.py:44-97 | a non-dict contributor raises |
| Entities.ContributorIdChosen | osf/entities.py:45-57 | the id comes from `relationships.users.data.id`, else `embeds.users.data.id`; a contributor with neither is skipped |
| Entities.ContributorRowFields | osf/entities.py:68-86 | the record is keyed by the chosen, non-empty id and has the contributor columns |
| Entities.ContributorLinkBuilt | osf/entities.py:92-97 | the link can be built exactly when the contributor's `attributes` is a dict |
| Entities.ContributorLinkFields | osf/entities.py:92-97 | the link names preprint, contributor and list position, with `bibliographic` 0 or 1, default 1 |
| Entities.ContribPeople | osf/entities.py:43-100 | every recorded contributor is in `contributors` despite others' failures, and nothing else is added |
| Entities.ContribLinksWritten | osf/entities.py:43-100 | every contributor whose record and link were written is linked to the preprint |
| Entities.ContribStepLinks | osf/entities.py:88-97 | one pass upserts at most one link, at the preprint's key |
| Entities.ContribLinksOrigin | osf/entities.py:43-97 | every new link carries the list position of a linked contributor with that id, so skipped contributors leave holes |
| Entities.ContributorRowsIndexed | osf/entities.py:43 | each outcome carries its own position |
| Entities.WriteContributor | osf/entities.py:44-100 | one pass computes the step and writes no table but `contributors` and `preprint_contributors` |
| Entities.ProcessContributors | osf/entities.py:33-100 | an unreadable list raises with nothing written; otherwise the loop computes the contributor tables and raises nothing; no table but `contributors` and `preprint_contributors` is written |
| Entities.SubjectStepGrows | osf/entities.py:116-136 | one subject only adds rows and the preprint's links, and raises exactly when the handler re-raises on a non-dict subject |
| Entities.GroupRunCorrected | osf/entities.py:115-136 | the corrected inner loop never raises and writes and links every subject with a truthy id |
| Entities.GroupsRunCorrected | osf/entities.py:114-136 | the corrected outer loop raises exactly for a group that cannot be iterated, and writes and links every subject of every group |
| Entities.SubjectsCorrectedLinksAll | osf/entities.py:102-136 | the corrected `process_subjects` links every subject with a truthy id, adding only the preprint's links |
| Entities.SubjectsReraiseCounterexample | osf/entities.py:135-136 | a non-dict subject ahead of a good one: as written an exception escapes and the good subject is never linked; corrected it is |
| Entities.GroupRunAgreesOnDicts | osf/entities.py:115-136 | when every subject is a dict, the code as written and the corrected code do the same |
| Entities.GroupsRunAgreesOnDicts | osf/entities.py:114-136 | the same for the outer loop |
| Entities.GroupRunStops | osf/entities.py:115-136 | after an escaped exception later subjects change nothing |
| Entities.GroupsRunStops | osf/entities.py:114-136 | after an escaped exception later groups change nothing |
| Entities.WriteSubject | osf/entities.py:116-136 | one subject's writes compute its step, and no table but `subjects` and `preprint_subjects` is written |
| Entities.WriteGroup | osf/entities.py:115-136 | the inner loop computes the group run, and no table but `subjects` and `preprint_subjects` is written |
| Entities.ProcessSubjects | osf/entities.py:102-136 | the two loops compute the subjects run, and no table but `subjects` and `preprint_subjects` is written |
| VersionFlags.Instr | tools/fix_version_flags.py:83 | 0 exactly when the text is absent, else the 1-based position of its first occurrence |
| VersionFlags.Substr1 | tools/fix_version_flags.py:83 | a prefix of length n, empty for n at most 0 |
| VersionFlags.BaseIdOfVersion | tools/fix_version_flags.py:82-85 | the base id is a prefix, exactly the text before the first `_v` when there is one |
| VersionFlags.BaseIdUnversioned | tools/fix_version_flags.py:82-85 | an id without `v`/`V` after its first character is its own base id |
| VersionFlags.BaseIdWildcard | tools/fix_version_flags.py:82-85 | an id matching `LIKE '%_v%'` without a literal `_v` has the empty base id |
| VersionFlags.BaseIdExamples | tools/fix_version_flags.py:82-85 | `abc_v2` has base `abc`, `x8vq1` has the empty base |
| VersionFlags.AheadMember | tools/fix_version_flags.py:86-92 | a row is ranked ahead exactly when it shares the base id and precedes in `ORDER BY version DESC` |
| VersionFlags.RankOneUnique | tools/fix_version_flags.py:86-101 | at most one row per base id has rank 1 |
| VersionFlags.RankOneExists | tools/fix_version_flags.py:86-101 | every base id has a row of rank 1 |
| VersionFlags.RankOneHasMaxVersion | tools/fix_version_flags.py:86-92 | the rank-1 row carries its partition's greatest version |
| VersionFlags.RankOnesMatchBaseIds | tools/fix_version_flags.py:86-101 | the rank-1 rows and the base ids correspond one to one |
| VersionFlags.DryRunZero | tools/fix_version_flags.py:101-111 | the dry run finds 0 problems exactly when no flag differs from should-be-latest |
| VersionFlags.FixedFlags | tools/fix_version_flags.py:76-104 | the intended fix keeps every row and version |
| VersionFlags.FixedLinks | tools/fix_version_flags.py:122-127 | the intended link fix keeps every link |
| VersionFlags.FixedKeepsRanks | tools/fix_version_flags.py:86-92 | the fix keeps every rank |
| VersionFlags.FixedHasNoProblems | tools/fix_version_flags.py:101-111 | after the fix the dry run finds no preprint problem |
| VersionFlags.FixedLinksHaveNoProblems | tools/fix_version_flags.py:122-127 | after the link fix no link's flag differs from its preprint's |
| VersionFlags.FixedLatestAreRankOnes | tools/fix_version_flags.py:86-101 | the rows flagged latest after the fix are exactly the rank-1 rows |
| VersionFlags.FixedIsConsistent | tools/fix_version_flags.py:42-69 | after the fix `check_current_status` holds |
| VersionFlags.NoProblemsIsConsistent | tools/fix_version_flags.py:42-69 | a table whose flags all equal should-be-latest passes `check_current_status` |
| VersionFlags.MainCorrectedOutcome | tools/fix_version_flags.py:132-191 | exit 0 or 1, and 1 without `preprints`; a dry run changes nothing and gives 0 exactly when `preprint_contributors` exists or no flag differs from should-be-latest; without `--dry-run` a consistent table and no `--verbose` give 0 with nothing changed, otherwise the exit is 0 exactly when `preprint_contributors` exists; a run that changes anything has applied the preprint fix and ends consistent with no preprint problem, keeps `preprint_contributors` present or missing as it was, and gives 0 exactly when that table exists, with no link problem left |
| VersionFlags.MainImportCounterexample | tools/fix_version_flags.py:26-27 | on a dry run the corrected `main` gives 0 and the code as written gives 1 |
| OptimizerUi.CreatePreprintsUiTable | osf/optimizer_ui.py:17-69 | creates `preprints_ui` when missing and keeps an existing one |
| OptimizerUi.Candidates | osf/optimizer_ui.py:86-110 | candidates are preprint ids |
| OptimizerUi.CandidatesMembership | osf/optimizer_ui.py:86-110 | a full rebuild takes every preprint; an incremental one takes exactly those with no UI row or modified after their UI row |
| OptimizerUi.BatchAt | osf/optimizer_ui.py:133 | a batch is non-empty and at most `batch_size` long |
| OptimizerUi.BatchesCover | osf/optimizer_ui.py:132-133 | the batches concatenated are the candidate list, so each candidate is in exactly one batch |
| OptimizerUi.BatchesBounded | osf/optimizer_ui.py:132-133 | no batch is empty or longer than `batch_size` |
| OptimizerUi.ContributorOrder | osf/optimizer_ui.py:145-151 | exactly the contributors joined to the preprint |
| OptimizerUi.JoinRow | osf/optimizer_ui.py:146 | the joined row carries the link's index and bibliographic flag |
| OptimizerUi.JoinedContributors | osf/optimizer_ui.py:145-151 | one row per linked contributor |
| OptimizerUi.ContributorOrderSorted | osf/optimizer_ui.py:150 | the contributors come in non-decreasing `contributor_index` |
| OptimizerUi.JoinedContributorsOrdered | osf/optimizer_ui.py:145-151 | the joined rows come in non-decreasing `contributor_index` |
| OptimizerUi.Pick | osf/optimizer_ui.py:154-155 | a filtered projection is no longer than its input |
| OptimizerUi.PickSelects | osf/optimizer_ui.py:154-155 | a picked value is the column of a kept row and every kept row's column is picked |
| OptimizerUi.JoinCells | osf/optimizer_ui.py:155 | the join succeeds exactly when every value is text, failing with TypeError |
| OptimizerUi.ContributorsListContents | osf/optimizer_ui.py:154-155 | the list is made exactly of the names of contributors with a name and a truthy bibliographic flag, and fails only on a name that is not text |
| OptimizerUi.FirstAuthorIsFirst | osf/optimizer_ui.py:168-173 | the first author is the name of the earliest row with index 0 and a name, `""` when none |
| OptimizerUi.FindFirstAuthor | osf/optimizer_ui.py:168-173 | the scan computes the first author |
| OptimizerUi.TruthyItems | osf/optimizer_ui.py:204 | exactly the truthy tags are kept |
| OptimizerUi.JoinJson | osf/optimizer_ui.py:205 | the join succeeds exactly when every item is a string |
| OptimizerUi.TagItems | osf/optimizer_ui.py:196-201 | a falsy column or text that is not JSON gives no tags |
| OptimizerUi.TagsListOfInvalidJson | osf/optimizer_ui.py:196-205 | invalid tag JSON gives the empty list |
| OptimizerUi.TagsListRoundTrip | osf/optimizer_ui.py:196-205 | a tag list stored by `process_tags` reads back joined with "; " |
| OptimizerUi.TagsListOfList | osf/optimizer_ui.py:196-205 | a stored list reads back as its truthy items joined; it fails exactly on a truthy non-string tag |
| OptimizerUi.ContributorsData | osf/optimizer_ui.py:157-166 | at most one entry per contributor row, each a five-key dict whose first key is `id` |
| OptimizerUi.ContributorsDataRows | osf/optimizer_ui.py:157-166 | one entry per contributor row with a truthy id, in row order; entry `i` holds that row's id, `full_name`, `contributor_index`, `orcid`, and whether `bibliographic` is 1 |
| OptimizerUi.SubjectsData | osf/optimizer_ui.py:187-193 | at most one entry per subject row, each a two-key dict whose first key is `id` |
| OptimizerUi.SubjectsDataRows | osf/optimizer_ui.py:187-193 | one entry per subject row with a truthy id, in row order; entry `i` holds that row's id and text |
| OptimizerUi.UiRecord | osf/optimizer_ui.py:209-240 | the record has exactly the UI record's columns |
| OptimizerUi.UiRecordStamps | osf/optimizer_ui.py:209-240 | the record is keyed by the preprint id, stamped with the run's time, and keeps the stored tag document |
| OptimizerUi.UiRecordCopies | osf/optimizer_ui.py:209-240 | the record copies each copied column that `preprints` has unchanged, NULL included |
| OptimizerUi.UiRecordProvider | osf/optimizer_ui.py:218 | `provider`, a column `preprints` lacks, is always its default `""` |
| OptimizerUi.UiRecordOmits | osf/optimizer_ui.py:209-240 | the record never sets `why_no_data`, `data_links` or `why_no_prereg` |
| OptimizerUi.RecordFor | osf/optimizer_ui.py:136-244 | a record exists only for a preprint with a row, and has the record columns |
| OptimizerUi.FormatPreprint | osf/optimizer_ui.py:144-206 | the formatting steps compute the formatted parts or the caught exception |
| OptimizerUi.BuildRecord | osf/optimizer_ui.py:136-244 | one candidate's handling computes its record or skip |
| OptimizerUi.BatchRecords | osf/optimizer_ui.py:134-244 | a batch yields at most one record per candidate |
| OptimizerUi.BatchRecordsMembers | osf/optimizer_ui.py:134-244 | each record is its candidate's, and every candidate that yields a record has it in the batch |
| OptimizerUi.BatchRecordsAppend | osf/optimizer_ui.py:134-244 | the records of a list are the records of its halves |
| OptimizerUi.BuildBatch | osf/optimizer_ui.py:134-244 | the inner loop computes the batch's records |
| OptimizerUi.UpsertAllKeeps | osf/optimizer_ui.py:249 | upserting agreeing records keeps a row that holds its record |
| OptimizerUi.UpsertAllWrites | osf/optimizer_ui.py:249 | upserting leaves every record's row holding it |
| OptimizerUi.UpsertAllKeys | osf/optimizer_ui.py:249 | upserting adds only the records' keys and leaves other rows alone |
| OptimizerUi.RunCountBound | osf/optimizer_ui.py:247-260 | the count is between 0 and the number of candidates |
| OptimizerUi.BatchInIds | osf/optimizer_ui.py:132-133 | every batch member is a candidate |
| OptimizerUi.RunAddsOnlyCandidates | osf/optimizer_ui.py:132-254 | rows are added only for candidates |
| OptimizerUi.StepAddsOnlyCandidates | osf/optimizer_ui.py:133-254 | one batch adds rows only for candidates |
| OptimizerUi.RunKeepsOthers | osf/optimizer_ui.py:132-254 | rows of non-candidates are kept as they were |
| OptimizerUi.StepKeepsOthers | osf/optimizer_ui.py:133-254 | one batch keeps the rows of non-candidates |
| OptimizerUi.RunKeeps | osf/optimizer_ui.py:132-254 | a row holding its record keeps it through the later batches |
| OptimizerUi.BatchWritten | osf/optimizer_ui.py:247-250 | a batch member with a record holds it once the batch is written |
| OptimizerUi.RunWritesBatch | osf/optimizer_ui.py:132-254 | with no failing write a member of the first batch ends holding its record |
| OptimizerUi.RunWritesAll | osf/optimizer_ui.py:132-254 | with no failing write every candidate that yields a record ends holding it |
| OptimizerUi.RunCountStep | osf/optimizer_ui.py:247-254 | with no failing write one batch adds its record count to the rest's |
| OptimizerUi.RunCountsAll | osf/optimizer_ui.py:247-260 | with no failing write the count is the number of records built |
| OptimizerUi.RunStep | osf/optimizer_ui.py:132-254 | the run from a batch is its step then the run from the next batch |
| OptimizerUi.WriteBatch | osf/optimizer_ui.py:133-254 | one pass of the batch loop computes the batch step |
| OptimizerUi.WriteBatches | osf/optimizer_ui.py:132-254 | the batch loop computes the run |
| OptimizerUi.PopulatePreprintsUi | osf/optimizer_ui.py:71-260 | a missing `preprints` raises; no candidates or a negative `batch_size` gives 0 and writes nothing; `batch_size` 0 raises ValueError; otherwise the count and table are those of the batch run |
| OptimizerUi.RunOutcome | osf/optimizer_ui.py:132-260 | with no failing write every candidate that can be formatted holds its record, other rows are kept, no other key is added, and the count is the records built, at most the candidates |
| IsoTime.SixHoursEarlierIsExact | osf/harvester.py:158 | `dt - timedelta(hours=6)` moves the clock exactly six hours and fails only within six hours of year 1 |
| IsoTime.FormatRoundTrip | tools/fix_gaps.py:88-89 | text written by `strftime('%Y-%m-%dT%H:%M:%S')` reads back by `fromisoformat` as the same second, naive |
| IsoTime.Compare | tools/fix_gaps.py:70 | subtracting or comparing fails exactly on a naive/aware mix; otherwise it gives the distance between the two points in time, each aware value shifted by its UTC offset, which is the wall-clock distance when the offsets are equal |
| Sql.OrderedLimit | osf/ingestor.py:155-164 | the listed keys are distinct members of the set, ascending, as many as the limit allows, all of them without an effective limit, and none left out ranks before a listed one |
| Sql.ApplyLimit | osf/tracker.py:142-143 | a truthy positive limit below the row count truncates, any other limit keeps all rows |
| Text.SortedDistinct | osf/entities.py:166 | `sorted(set(xs))` is strictly ascending and holds exactly the strings of `xs` |
| JsonModel.Iterate | osf/entities.py:114 | a list iterates its items, and only null, booleans and numbers cannot be iterated |

## Left out

- HTTP requests, timeouts, `raise_for_status` and `time.sleep` are not modelled. The API is a finite sequence of `Harvester.Response` values, each a decoded page or a request error with its message.
- Harvester.HarvestPreprints: the run also stops when the responses run out. An infinite API is not modelled, so a harvest that never ends is not captured.
- FixGaps.HarvestDateRange: the same finite response sequence bounds the range harvest.
- SQLite engine details are not modelled: PRAGMAs, busy timeouts, transactions, index DDL, VACUUM and ANALYZE. Tables are maps, and `Db.RecreateIndexes` returns only the count. The maps are the connection's own view of the database: whether a write outlives the call depends on a commit the model does not track. This matters for `Tracker.TrackerDb.ResetIngestionStatus`: osf/tracker.py:189 runs its UPDATE through `db.execute` with no commit, where tools/reset_ingestion.py:91-93 wraps the same UPDATE in `with db.conn:`. Whether the reset is kept after the call therefore depends on the sqlite-utils connection committing it, and the model treats it as kept.
- The connection commits of `process_all_new_preprints` are not modelled as state. They appear only as the list of `processed` values at which a commit happens.
- Logging and tqdm progress bars are not modelled.
- The CLIs under `scripts/` and `tools/` other than the modelled functions are not modelled, and neither is the `main` of `tools/fix_gaps.py`.
- From `osf/database.py`, `get_db`, `get_preprint_count`, `commit_db` and `get_database_size` are not modelled. They only open a connection, count rows, commit or stat a file.
- Filesystem checks are a parameter: `dbExists`, or the set `files` of paths that are files.
- The `configured` flag stands for a configuration path that exists or not. Directory creation is not modelled.
- `datetime.now()` is a parameter `now`.
- OptimizerUi.PopulatePreprintsUi: every record of a run gets the same `now`, where the source reads the clock once per record.
- SQLite's `datetime()` normalisation in the staleness test is a function parameter.
- Python set iteration order in `populate_preprints_ui` is the parameter `order`, which must list the candidate set.
- Write failures are oracle parameters: `refused`, `faults` and the sets of refused positions. Why the database refuses a write is not modelled.
- Ingestor.PendingListing: equal `date_modified` values are ordered by id, which SQLite leaves unspecified.
- Tracker.PendingRows: equal `date_created` values are ordered by id, for the same reason.
- OptimizerUi.ContributorOrder: equal `contributor_index` values are ordered by contributor id, for the same reason.
- VersionFlags.Rank: equal versions are ranked by id, for the same reason.
- OptimizerUi.JoinedSubjects: the subject query has no ORDER BY, and the model takes subject-id order.
- JSON is a `Json` datatype, and `json.dumps` text is `JsonText(doc)`. `json.loads` of text that `json.dumps` did not write is a decode failure. Number formatting and non-ASCII details of `json.dumps` are not modelled.
- Identifiers and dates read from a document are used only when they are JSON strings. Other values (numbers, lists) read as missing.
- `dict.get(key, default)` on a row read from SQLite gives the default only for a column the table lacks. A column the table has reads as its value, NULL included. The UI record reads `preprints` this way against the columns `init_db` gives it (`OptimizerUi.PreprintGet`). Rows of the other tables are read as having every column the module that writes them sets.
- `upsert_all` is modelled as all or nothing: either every record is written, or the call raises and nothing is.
- IsoTime.FromIso: reads only the extended form `YYYY-MM-DD[Xhh[:mm[:ss[.f]]]][±hh:mm]`, with `Z` read as `+00:00`. `X` is any one character. It accepts one to six fraction digits and offsets of whole minutes. The basic form without `-` and `:`, week dates, and offsets with seconds are not modelled. Versions of Python before 3.11 accept less.
- IsoTime.Format: the year is always padded to four digits. glibc's `%Y` writes years below 1000 with fewer digits.
- JsonModel.PyStr: `str()` of a list or a dict is written as the placeholder `[...]` or `{...}`, not as Python's full text.
- Floating-point gap hours are not modelled. Gaps are measured exactly in microseconds and compared against `max_gap_hours` hours.
- The `is_ingested` column is assumed to hold 0 or 1 as the tracker writes it. Rows written by other tools with other values are not modelled beyond `Tracker.ResetAll`.
- Schema clashes between the modules are not modelled. Each module writes and reads its own view of `contributors` and `preprint_contributors`. So the failure to write into a table that `init_db` created with other columns is not captured. Neither is the UI's contributor join at osf/optimizer_ui.py:145-151, which reads `c.id`, `pc.contributor_id` and `pc.contributor_index`. The tables `init_db` creates (osf/database.py:84-101) lack those columns, so on such a database the query raises inside the per-record `try` and every UI record is skipped. OptimizerUi.JoinedContributors joins as if the columns were there.

## Findings

| source | as written | input that shows it | evidently intended | confidence | as-written member | corrected member |
|---|---|---|---|---|---|---|
| osf/entities.py:135-136 | the handler calls `subject.get('id')` again to log it. For a subject that is not a dict this raises AttributeError out of the handler and ends `process_subjects`, so later subjects are never linked | `attributes.subjects = [[1, {"id": "s1"}]]`: `s1` is not linked and AttributeError escapes | log the failure and go on with the next subject | high; not executed | Entities.SubjectsReraiseCounterexample | Entities.SubjectsCorrectedLinksAll |
| tools/fix_version_flags.py:27 | imports `fix_latest_version_flags` and `fix_contributor_latest_version_flags` from `osf.ingestor`, which defines neither. The ImportError is raised when the module loads, outside the `try`, so the tool exits with status 1 having done nothing | `--dry-run` on a database whose `preprints` and `preprint_contributors` tables are empty: exit 1 instead of 0 | the two functions set every flag to should-be-latest and every link flag to its preprint's, then `main` runs as written: the preprint fix stays applied when the link fix then fails on a missing `preprint_contributors` | high; not executed | VersionFlags.MainImportCounterexample | VersionFlags.MainCorrectedOutcome |

=== FILE: database.dfy ===
/** The main SQLite database (`data/preprints.db`): its tables, `init_db`, the raw store
    (`raw_data`, one row per preprint id with the untouched API document) and the queries
    over it. Tables are maps from primary key to row; `None` is a table that does not exist. */
module Db {
  import opened Wrappers
  import opened JsonModel
  import Text
  import Sql

  /** A table row as sqlite-utils reads and writes it: column name to value. A column that is
      not in the map is NULL. */
  type Row = map<string, Cell>

  /** A column of a row read with `SELECT *`. */
  function Col(row: Row, c: string): Cell {
    if c in row then row[c] else Null
  }

  /** sqlite-utils `upsert`: the given columns replace or extend the existing row. */
  function UpsertRow<K>(table: map<K, Row>, key: K, row: Row): (r: map<K, Row>)
    ensures r.Keys == table.Keys + {key}
    ensures forall c :: c in row ==> Col(r[key], c) == row[c]
    ensures forall c :: c !in row && key in table ==> Col(r[key], c) == Col(table[key], c)
    ensures forall k :: k in table && k != key ==> r[k] == table[k]
  {
    table[key := (if key in table then table[key] else map[]) + row]
  }

  /** A `raw_data` row. Dates are the text the API sent, or NULL. */
  datatype RawRow = RawRow(dateCreated: Option<string>, dateModified: Option<string>,
                           payload: Cell, fetchDate: string)

  datatype RawRecord = RawRecord(id: string, row: RawRow)

  /** The columns `init_db` gives the `preprints` table. */
  const PreprintColumns: set<string> := {
    "id", "title", "description", "date_created", "date_modified", "date_published",
    "original_publication_date", "publication_doi", "preprint_doi", "download_url", "license",
    "is_published", "reviews_state", "version", "is_latest_version", "has_coi",
    "conflict_of_interest_statement", "has_data_links", "why_no_data", "data_links",
    "has_prereg_links", "why_no_prereg", "prereg_links", "prereg_link_info",
    "contributors", "subjects", "tags"
  }

  class Database {
    var rawData: Option<map<string, RawRow>>
    var preprints: Option<map<string, Row>>
    /** Keyed by the contributor's OSF user id. */
    var contributors: Option<map<string, Row>>
    /** Keyed by (preprint id, contributor id). */
    var preprintContributors: Option<map<(string, string), Row>>
    var subjects: Option<map<string, Row>>
    /** Keyed by (preprint id, subject id). */
    var preprintSubjects: Option<map<(string, string), Row>>
    var providers: Option<map<string, Row>>
    var preprintsUi: Option<map<string, Row>>

    /** A database file with no tables. */
    constructor ()
      ensures rawData.None? && preprints.None? && contributors.None?
      ensures preprintContributors.None? && subjects.None? && preprintSubjects.None?
      ensures providers.None? && preprintsUi.None?
    {
      rawData := None;
      preprints := None;
      contributors := None;
      preprintContributors := None;
      subjects := None;
      preprintSubjects := None;
      providers := None;
      preprintsUi := None;
    }

    /** `init_db`: creates each of `raw_data`, `preprints`, `contributors` and
        `preprint_contributors` that is missing, empty; existing tables keep their rows. */
    method InitDb()
      modifies this`rawData, this`preprints, this`contributors, this`preprintContributors
      ensures rawData == Created(old(rawData)) && preprints == Created(old(preprints))
      ensures contributors == Created(old(contributors))
      ensures preprintContributors == Created(old(preprintContributors))
      ensures subjects == old(subjects) && preprintSubjects == old(preprintSubjects)
      ensures providers == old(providers) && preprintsUi == old(preprintsUi)
    {
      if rawData.None? {
        rawData := Some(map[]);
      }
      if preprints.None? {
        preprints := Some(map[]);
      }
      if contributors.None? {
        contributors := Some(map[]);
      }
      if preprintContributors.None? {
        preprintContributors := Some(map[]);
      }
    }
  }

  /** A table after `CREATE TABLE IF NOT EXISTS`: an empty one when it was missing. */
  function Created<K, V>(t: Option<map<K, V>>): Option<map<K, V>> {
    if t.None? then Some(map[]) else t
  }

  function TableOr<K, V>(t: Option<map<K, V>>): map<K, V> {
    if t.Some? then t.value else map[]
  }

  /** The payload `add_raw_data` stores: the file path only in "path" mode with a path given,
      otherwise the serialised document. */
  function RawPayload(data: Json, filePath: Option<string>, storeMode: string): (c: Cell)
    ensures c.Text? <==> storeMode == "path" && filePath.Some? && filePath.value != ""
    ensures c.Text? ==> c.s == filePath.value
    ensures !c.Text? ==> c == JsonText(data)
  {
    if storeMode == "path" && filePath.Some? && filePath.value != "" then Text(filePath.value)
    else JsonText(data)
  }

  /** The `raw_data` row `add_raw_data` and `save_preprint` write for a document, or the
      AttributeError `.get` raises when the document or its attributes is not a dict. */
  function RawRowFor(data: Json, payload: Cell, now: string): (r: Result<RawRow, PyError>)
    ensures r.Ok? <==> data.JObj? && Get(data, "attributes", EmptyObj).value.JObj?
    ensures r.Ok? ==>
      var attributes := Get(data, "attributes", EmptyObj).value;
      r.value.dateCreated == TextOrNull(Get(attributes, "date_created", JNull).value)
      && r.value.dateModified == TextOrNull(Get(attributes, "date_modified", JNull).value)
      && r.value.payload == payload && r.value.fetchDate == now
  {
    match Get(data, "attributes", EmptyObj)
    case Err(e) => Err(e)
    case Ok(attributes) =>
      match Get(attributes, "date_created", JNull)
      case Err(e) => Err(e)
      case Ok(created) =>
        var modified := Get(attributes, "date_modified", JNull).value;
        Ok(RawRow(TextOrNull(created), TextOrNull(modified), payload, now))
  }

  /** `add_raw_data(preprint_id, data, file_path)`. `storeMode` is `config.STORE_JSON_AS`;
      `None` stands for the attribute missing from the configuration, where the lookup raises.
      `refused` says the database refuses the write. Every failure is caught and gives False. */
  method AddRawData(db: Database, preprintId: string, data: Json, filePath: Option<string>,
                    storeMode: Option<string>, now: string, refused: bool) returns (ok: bool)
    modifies db`rawData, db`preprints, db`contributors, db`preprintContributors
    ensures ok <==> storeMode.Some? && !refused && RawRowFor(data, JsonText(data), now).Ok?
    ensures ok ==> db.rawData == Some(TableOr(old(db.rawData))[preprintId :=
      RawRowFor(data, RawPayload(data, filePath, storeMode.value), now).value])
    ensures !ok && (storeMode.None? || RawRowFor(data, JsonText(data), now).Err?) ==>
      unchanged(db)
    ensures !ok && storeMode.Some? && RawRowFor(data, JsonText(data), now).Ok? ==>
      db.rawData == Created(old(db.rawData))
    ensures storeMode.Some? && RawRowFor(data, JsonText(data), now).Ok? ==>
      && db.preprints == Created(old(db.preprints)) && db.contributors == Created(old(db.contributors))
      && db.preprintContributors == Created(old(db.preprintContributors))
    ensures ok ==> IsPreprintHarvested(true, db.rawData, preprintId)
    ensures db.preprintsUi == old(db.preprintsUi) && db.subjects == old(db.subjects)
  {
    var row0 := RawRowFor(data, JsonText(data), now);
    if row0.Err? || storeMode.None? {
      return false;
    }
    var payload := RawPayload(data, filePath, storeMode.value);
    var row := RawRowFor(data, payload, now);
    db.InitDb();
    if refused {
      return false;
    }
    db.rawData := Some(db.rawData.value[preprintId := row.value]);
    ok := true;
  }

  /** Whether a `date_created` value has the shape `____-__-__T__:__:__%` (SQLite LIKE: `_`
      is any one character, the `T` matches either case). */
  predicate HasTimestampShape(v: string) {
    |v| >= 19 && v[4] == '-' && v[7] == '-' && (v[10] == 'T' || v[10] == 't')
    && v[13] == ':' && v[16] == ':'
  }

  /** The ORDER BY key of `get_most_recent_date`: values without the timestamp shape rank as
      `0001-01-01T00:00:00.000000`. */
  function RankKey(v: string): string {
    if HasTimestampShape(v) then v else "0001-01-01T00:00:00.000000"
  }

  /** `get_most_recent_date()`: the `date_created` ranked highest by `RankKey`, or None when
      the database file or `raw_data` is missing or no row has a date. */
  function MostRecentDate(dbExists: bool, raw: Option<map<string, RawRow>>): (r: Option<string>)
    ensures r.Some? <==> (dbExists && raw.Some? &&
      exists id :: id in raw.value && raw.value[id].dateCreated.Some?)
    ensures r.Some? ==> exists id :: id in raw.value && raw.value[id].dateCreated == r
    ensures r.Some? ==> forall id :: id in raw.value && raw.value[id].dateCreated.Some? ==>
      !Text.Less(RankKey(r.value), RankKey(raw.value[id].dateCreated.value))
  {
    if !dbExists || raw.None? then None
    else
      var t := raw.value;
      var ids := set id | id in t && t[id].dateCreated.Some?;
      assert forall id :: id in t && t[id].dateCreated.Some? ==> id in ids;
      if ids == {} then None
      else
        var key := map id | id in ids :: Sql.SText(RankKey(t[id].dateCreated.value));
        var m := Sql.Greatest(key, ids);
        assert forall id :: id in ids ==>
          !Text.Less(RankKey(t[m].dateCreated.value), RankKey(t[id].dateCreated.value)) by {
          forall id | id in ids
            ensures !Text.Less(RankKey(t[m].dateCreated.value), RankKey(t[id].dateCreated.value))
          {
            assert !Sql.SqlLess(key[m], key[id]);
          }
        }
        t[m].dateCreated
  }

  /** `is_preprint_harvested(id)`: False without the file or the `raw_data` table, else whether
      `count_where("id = ?", [id])` is positive. */
  function IsPreprintHarvested(dbExists: bool, raw: Option<map<string, RawRow>>, id: string): (r: bool)
    ensures !dbExists || raw.None? ==> !r
    ensures dbExists && raw.Some? ==> (r <==> |set k | k in raw.value && k == id| > 0)
  {
    if dbExists && raw.Some? then
      assert (set k | k in raw.value && k == id) == if id in raw.value then {id} else {};
      id in raw.value
    else false
  }

  /** `get_unprocessed_preprints()` (database.py): the raw rows with no `preprints` row, or
      none when the file or either table is missing. The query has no ORDER BY, so the result
      is a map. */
  function UnprocessedRows(dbExists: bool, raw: Option<map<string, RawRow>>,
                           preprints: Option<map<string, Row>>): (r: map<string, RawRow>)
    ensures !dbExists || raw.None? || preprints.None? ==> r == map[]
    ensures forall id :: id in r ==> raw.Some? && id in raw.value && r[id] == raw.value[id]
    ensures dbExists && raw.Some? && preprints.Some? ==>
      forall id :: id in raw.value ==> (id in r <==> id !in preprints.value)
  {
    if !dbExists || raw.None? || preprints.None? then map[]
    else map id | id in raw.value && id !in preprints.value :: raw.value[id]
  }

  /** A row waiting for ingestion has been harvested, and with both tables present a
      harvested preprint waits for ingestion exactly when it has no `preprints` row. */
  lemma UnprocessedAreHarvested(dbExists: bool, raw: Option<map<string, RawRow>>,
                                preprints: Option<map<string, Row>>)
    ensures forall id :: id in UnprocessedRows(dbExists, raw, preprints) ==> IsPreprintHarvested(dbExists, raw, id)
    ensures preprints.Some? ==> forall id :: IsPreprintHarvested(dbExists, raw, id) ==>
      (id in UnprocessedRows(dbExists, raw, preprints) <==> id !in preprints.value)
  {
  }

  /** The table after upserting `records` in order. */
  function UpsertAll(table: map<string, RawRow>, records: seq<RawRecord>): map<string, RawRow>
  {
    if records == [] then table
    else
      var last := records[|records| - 1];
      UpsertAll(table, records[..|records| - 1])[last.id := last.row]
  }

  /** The row of the last record with primary key `id`. */
  function LastRowFor(records: seq<RawRecord>, id: string): Option<RawRow> {
    if records == [] then None
    else if records[|records| - 1].id == id then Some(records[|records| - 1].row)
    else LastRowFor(records[..|records| - 1], id)
  }

  /** After a batch upsert a key holds the row of its last record; keys without a record
      keep their row. */
  lemma {:induction false} UpsertAllContents(table: map<string, RawRow>, records: seq<RawRecord>, id: string)
    ensures id in UpsertAll(table, records) <==> id in table || LastRowFor(records, id).Some?
    ensures LastRowFor(records, id).Some? ==>
      UpsertAll(table, records)[id] == LastRowFor(records, id).value
    ensures LastRowFor(records, id).None? && id in table ==> UpsertAll(table, records)[id] == table[id]
    decreases |records|
  {
    if records != [] {
      UpsertAllContents(table, records[..|records| - 1], id);
    }
  }

  /** `add_raw_data_batch(records, db)`. Without a connection (`provided` false) it runs
      `init_db` first; otherwise the upsert creates `raw_data` if needed. An empty batch
      creates nothing. `refused` makes the upsert raise, which gives 0. */
  method AddRawDataBatch(db: Database, records: seq<RawRecord>, provided: bool, refused: bool)
    returns (n: int)
    modifies db`rawData, db`preprints, db`contributors, db`preprintContributors
    ensures n == if refused then 0 else |records|
    ensures !refused && records != [] ==>
      db.rawData == Some(UpsertAll(TableOr(old(db.rawData)), records))
    ensures refused || records == [] ==>
      db.rawData == if provided then old(db.rawData) else Created(old(db.rawData))
    ensures provided ==>
      (db.preprints == old(db.preprints) && db.contributors == old(db.contributors)
       && db.preprintContributors == old(db.preprintContributors))
    ensures !provided ==>
      (db.preprints == Created(old(db.preprints)) && db.contributors == Created(old(db.contributors))
       && db.preprintContributors == Created(old(db.preprintContributors)))
    ensures db.preprintsUi == old(db.preprintsUi)
  {
    if !provided {
      db.InitDb();
    }
    if refused {
      return 0;
    }
    if records != [] {
      db.rawData := Some(UpsertAll(TableOr(db.rawData), records));
    }
    n := |records|;
  }

  /** `recreate_indexes()`: drops and recreates the two date indexes of each of `preprints`
      and `raw_data` that exists, counting them. */
  method RecreateIndexes(db: Database) returns (count: int)
    ensures count == (if db.preprints.Some? then 2 else 0) + (if db.rawData.Some? then 2 else 0)
  {
    var tables := ["preprints", "raw_data"];
    var columns := ["date_created", "date_modified"];
    count := 0;
    var t := 0;
    while t < |tables|
      invariant 0 <= t <= |tables|
      invariant count == (if t > 0 && db.preprints.Some? then 2 else 0)
                       + (if t > 1 && db.rawData.Some? then 2 else 0)
    {
      var present := if tables[t] == "preprints" then db.preprints.Some? else db.rawData.Some?;
      if present {
        var c := 0;
        while c < |columns|
          invariant 0 <= c <= |columns|
          invariant count == (if t > 0 && db.preprints.Some? then 2 else 0)
                           + (if t > 1 && db.rawData.Some? then 2 else 0) + c
        {
          count := count + 1;
          c := c + 1;
        }
      }
      t := t + 1;
    }
  }
}

=== FILE: entities.dfy ===
/** Entity processing (osf/entities.py): providers, contributors and their links to a
    preprint, subjects and their links, the normalised tag list, and the module's own
    `extract_preprint_data`. A failed write is an oracle parameter: the positions (or flag)
    whose upsert the database refuses. */
module Entities {
  import opened Wrappers
  import opened JsonModel
  import Text
  import Db
  import Ingestor

  // ---------------------------------------------------------------- tags

  /** What one entry of `tags` adds to `all_tags`: nothing for a falsy or non-string entry;
      for a stripped tag holding `,` or `;`, its non-empty stripped pieces (semicolons read
      as commas); otherwise the stripped tag itself, which is `""` for a tag of whitespace. */
  function TagPieces(tag: Json): seq<string> {
    if !tag.JStr? || tag.s == "" then []
    else
      var t := Text.Strip(tag.s);
      if ',' in t || ';' in t then KeepStripped(Text.Split(Text.ReplaceChar(t, ';', ","), ','))
      else [t]
  }

  /** `[t.strip() for t in parts if t.strip()]`. */
  function KeepStripped(parts: seq<string>): (r: seq<string>)
    ensures "" !in r
  {
    if parts == [] then []
    else
      var rest := KeepStripped(parts[1..]);
      var t := Text.Strip(parts[0]);
      if t != "" then [t] + rest else rest
  }

  /** `all_tags` after the loop over `items`. */
  function AllTags(items: seq<Json>): seq<string> {
    if items == [] then []
    else AllTags(items[..|items| - 1]) + TagPieces(items[|items| - 1])
  }

  /** The loop of `process_tags` that builds `all_tags`. */
  method CollectTags(items: seq<Json>) returns (all: seq<string>)
    ensures all == AllTags(items)
  {
    all := [];
    for i := 0 to |items|
      invariant all == AllTags(items[..i])
    {
      assert items[..i + 1][..i] == items[..i];
      all := all + TagPieces(items[i]);
    }
    assert items[..|items|] == items;
  }

  /** A tag is clean: no separator, no surrounding whitespace. */
  predicate CleanTag(t: string) {
    ',' !in t && ';' !in t && Text.HasNoOuterSpace(t)
  }

  /** A piece read off `t` with semicolons turned into commas is, when it holds no comma,
      a piece of `t` itself. */
  lemma ReplacedOccurs(t: string, sub: string, i: int)
    requires Text.OccursAt(Text.ReplaceChar(t, ';', ","), sub, i) && ',' !in sub
    ensures Text.OccursAt(t, sub, i)
  {
    var r := Text.ReplaceChar(t, ';', ",");
    Text.ReplaceCharPositions(t, ';', ',');
    forall k | 0 <= k < |sub| ensures t[i + k] == sub[k] {
      assert r[i + k] == sub[k];
    }
    assert t[i..i + |sub|] == sub;
  }

  /** A piece of `t.replace(';', ',').split(',')` holds no separator and is found in `t`. */
  lemma PieceOfTag(t: string, p: string)
    requires p in Text.Split(Text.ReplaceChar(t, ';', ","), ',')
    ensures ',' !in p && ';' !in p && Text.Contains(t, p)
  {
    var r := Text.ReplaceChar(t, ';', ",");
    var parts := Text.Split(r, ',');
    var k :| 0 <= k < |parts| && parts[k] == p;
    Text.SplitPiecesOccur(r, ',');
    var i :| 0 <= i <= |r| && Text.OccursAt(r, p, i);
    Text.OccursLacks(r, p, i, ';');
    ReplacedOccurs(t, p, i);
  }

  /** Stripping pieces free of separators that are found in `t` gives clean tags found in `t`. */
  lemma {:induction false} KeepStrippedClean(t: string, parts: seq<string>)
    requires forall p :: p in parts ==> ',' !in p && ';' !in p && Text.Contains(t, p)
    ensures forall x :: x in KeepStripped(parts) ==> CleanTag(x) && Text.Contains(t, x)
  {
    if parts != [] {
      KeepStrippedClean(t, parts[1..]);
      var p := parts[0];
      var x := Text.Strip(p);
      assert p in parts;
      var i1 :| 0 <= i1 <= |t| && Text.OccursAt(t, p, i1);
      var i2 :| Text.OccursAt(p, x, i2);
      Text.OccursLacks(p, x, i2, ',');
      Text.OccursLacks(p, x, i2, ';');
      Text.OccursWithin(t, p, x, i1, i2);
    }
  }

  /** Every tag an entry contributes is clean and is found, with its case, in the entry. */
  lemma TagPiecesClean(tag: Json)
    ensures forall x :: x in TagPieces(tag) ==> CleanTag(x) && tag.JStr? && Text.Contains(tag.s, x)
  {
    if tag.JStr? && tag.s != "" {
      var t := Text.Strip(tag.s);
      var i0 :| Text.OccursAt(tag.s, t, i0);
      if ',' in t || ';' in t {
        var parts := Text.Split(Text.ReplaceChar(t, ';', ","), ',');
        forall p | p in parts ensures ',' !in p && ';' !in p && Text.Contains(t, p) {
          PieceOfTag(t, p);
        }
        KeepStrippedClean(t, parts);
        forall x | x in TagPieces(tag) ensures Text.Contains(tag.s, x) {
          var i :| 0 <= i <= |t| && Text.OccursAt(t, x, i);
          Text.OccursWithin(tag.s, t, x, i0, i);
        }
      } else {
        assert Text.Contains(tag.s, t);
      }
    }
  }

  /** Every collected tag is clean and found in one of the string entries. */
  lemma {:induction false} AllTagsClean(items: seq<Json>)
    ensures forall x :: x in AllTags(items) ==> (CleanTag(x) &&
      exists j :: 0 <= j < |items| && items[j].JStr? && Text.Contains(items[j].s, x))
  {
    if items != [] {
      var n := |items| - 1;
      AllTagsClean(items[..n]);
      TagPiecesClean(items[n]);
      forall x | x in AllTags(items)
        ensures CleanTag(x) && exists j :: 0 <= j < |items| && items[j].JStr? && Text.Contains(items[j].s, x)
      {
        if x in AllTags(items[..n]) {
          var j :| 0 <= j < n && items[..n][j].JStr? && Text.Contains(items[..n][j].s, x);
          assert items[j] == items[..n][j];
        }
      }
    }
  }

  /** The tag column `process_tags` writes: the distinct collected tags, ascending. */
  function StoredTags(items: seq<Json>): seq<string> {
    Text.SortedDistinct(AllTags(items))
  }

  /** The stored list is strictly ascending (sorted, no repeats), holds every collected tag
      and nothing else, and each tag is clean and found, case kept, in an input tag. */
  lemma StoredTagsProperties(items: seq<Json>)
    ensures Text.StrictlySorted(StoredTags(items))
    ensures forall x :: x in StoredTags(items) <==> x in AllTags(items)
    ensures forall x :: x in StoredTags(items) ==> (CleanTag(x) &&
      exists j :: 0 <= j < |items| && items[j].JStr? && Text.Contains(items[j].s, x))
  {
    AllTagsClean(items);
  }

  /** `json.dumps` of a list of strings. */
  function StringList(xs: seq<string>): Json {
    JArr(seq(|xs|, i requires 0 <= i < |xs| => JStr(xs[i])))
  }

  /** `process_tags(db, preprint_id, tags)`: stores the normalised tag list in the
      preprint's `tags` column. Every failure is caught and changes nothing: `tags` that
      cannot be iterated, and `update` on a preprint (or table) that does not exist. */
  method ProcessTags(db: Db.Database, preprintId: string, tags: Json)
    modifies db`preprints
    ensures Iterate(tags).Ok? && old(db.preprints).Some? && preprintId in old(db.preprints).value ==>
      db.preprints == Some(Db.UpsertRow(old(db.preprints).value, preprintId,
        map["tags" := JsonText(StringList(StoredTags(Iterate(tags).value)))]))
    ensures !(Iterate(tags).Ok? && old(db.preprints).Some? && preprintId in old(db.preprints).value) ==>
      db.preprints == old(db.preprints)
    ensures db.rawData == old(db.rawData) && db.subjects == old(db.subjects)
  {
    var items := Iterate(tags);
    if items.Err? {
      return;
    }
    var all := CollectTags(items.value);
    var unique := Text.SortedDistinct(all);
    if db.preprints.None? || preprintId !in db.preprints.value {
      return;
    }
    db.preprints := Some(Db.UpsertRow(db.preprints.value, preprintId,
      map["tags" := JsonText(StringList(unique))]));
  }

  // ---------------------------------------------------------------- provider

  /** The provider id at `relationships.provider.data.id`, None when it is missing or falsy.
      A `relationships`, `provider` or `data` that is present but not a dict raises. */
  function ProviderId(relationships: Json): (r: Result<Option<string>, PyError>)
    ensures !relationships.JObj? ==> r == Err(AttributeError)
  {
    var id :- GetPath(relationships, ["provider", "data", "id"], JNull);
    Ok(KeyOf(id))
  }

  /** `process_provider(db, relationships)`: upserts a row holding just the provider id and
      returns the id, or returns None and writes nothing. A write the database refuses is
      not caught. */
  method ProcessProvider(db: Db.Database, relationships: Json, refused: bool)
    returns (r: Result<Option<string>, PyError>)
    modifies db`providers
    ensures ProviderId(relationships).Err? ==> r == Err(ProviderId(relationships).error)
    ensures ProviderId(relationships) == Ok(None) ==> r == Ok(None)
    ensures ProviderId(relationships).Ok? && ProviderId(relationships).value.Some? ==>
      r == (if refused then Err(StoreError) else ProviderId(relationships))
    ensures r.Ok? && r.value.Some? ==> (db.providers ==
      Some(Db.UpsertRow(Db.TableOr(old(db.providers)), r.value.value, map["id" := Text(r.value.value)])))
    ensures r.Ok? && r.value.Some? ==> r.value.value in db.providers.value
    ensures !(r.Ok? && r.value.Some?) ==> db.providers == old(db.providers)
    ensures db.preprints == old(db.preprints) && db.rawData == old(db.rawData)
  {
    var id := ProviderId(relationships);
    if id.Err? {
      return Err(id.error);
    }
    if id.value.None? {
      return Ok(None);
    }
    if refused {
      return Err(StoreError);
    }
    var pid := id.value.value;
    db.providers := Some(Db.UpsertRow(Db.TableOr(db.providers), pid, map["id" := Text(pid)]));
    r := Ok(Some(pid));
  }

  // ---------------------------------------------------------------- extraction

  /** The keys of the dict this module's `extract_preprint_data` returns: the `preprints`
      columns without `contributors` and `subjects`, plus `provider`. */
  const EntityColumns: set<string> := Db.PreprintColumns - {"contributors", "subjects"} + {"provider"}

  /** Column `c` of the row: `provider` is the raw provider id, `tags` the empty JSON list,
      and every other column is read as the ingestor reads it. */
  function EntityColumnValue(c: string, id: string, p: Ingestor.Parts, provider: Json): Cell {
    if c == "provider" then ToCell(provider)
    else if c == "tags" then JsonText(JArr([]))
    else Ingestor.ColumnValue(c, id, p.attributes, p.links, p.download, p.license, p.contributors)
  }

  /** The reads this `extract_preprint_data` performs: the ingestor's, without the contributor
      list, plus `relationships.provider.data.id`. */
  function ReadEntityParts(data: Json): (r: Result<(Ingestor.Parts, Json), PyError>)
    ensures !data.JObj? ==> r == Err(AttributeError)
    ensures r.Ok? ==> r.value.0.contributors == []
  {
    var d :- Ingestor.AsDict(data);
    var attributes := Ingestor.At(d, "attributes", EmptyObj);
    var relationships := Ingestor.At(d, "relationships", EmptyObj);
    var links := Ingestor.At(d, "links", EmptyObj);
    var embeds := Ingestor.At(d, "embeds", EmptyObj);
    var a :- Ingestor.AsDict(attributes);
    var l :- Ingestor.AsDict(links);
    var provider :- GetPath(relationships, ["provider", "data", "id"], JNull);
    var download :- Ingestor.DownloadCell(relationships);
    var license :- Ingestor.LicenseName(embeds);
    Ok((Ingestor.Parts(a, l, download, license, []), provider))
  }

  /** `extract_preprint_data(preprint_id, preprint_data)` of the entity module. */
  function ExtractEntityData(id: string, data: Json): (r: Result<Db.Row, PyError>)
    ensures !data.JObj? ==> r == Err(AttributeError)
    ensures r.Ok? ==> r.value.Keys == EntityColumns
  {
    var (p, provider) :- ReadEntityParts(data);
    Ok(EntityRow(id, p, provider))
  }

  function EntityRow(id: string, p: Ingestor.Parts, provider: Json): Db.Row {
    map c | c in EntityColumns :: EntityColumnValue(c, id, p, provider)
  }

  /** The entity row starts with an empty tag list, and its `provider` is the id
      `process_provider` stores for the same document's `relationships`. */
  lemma EntityProviderAndTags(id: string, data: Json)
    requires ExtractEntityData(id, data).Ok?
    ensures ExtractEntityData(id, data).value["tags"] == JsonText(JArr([]))
    ensures ProviderId(Ingestor.Sub(data, "relationships")).Ok?
    ensures ProviderId(Ingestor.Sub(data, "relationships")).value.Some? ==>
      ExtractEntityData(id, data).value["provider"] ==
        Text(ProviderId(Ingestor.Sub(data, "relationships")).value.value)
  {
    var (p, provider) := ReadEntityParts(data).value;
    assert ExtractEntityData(id, data).value == EntityRow(id, p, provider);
    assert GetPath(Ingestor.Sub(data, "relationships"), ["provider", "data", "id"], JNull) == Ok(provider);
  }

  /** Where both extractions succeed they agree on every column they share except `tags`
      (the ingestor copies the document's tags, this module writes an empty list). */
  lemma EntityAgreesWithIngestor(id: string, data: Json)
    requires ExtractEntityData(id, data).Ok? && Ingestor.ExtractPreprintData(id, data).Ok?
    ensures forall c :: c in EntityColumns && c in Db.PreprintColumns && c != "tags" ==>
      ExtractEntityData(id, data).value[c] == Ingestor.ExtractPreprintData(id, data).value[c]
  {
    var (p, provider) := ReadEntityParts(data).value;
    var q := Ingestor.ReadParts(data).value;
    assert ExtractEntityData(id, data).value == EntityRow(id, p, provider);
    assert Ingestor.ExtractPreprintData(id, data).value
      == Ingestor.PreprintRow(id, q.attributes, q.links, q.download, q.license, q.contributors);
    ReadPartsAgree(data);
    RowsAgree(id, p, provider, q);
  }

  /** Rows built from the same reads agree on the shared columns other than `tags`. */
  lemma RowsAgree(id: string, p: Ingestor.Parts, provider: Json, q: Ingestor.Parts)
    requires p.attributes == q.attributes && p.links == q.links
    requires p.download == q.download && p.license == q.license
    ensures forall c :: c in EntityColumns && c in Db.PreprintColumns && c != "tags" ==>
      EntityRow(id, p, provider)[c] ==
        Ingestor.PreprintRow(id, q.attributes, q.links, q.download, q.license, q.contributors)[c]
  {
    forall c | c in EntityColumns && c in Db.PreprintColumns && c != "tags"
      ensures EntityRow(id, p, provider)[c] ==
        Ingestor.PreprintRow(id, q.attributes, q.links, q.download, q.license, q.contributors)[c]
    {
      ColumnIgnoresContributors(c, id, p, q.contributors);
    }
  }

  /** The two modules read the same attributes, links, download link and license. */
  lemma ReadPartsAgree(data: Json)
    requires ReadEntityParts(data).Ok? && Ingestor.ReadParts(data).Ok?
    ensures var (p, _) := ReadEntityParts(data).value;
      var q := Ingestor.ReadParts(data).value;
      p.attributes == q.attributes && p.links == q.links && p.download == q.download && p.license == q.license
  {
  }

  /** Only the `contributors` column depends on the contributor entries. */
  lemma ColumnIgnoresContributors(c: string, id: string, p: Ingestor.Parts, cs: seq<Ingestor.ContribEntry>)
    requires c != "contributors"
    ensures Ingestor.ColumnValue(c, id, p.attributes, p.links, p.download, p.license, p.contributors)
      == Ingestor.ColumnValue(c, id, p.attributes, p.links, p.download, p.license, cs)
  {
  }

  // ---------------------------------------------------------------- contributors

  /** The user id at `<via>.users.data.id` of a contributor, None when missing or falsy. */
  function UserIdAt(contrib: Json, via: string): (r: Result<Option<string>, PyError>)
    ensures !contrib.JObj? ==> r == Err(AttributeError)
  {
    var user :- GetPath(contrib, [via, "users", "data"], EmptyObj);
    var id :- Get(user, "id", JNull);
    Ok(KeyOf(id))
  }

  /** The columns of a `contributors` row. */
  const ContributorColumns: set<string> := {
    "id", "full_name", "given_name", "middle_names", "family_name", "suffix", "date_registered",
    "active", "timezone", "locale", "orcid", "github", "scholar", "profile_websites",
    "employment", "education", "profile_url"
  }

  /** Column `c` of a contributor record, from the embedded user's attributes `ua`, its
      `social` dict and its `links` dict. */
  function ContributorColumn(c: string, id: string, ua: seq<Member>, social: seq<Member>,
                             links: seq<Member>): Cell
  {
    if c == "id" then Text(id)
    else if c == "active" then Ingestor.Flag(Ingestor.At(ua, "active", JNull))
    else if c == "profile_websites" then JsonText(Ingestor.At(social, "profileWebsites", JArr([])))
    else if c == "employment" || c == "education" then JsonText(Ingestor.At(ua, c, JArr([])))
    else if c == "orcid" || c == "github" || c == "scholar" then ToCell(Ingestor.At(social, c, JNull))
    else if c == "profile_url" then ToCell(Ingestor.At(links, "html", JNull))
    else ToCell(Ingestor.At(ua, c, JNull))
  }

  /** What one contributor writes: its id, its `contributors` row, and its
      `preprint_contributors` row, or the exception raised once the first row is written. */
  datatype ContribRows = ContribRows(id: string, record: Db.Row, link: Result<Db.Row, PyError>)

  /** The body of the `try` for the contributor at position `idx`, up to its writes: an
      exception raised before the first write, a skip (no user id), or the rows to write. */
  function ContributorRows(contrib: Json, pid: string, idx: int): (r: Result<Option<ContribRows>, PyError>)
    ensures !contrib.JObj? ==> r == Err(AttributeError)
  {
    var primary :- UserIdAt(contrib, "relationships");
    var id :- if primary.Some? then Ok(primary) else UserIdAt(contrib, "embeds");
    if id.None? then Ok(None)
    else
      var user :- GetPath(contrib, ["embeds", "users", "data", "attributes"], EmptyObj);
      var attrs :- Get(contrib, "attributes", EmptyObj);
      var links :- GetPath(contrib, ["embeds", "users", "data", "links"], EmptyObj);
      var ua :- Ingestor.AsDict(user);
      var social :- Get(user, "social", EmptyObj);
      var sm :- Ingestor.AsDict(social);
      var lm :- Ingestor.AsDict(links);
      var record := map c | c in ContributorColumns :: ContributorColumn(c, id.value, ua, sm, lm);
      var link: Result<Db.Row, PyError> :=
        if !attrs.JObj? then Err(AttributeError)
        else Ok(map["preprint_id" := Text(pid), "contributor_id" := Text(id.value),
                    "contributor_index" := Int(idx),
                    "bibliographic" := Ingestor.Flag(Ingestor.At(attrs.members, "bibliographic", JBool(true)))]);
      Ok(Some(ContribRows(id.value, record, link)))
  }

  /** The id comes from `relationships.users.data.id` when that is truthy, and otherwise
      from `embeds.users.data.id`; a contributor with neither is skipped. */
  lemma ContributorIdChosen(contrib: Json, pid: string, idx: int)
    ensures ContributorRows(contrib, pid, idx).Ok? && ContributorRows(contrib, pid, idx).value.Some? ==>
      var id := ContributorRows(contrib, pid, idx).value.value.id;
      UserIdAt(contrib, "relationships") == Ok(Some(id)) ||
      (UserIdAt(contrib, "relationships") == Ok(None) && UserIdAt(contrib, "embeds") == Ok(Some(id)))
    ensures ContributorRows(contrib, pid, idx) == Ok(None) <==>
      UserIdAt(contrib, "relationships") == Ok(None) && UserIdAt(contrib, "embeds") == Ok(None)
  {
  }

  /** The record is keyed by the chosen id and has the contributor columns. */
  lemma ContributorRowFields(contrib: Json, pid: string, idx: int)
    requires ContributorRows(contrib, pid, idx).Ok? && ContributorRows(contrib, pid, idx).value.Some?
    ensures var c := ContributorRows(contrib, pid, idx).value.value;
      c.record.Keys == ContributorColumns && c.record["id"] == Text(c.id) && c.id != ""
  {
  }

  /** The link can be built exactly when the contributor has an `attributes` object. */
  lemma ContributorLinkBuilt(contrib: Json, pid: string, idx: int)
    requires ContributorRows(contrib, pid, idx).Ok? && ContributorRows(contrib, pid, idx).value.Some?
    ensures var c := ContributorRows(contrib, pid, idx).value.value;
      c.link.Ok? <==> Ingestor.Sub(contrib, "attributes").JObj?
  {
  }

  /** The link names the preprint, the contributor and the contributor's position in the
      list, and `bibliographic` is 0 or 1, 1 by default. */
  lemma ContributorLinkFields(contrib: Json, pid: string, idx: int)
    requires ContributorRows(contrib, pid, idx).Ok? && ContributorRows(contrib, pid, idx).value.Some?
    ensures var c := ContributorRows(contrib, pid, idx).value.value;
      c.link.Ok? ==> (c.link.value["preprint_id"] == Text(pid) && c.link.value["contributor_id"] == Text(c.id)
        && c.link.value["contributor_index"] == Int(idx) && c.link.value["bibliographic"] in {Int(0), Int(1)}
        && (Ingestor.Field(Ingestor.Sub(contrib, "attributes"), "bibliographic").None? ==>
              c.link.value["bibliographic"] == Int(1)))
  {
  }

  /** The `contributors` and `preprint_contributors` tables. */
  datatype CState = CState(people: map<string, Db.Row>, links: map<(string, string), Db.Row>)

  /** A contributor outcome that writes rows: it has an id and nothing raised before the write. */
  predicate Writes(r: Result<Option<ContribRows>, PyError>) {
    r.Ok? && r.value.Some?
  }

  /** The contributor at `i` has its record written: it writes and the database took it. */
  predicate Recorded(rows: seq<Result<Option<ContribRows>, PyError>>, i: int, refusedRecord: set<int>)
    requires 0 <= i < |rows|
  {
    Writes(rows[i]) && i !in refusedRecord
  }

  /** The contributor at `i` has its link written too. */
  predicate Linked(rows: seq<Result<Option<ContribRows>, PyError>>, i: int, refusedRecord: set<int>,
                   refusedLink: set<int>)
    requires 0 <= i < |rows|
  {
    Recorded(rows, i, refusedRecord) && rows[i].value.value.link.Ok? && i !in refusedLink
  }

  /** Every link row in `rows` carries its own position as `contributor_index`. */
  predicate IndexedLinks(rows: seq<Result<Option<ContribRows>, PyError>>) {
    forall i :: 0 <= i < |rows| && Writes(rows[i]) && rows[i].value.value.link.Ok? ==>
      Db.Col(rows[i].value.value.link.value, "contributor_index") == Int(i)
  }

  /** One pass of the loop: the writes of one contributor; an exception ends the pass and
      keeps what was written. */
  function ContribStep(s: CState, pid: string, r: Result<Option<ContribRows>, PyError>,
                       recordRefused: bool, linkRefused: bool): CState
  {
    if r.Err? || r.value.None? || recordRefused then s
    else
      var c := r.value.value;
      var people := Db.UpsertRow(s.people, c.id, c.record);
      if c.link.Err? || linkRefused then CState(people, s.links)
      else CState(people, Db.UpsertRow(s.links, (pid, c.id), c.link.value))
  }

  /** The tables after the loop has handled `rows`, the outcomes of the contributors in order. */
  function ContribTable(s: CState, pid: string, rows: seq<Result<Option<ContribRows>, PyError>>,
                        refusedRecord: set<int>, refusedLink: set<int>): CState
  {
    if rows == [] then s
    else
      var n := |rows| - 1;
      ContribStep(ContribTable(s, pid, rows[..n], refusedRecord, refusedLink), pid, rows[n],
                  n in refusedRecord, n in refusedLink)
  }

  function ContributorRowsOf(items: seq<Json>, pid: string): seq<Result<Option<ContribRows>, PyError>> {
    seq(|items|, i requires 0 <= i < |items| => ContributorRows(items[i], pid, i))
  }

  /** One contributor's failure does not stop the others: every recorded contributor is in
      `contributors`, and nothing else is added. */
  lemma {:induction false} ContribPeople(s: CState, pid: string,
      rows: seq<Result<Option<ContribRows>, PyError>>, refusedRecord: set<int>, refusedLink: set<int>)
    ensures var t := ContribTable(s, pid, rows, refusedRecord, refusedLink);
      forall i :: 0 <= i < |rows| && Recorded(rows, i, refusedRecord) ==> rows[i].value.value.id in t.people
    ensures var t := ContribTable(s, pid, rows, refusedRecord, refusedLink);
      forall id :: id in t.people ==> (id in s.people ||
        exists i :: 0 <= i < |rows| && Recorded(rows, i, refusedRecord) && rows[i].value.value.id == id)
  {
    if rows != [] {
      var n := |rows| - 1;
      var front := rows[..n];
      ContribPeople(s, pid, front, refusedRecord, refusedLink);
      var t0 := ContribTable(s, pid, front, refusedRecord, refusedLink);
      var t := ContribTable(s, pid, rows, refusedRecord, refusedLink);
      assert t == ContribStep(t0, pid, rows[n], n in refusedRecord, n in refusedLink);
      assert t0.people.Keys <= t.people.Keys;
      forall i | 0 <= i < n ensures rows[i] == front[i] { }
      forall id | id in t.people ensures id in s.people ||
        exists i :: 0 <= i < |rows| && Recorded(rows, i, refusedRecord) && rows[i].value.value.id == id
      {
        if id in t0.people && id !in s.people {
          var i :| 0 <= i < |front| && Recorded(front, i, refusedRecord) && front[i].value.value.id == id;
          assert Recorded(rows, i, refusedRecord);
        }
      }
    }
  }

  /** Every contributor whose record and link were both written is linked to the preprint. */
  lemma {:induction false} ContribLinksWritten(s: CState, pid: string,
      rows: seq<Result<Option<ContribRows>, PyError>>, refusedRecord: set<int>, refusedLink: set<int>)
    ensures var t := ContribTable(s, pid, rows, refusedRecord, refusedLink);
      forall i :: 0 <= i < |rows| && Linked(rows, i, refusedRecord, refusedLink) ==>
        (pid, rows[i].value.value.id) in t.links
  {
    if rows != [] {
      var n := |rows| - 1;
      var front := rows[..n];
      ContribLinksWritten(s, pid, front, refusedRecord, refusedLink);
      var t0 := ContribTable(s, pid, front, refusedRecord, refusedLink);
      var t := ContribTable(s, pid, rows, refusedRecord, refusedLink);
      assert t == ContribStep(t0, pid, rows[n], n in refusedRecord, n in refusedLink);
      assert t0.links.Keys <= t.links.Keys;
      forall i | 0 <= i < n ensures rows[i] == front[i] { }
    }
  }

  /** A link is new and comes from a linked contributor at a position with that id. */
  predicate LinkFrom(rows: seq<Result<Option<ContribRows>, PyError>>, refusedRecord: set<int>,
                     refusedLink: set<int>, pid: string, k: (string, string), row: Db.Row)
  {
    k.0 == pid && exists i :: (0 <= i < |rows| && Linked(rows, i, refusedRecord, refusedLink) &&
      rows[i].value.value.id == k.1 && Db.Col(row, "contributor_index") == Int(i))
  }

  /** What one pass does to the links: at most one upsert, at the preprint's key. */
  lemma ContribStepLinks(t0: CState, pid: string, r: Result<Option<ContribRows>, PyError>,
                         recordRefused: bool, linkRefused: bool)
    ensures var t := ContribStep(t0, pid, r, recordRefused, linkRefused);
      if Writes(r) && !recordRefused && r.value.value.link.Ok? && !linkRefused
      then t.links == Db.UpsertRow(t0.links, (pid, r.value.value.id), r.value.value.link.value)
      else t.links == t0.links
  {
  }

  /** Every new link belongs to the preprint and carries the `contributor_index` of a linked
      contributor with that id: its position in the original list, so contributors that
      were skipped leave holes. Links that were there before and were not rewritten keep
      their rows. */
  lemma {:induction false} ContribLinksOrigin(s: CState, pid: string,
      rows: seq<Result<Option<ContribRows>, PyError>>, refusedRecord: set<int>, refusedLink: set<int>)
    requires IndexedLinks(rows)
    ensures var t := ContribTable(s, pid, rows, refusedRecord, refusedLink);
      forall k :: k in t.links ==> ((k in s.links && t.links[k] == s.links[k]) ||
        LinkFrom(rows, refusedRecord, refusedLink, pid, k, t.links[k]))
  {
    if rows != [] {
      var n := |rows| - 1;
      var front := rows[..n];
      forall i | 0 <= i < n ensures rows[i] == front[i] { }
      assert IndexedLinks(front);
      ContribLinksOrigin(s, pid, front, refusedRecord, refusedLink);
      var t0 := ContribTable(s, pid, front, refusedRecord, refusedLink);
      var t := ContribTable(s, pid, rows, refusedRecord, refusedLink);
      assert t == ContribStep(t0, pid, rows[n], n in refusedRecord, n in refusedLink);
      ContribStepLinks(t0, pid, rows[n], n in refusedRecord, n in refusedLink);
      forall k | k in t.links
        ensures (k in s.links && t.links[k] == s.links[k]) || LinkFrom(rows, refusedRecord, refusedLink, pid, k, t.links[k])
      {
        if Linked(rows, n, refusedRecord, refusedLink) && k == (pid, rows[n].value.value.id) {
          assert Db.Col(t.links[k], "contributor_index") == Int(n);
        } else {
          assert t.links[k] == t0.links[k];
          if !(k in s.links && t0.links[k] == s.links[k]) {
            assert LinkFrom(front, refusedRecord, refusedLink, pid, k, t0.links[k]);
            var i :| 0 <= i < |front| && Linked(front, i, refusedRecord, refusedLink) &&
              front[i].value.value.id == k.1 && Db.Col(t0.links[k], "contributor_index") == Int(i);
            assert Linked(rows, i, refusedRecord, refusedLink);
          }
        }
      }
    }
  }

  /** The outcomes `process_contributors` computes carry their positions in the link rows. */
  lemma ContributorRowsIndexed(items: seq<Json>, pid: string)
    ensures IndexedLinks(ContributorRowsOf(items, pid))
  {
    var rows := ContributorRowsOf(items, pid);
    forall i | 0 <= i < |rows| && Writes(rows[i]) && rows[i].value.value.link.Ok?
      ensures Db.Col(rows[i].value.value.link.value, "contributor_index") == Int(i)
    {
      ContributorRowFields(items[i], pid, i);
    }
  }

  /** The writes of one pass of the loop of `process_contributors`. */
  method WriteContributor(db: Db.Database, pid: string, r: Result<Option<ContribRows>, PyError>,
                          recordRefused: bool, linkRefused: bool)
    modifies db`contributors, db`preprintContributors
    ensures CState(Db.TableOr(db.contributors), Db.TableOr(db.preprintContributors)) ==
      ContribStep(CState(Db.TableOr(old(db.contributors)), Db.TableOr(old(db.preprintContributors))), pid, r,
                  recordRefused, linkRefused)
    ensures old(db.contributors).Some? ==> db.contributors.Some?
    ensures old(db.preprintContributors).Some? ==> db.preprintContributors.Some?
    ensures db.preprints == old(db.preprints) && db.rawData == old(db.rawData)
    ensures db.subjects == old(db.subjects) && db.preprintSubjects == old(db.preprintSubjects)
  {
    if r.Ok? && r.value.Some? && !recordRefused {
      var c := r.value.value;
      db.contributors := Some(Db.UpsertRow(Db.TableOr(db.contributors), c.id, c.record));
      if c.link.Ok? && !linkRefused {
        db.preprintContributors := Some(Db.UpsertRow(Db.TableOr(db.preprintContributors), (pid, c.id), c.link.value));
      }
    }
  }

  /** `process_contributors(db, preprint_id, preprint_data)`: for each embedded contributor,
      in order, writes its record and then its link; an exception for one contributor is
      caught and the loop goes on. Reading the list itself is not guarded. */
  method ProcessContributors(db: Db.Database, pid: string, data: Json, refusedRecord: set<int>,
                             refusedLink: set<int>) returns (raised: Option<PyError>)
    modifies db`contributors, db`preprintContributors
    ensures Ingestor.ContributorItems(data).Err? ==> (raised == Some(Ingestor.ContributorItems(data).error)
      && db.contributors == old(db.contributors) && db.preprintContributors == old(db.preprintContributors))
    ensures Ingestor.ContributorItems(data).Ok? ==> (raised.None? &&
      CState(Db.TableOr(db.contributors), Db.TableOr(db.preprintContributors)) ==
        ContribTable(CState(Db.TableOr(old(db.contributors)), Db.TableOr(old(db.preprintContributors))), pid,
                     ContributorRowsOf(Ingestor.ContributorItems(data).value, pid), refusedRecord, refusedLink))
    ensures old(db.contributors).Some? ==> db.contributors.Some?
    ensures old(db.preprintContributors).Some? ==> db.preprintContributors.Some?
    ensures db.preprints == old(db.preprints) && db.rawData == old(db.rawData)
    ensures db.subjects == old(db.subjects) && db.preprintSubjects == old(db.preprintSubjects)
  {
    var items := Ingestor.ContributorItems(data);
    if items.Err? {
      return Some(items.error);
    }
    ghost var s0 := CState(Db.TableOr(db.contributors), Db.TableOr(db.preprintContributors));
    ghost var rows := ContributorRowsOf(items.value, pid);
    for i := 0 to |items.value|
      invariant CState(Db.TableOr(db.contributors), Db.TableOr(db.preprintContributors)) ==
        ContribTable(s0, pid, rows[..i], refusedRecord, refusedLink)
      invariant old(db.contributors).Some? ==> db.contributors.Some?
      invariant old(db.preprintContributors).Some? ==> db.preprintContributors.Some?
      invariant db.preprints == old(db.preprints) && db.rawData == old(db.rawData)
      invariant db.subjects == old(db.subjects) && db.preprintSubjects == old(db.preprintSubjects)
    {
      assert rows[..i + 1][..i] == rows[..i];
      var r := ContributorRows(items.value[i], pid, i);
      assert r == rows[i];
      WriteContributor(db, pid, r, i in refusedRecord, i in refusedLink);
    }
    assert rows[..|items.value|] == rows;
    raised := None;
  }

  // ---------------------------------------------------------------- subjects

  /** The `subjects` and `preprint_subjects` tables. */
  datatype SState = SState(subjects: map<string, Db.Row>, links: map<(string, string), Db.Row>)

  /** The tables after some of the loop, and the exception that escaped it, if any. */
  datatype SRun = SRun(state: SState, raised: Option<PyError>)

  /** A subject's id when the subject is a dict and the id is truthy. */
  function SubjectId(subject: Json): Option<string> {
    if subject.JObj? then KeyOf(Ingestor.At(subject.members, "id", JNull)) else None
  }

  /** The `try` for one subject and its `except` clause. A subject that is not a dict raises
      AttributeError at `subject.get('id')`; the handler evaluates `subject.get('id')` again
      to log it, which raises once more and leaves the function when `reraise` holds (the
      code as written). With `reraise` false the handler logs and the loop goes on. */
  function SubjectStep(s: SState, pid: string, subject: Json, subjectRefused: bool,
                       linkRefused: bool, reraise: bool): SRun
  {
    if !subject.JObj? then SRun(s, if reraise then Some(AttributeError) else None)
    else if SubjectId(subject).None? || subjectRefused then SRun(s, None)
    else
      var id := SubjectId(subject).value;
      var row := map["id" := Text(id), "text" := ToCell(Ingestor.At(subject.members, "text", JNull))];
      var subjects := Db.UpsertRow(s.subjects, id, row);
      if linkRefused then SRun(SState(subjects, s.links), None)
      else SRun(SState(subjects, Db.UpsertRow(s.links, (pid, id), map["preprint_id" := Text(pid), "subject_id" := Text(id)])), None)
  }

  /** The inner loop over the subjects of group `g`, stopping at an escaped exception. */
  function GroupRun(s: SState, pid: string, items: seq<Json>, g: int, refusedSubject: set<(int, int)>,
                    refusedLink: set<(int, int)>, reraise: bool): SRun
  {
    if items == [] then SRun(s, None)
    else
      var n := |items| - 1;
      var r := GroupRun(s, pid, items[..n], g, refusedSubject, refusedLink, reraise);
      if r.raised.Some? then r
      else SubjectStep(r.state, pid, items[n], (g, n) in refusedSubject, (g, n) in refusedLink, reraise)
  }

  /** The outer loop over the groups. A group that cannot be iterated raises TypeError, which
      no handler catches. */
  function GroupsRun(s: SState, pid: string, groups: seq<Json>, refusedSubject: set<(int, int)>,
                     refusedLink: set<(int, int)>, reraise: bool): SRun
  {
    if groups == [] then SRun(s, None)
    else
      var n := |groups| - 1;
      var r := GroupsRun(s, pid, groups[..n], refusedSubject, refusedLink, reraise);
      if r.raised.Some? then r
      else
        match Iterate(groups[n])
        case Err(e) => SRun(r.state, Some(e))
        case Ok(items) => GroupRun(r.state, pid, items, n, refusedSubject, refusedLink, reraise)
  }

  /** The subject groups: `attributes.subjects` (default `[]`), iterated. */
  function SubjectGroups(data: Json): Result<seq<Json>, PyError> {
    var lists :- GetPath(data, ["attributes", "subjects"], JArr([]));
    Iterate(lists)
  }

  /** `process_subjects(db, preprint_id, preprint_data)` with the handler of `SubjectStep`:
      the subject lists are read and iterated outside any `try`. */
  function SubjectsRun(s: SState, pid: string, data: Json, refusedSubject: set<(int, int)>,
                       refusedLink: set<(int, int)>, reraise: bool): SRun
  {
    match SubjectGroups(data)
    case Err(e) => SRun(s, Some(e))
    case Ok(groups) => GroupsRun(s, pid, groups, refusedSubject, refusedLink, reraise)
  }

  /** The code as written: a subject that is not a dict ends the whole function. */
  function SubjectsAsWritten(s: SState, pid: string, data: Json, refusedSubject: set<(int, int)>,
                             refusedLink: set<(int, int)>): SRun
  {
    SubjectsRun(s, pid, data, refusedSubject, refusedLink, true)
  }

  /** The evident intent: a subject that is not a dict is logged and skipped. */
  function SubjectsCorrected(s: SState, pid: string, data: Json, refusedSubject: set<(int, int)>,
                             refusedLink: set<(int, int)>): SRun
  {
    SubjectsRun(s, pid, data, refusedSubject, refusedLink, false)
  }

  /** The subject at position `pos` is written and linked. */
  predicate SubjectLinked(subject: Json, pos: (int, int), refusedSubject: set<(int, int)>,
                          refusedLink: set<(int, int)>)
  {
    SubjectId(subject).Some? && pos !in refusedSubject && pos !in refusedLink
  }

  /** The subject at position `pos` is written to `subjects`. */
  predicate SubjectStored(subject: Json, pos: (int, int), refusedSubject: set<(int, int)>) {
    SubjectId(subject).Some? && pos !in refusedSubject
  }

  /** One subject only adds: rows are upserted, links keyed by the preprint, and the handler of
      the corrected code never lets an exception out. */
  lemma SubjectStepGrows(s: SState, pid: string, subject: Json, subjectRefused: bool,
                         linkRefused: bool, reraise: bool)
    ensures var r := SubjectStep(s, pid, subject, subjectRefused, linkRefused, reraise);
      s.subjects.Keys <= r.state.subjects.Keys && s.links.Keys <= r.state.links.Keys
      && (forall k :: k in r.state.links ==> k in s.links || k.0 == pid)
      && (r.raised.Some? <==> reraise && !subject.JObj?)
      && (SubjectId(subject).Some? && !subjectRefused ==> SubjectId(subject).value in r.state.subjects)
      && (SubjectId(subject).Some? && !subjectRefused && !linkRefused ==>
            (pid, SubjectId(subject).value) in r.state.links)
  {
  }

  /** The corrected inner loop never raises, writes every subject with a truthy id, links
      each one the database takes, and adds nothing else. */
  lemma {:induction false} GroupRunCorrected(s: SState, pid: string, items: seq<Json>, g: int,
      refusedSubject: set<(int, int)>, refusedLink: set<(int, int)>)
    ensures var r := GroupRun(s, pid, items, g, refusedSubject, refusedLink, false);
      r.raised.None? && s.subjects.Keys <= r.state.subjects.Keys && s.links.Keys <= r.state.links.Keys
      && (forall k :: k in r.state.links ==> k in s.links || k.0 == pid)
    ensures var r := GroupRun(s, pid, items, g, refusedSubject, refusedLink, false);
      forall k :: 0 <= k < |items| && SubjectStored(items[k], (g, k), refusedSubject) ==>
        SubjectId(items[k]).value in r.state.subjects
    ensures var r := GroupRun(s, pid, items, g, refusedSubject, refusedLink, false);
      forall k :: 0 <= k < |items| && SubjectLinked(items[k], (g, k), refusedSubject, refusedLink) ==>
        (pid, SubjectId(items[k]).value) in r.state.links
  {
    if items != [] {
      var n := |items| - 1;
      var front := items[..n];
      GroupRunCorrected(s, pid, front, g, refusedSubject, refusedLink);
      var r0 := GroupRun(s, pid, front, g, refusedSubject, refusedLink, false);
      SubjectStepGrows(r0.state, pid, items[n], (g, n) in refusedSubject, (g, n) in refusedLink, false);
      forall k | 0 <= k < n ensures items[k] == front[k] { }
    }
  }

  /** The corrected outer loop raises exactly when a group cannot be iterated; otherwise every
      subject with a truthy id in every group is written and, unless refused, linked to the
      preprint, and nothing but the preprint's links is added. */
  lemma {:induction false} GroupsRunCorrected(s: SState, pid: string, groups: seq<Json>,
      refusedSubject: set<(int, int)>, refusedLink: set<(int, int)>)
    ensures var r := GroupsRun(s, pid, groups, refusedSubject, refusedLink, false);
      r.raised.None? <==> forall g :: 0 <= g < |groups| ==> Iterate(groups[g]).Ok?
    ensures var r := GroupsRun(s, pid, groups, refusedSubject, refusedLink, false);
      s.subjects.Keys <= r.state.subjects.Keys && s.links.Keys <= r.state.links.Keys
      && forall k :: k in r.state.links ==> k in s.links || k.0 == pid
    ensures var r := GroupsRun(s, pid, groups, refusedSubject, refusedLink, false);
      r.raised.None? ==> forall g, k ::
        (0 <= g < |groups| && 0 <= k < |Iterate(groups[g]).value| &&
         SubjectStored(Iterate(groups[g]).value[k], (g, k), refusedSubject)) ==>
          SubjectId(Iterate(groups[g]).value[k]).value in r.state.subjects
    ensures var r := GroupsRun(s, pid, groups, refusedSubject, refusedLink, false);
      r.raised.None? ==> forall g, k ::
        (0 <= g < |groups| && 0 <= k < |Iterate(groups[g]).value| &&
         SubjectLinked(Iterate(groups[g]).value[k], (g, k), refusedSubject, refusedLink)) ==>
          (pid, SubjectId(Iterate(groups[g]).value[k]).value) in r.state.links
  {
    if groups != [] {
      var n := |groups| - 1;
      var front := groups[..n];
      GroupsRunCorrected(s, pid, front, refusedSubject, refusedLink);
      var r0 := GroupsRun(s, pid, front, refusedSubject, refusedLink, false);
      forall g | 0 <= g < n ensures groups[g] == front[g] { }
      if r0.raised.None? && Iterate(groups[n]).Ok? {
        GroupRunCorrected(r0.state, pid, Iterate(groups[n]).value, n, refusedSubject, refusedLink);
      }
    }
  }

  /** The corrected `process_subjects` raises exactly when the subject lists or one of the
      groups cannot be read or iterated; otherwise every subject with a truthy id, in every
      group, is written to `subjects` and, unless the database refuses, linked to the
      preprint; the only links added are the preprint's. */
  lemma SubjectsCorrectedLinksAll(s: SState, pid: string, data: Json, refusedSubject: set<(int, int)>,
                                  refusedLink: set<(int, int)>)
    ensures var r := SubjectsCorrected(s, pid, data, refusedSubject, refusedLink);
      r.raised.None? <==> (SubjectGroups(data).Ok? &&
        forall g :: 0 <= g < |SubjectGroups(data).value| ==> Iterate(SubjectGroups(data).value[g]).Ok?)
    ensures var r := SubjectsCorrected(s, pid, data, refusedSubject, refusedLink);
      s.subjects.Keys <= r.state.subjects.Keys && s.links.Keys <= r.state.links.Keys
      && forall k :: k in r.state.links ==> k in s.links || k.0 == pid
    ensures var r := SubjectsCorrected(s, pid, data, refusedSubject, refusedLink);
      SubjectGroups(data).Ok? && r.raised.None? ==> var groups := SubjectGroups(data).value; forall g, k ::
        (0 <= g < |groups| && 0 <= k < |Iterate(groups[g]).value| &&
         SubjectLinked(Iterate(groups[g]).value[k], (g, k), refusedSubject, refusedLink)) ==>
          (pid, SubjectId(Iterate(groups[g]).value[k]).value) in r.state.links
  {
    if SubjectGroups(data).Ok? {
      GroupsRunCorrected(s, pid, SubjectGroups(data).value, refusedSubject, refusedLink);
    }
  }

  /** A subject that is not a dict, in the first group, ahead of a good one: the code as
      written lets AttributeError out and never links `s1`; the corrected code links it. */
  lemma SubjectsReraiseCounterexample()
    ensures var data := JObj([Member("attributes", JObj([Member("subjects",
        JArr([JArr([JNum(1), JObj([Member("id", JStr("s1"))])])]))]))]);
      var s := SState(map[], map[]);
      var asWritten := SubjectsAsWritten(s, "p", data, {}, {});
      var corrected := SubjectsCorrected(s, "p", data, {}, {});
      asWritten.raised == Some(AttributeError) && ("p", "s1") !in asWritten.state.links
      && corrected.raised.None? && ("p", "s1") in corrected.state.links
  {
    var subject := JObj([Member("id", JStr("s1"))]);
    var items := [JNum(1), subject];
    var data := JObj([Member("attributes", JObj([Member("subjects", JArr([JArr(items)]))]))]);
    var s := SState(map[], map[]);
    assert SubjectGroups(data) == Ok([JArr(items)]);
    assert [JArr(items)][..0] == [] && items[..1] == [JNum(1)] && items[..1][..0] == [] && items[..2] == items;
    assert SubjectId(subject) == Some("s1");
    var none: seq<Json> := [];
    assert GroupRun(s, "p", none, 0, {}, {}, true) == SRun(s, None);
    assert GroupRun(s, "p", none, 0, {}, {}, false) == SRun(s, None);
    assert GroupRun(s, "p", items[..1], 0, {}, {}, true) == SRun(s, Some(AttributeError));
    assert GroupRun(s, "p", items[..1], 0, {}, {}, false) == SRun(s, None);
    assert GroupRun(s, "p", items, 0, {}, {}, false) == SubjectStep(s, "p", subject, false, false, false);
  }

  /** Every subject in `items` is a dict. */
  predicate AllDicts(items: seq<Json>) {
    forall k :: 0 <= k < |items| ==> items[k].JObj?
  }

  /** Where every subject is a dict, the code as written and the corrected code do the same. */
  lemma {:induction false} GroupRunAgreesOnDicts(s: SState, pid: string, items: seq<Json>, g: int,
      refusedSubject: set<(int, int)>, refusedLink: set<(int, int)>)
    requires AllDicts(items)
    ensures GroupRun(s, pid, items, g, refusedSubject, refusedLink, true)
      == GroupRun(s, pid, items, g, refusedSubject, refusedLink, false)
  {
    if items != [] {
      var n := |items| - 1;
      assert AllDicts(items[..n]) by {
        forall k | 0 <= k < n ensures items[..n][k].JObj? {
          assert items[..n][k] == items[k];
        }
      }
      GroupRunAgreesOnDicts(s, pid, items[..n], g, refusedSubject, refusedLink);
    }
  }

  /** The same for the outer loop: the re-raise only matters for a subject that is not a dict. */
  lemma {:induction false} GroupsRunAgreesOnDicts(s: SState, pid: string, groups: seq<Json>,
      refusedSubject: set<(int, int)>, refusedLink: set<(int, int)>)
    requires forall g :: 0 <= g < |groups| && Iterate(groups[g]).Ok? ==> AllDicts(Iterate(groups[g]).value)
    ensures GroupsRun(s, pid, groups, refusedSubject, refusedLink, true)
      == GroupsRun(s, pid, groups, refusedSubject, refusedLink, false)
  {
    if groups != [] {
      var n := |groups| - 1;
      forall g | 0 <= g < n ensures groups[..n][g] == groups[g] { }
      GroupsRunAgreesOnDicts(s, pid, groups[..n], refusedSubject, refusedLink);
      var r := GroupsRun(s, pid, groups[..n], refusedSubject, refusedLink, false);
      if r.raised.None? && Iterate(groups[n]).Ok? {
        GroupRunAgreesOnDicts(r.state, pid, Iterate(groups[n]).value, n, refusedSubject, refusedLink);
      }
    }
  }

  /** Once an exception has escaped the inner loop, the later subjects change nothing. */
  lemma {:induction false} GroupRunStops(s: SState, pid: string, items: seq<Json>, k: int, g: int,
      refusedSubject: set<(int, int)>, refusedLink: set<(int, int)>, reraise: bool)
    requires 0 <= k <= |items|
    requires GroupRun(s, pid, items[..k], g, refusedSubject, refusedLink, reraise).raised.Some?
    ensures GroupRun(s, pid, items, g, refusedSubject, refusedLink, reraise)
      == GroupRun(s, pid, items[..k], g, refusedSubject, refusedLink, reraise)
    decreases |items|
  {
    if k < |items| {
      var n := |items| - 1;
      assert items[..n][..k] == items[..k];
      GroupRunStops(s, pid, items[..n], k, g, refusedSubject, refusedLink, reraise);
    } else {
      assert items[..k] == items;
    }
  }

  /** Once an exception has escaped, the later groups change nothing. */
  lemma {:induction false} GroupsRunStops(s: SState, pid: string, groups: seq<Json>, g: int,
      refusedSubject: set<(int, int)>, refusedLink: set<(int, int)>, reraise: bool)
    requires 0 <= g <= |groups|
    requires GroupsRun(s, pid, groups[..g], refusedSubject, refusedLink, reraise).raised.Some?
    ensures GroupsRun(s, pid, groups, refusedSubject, refusedLink, reraise)
      == GroupsRun(s, pid, groups[..g], refusedSubject, refusedLink, reraise)
    decreases |groups|
  {
    if g < |groups| {
      var n := |groups| - 1;
      assert groups[..n][..g] == groups[..g];
      GroupsRunStops(s, pid, groups[..n], g, refusedSubject, refusedLink, reraise);
    } else {
      assert groups[..g] == groups;
    }
  }

  /** The writes of one subject and what escapes its handler. */
  method WriteSubject(db: Db.Database, pid: string, subject: Json, subjectRefused: bool,
                      linkRefused: bool, reraise: bool) returns (raised: Option<PyError>)
    modifies db`subjects, db`preprintSubjects
    ensures var r := SubjectStep(SState(Db.TableOr(old(db.subjects)), Db.TableOr(old(db.preprintSubjects))),
                                 pid, subject, subjectRefused, linkRefused, reraise);
      SState(Db.TableOr(db.subjects), Db.TableOr(db.preprintSubjects)) == r.state && raised == r.raised
    ensures old(db.subjects).Some? ==> db.subjects.Some?
    ensures old(db.preprintSubjects).Some? ==> db.preprintSubjects.Some?
    ensures db.preprints == old(db.preprints) && db.rawData == old(db.rawData)
    ensures db.contributors == old(db.contributors) && db.preprintContributors == old(db.preprintContributors)
  {
    if !subject.JObj? {
      return if reraise then Some(AttributeError) else None;
    }
    var id := SubjectId(subject);
    if id.None? || subjectRefused {
      return None;
    }
    var row := map["id" := Text(id.value), "text" := ToCell(Ingestor.At(subject.members, "text", JNull))];
    db.subjects := Some(Db.UpsertRow(Db.TableOr(db.subjects), id.value, row));
    if !linkRefused {
      db.preprintSubjects := Some(Db.UpsertRow(Db.TableOr(db.preprintSubjects), (pid, id.value),
        map["preprint_id" := Text(pid), "subject_id" := Text(id.value)]));
    }
    raised := None;
  }

  /** The inner loop over one group's subjects; stops at the first exception a subject
      re-raises. */
  method WriteGroup(db: Db.Database, pid: string, items: seq<Json>, g: int, refusedSubject: set<(int, int)>,
                    refusedLink: set<(int, int)>, reraise: bool) returns (raised: Option<PyError>)
    modifies db`subjects, db`preprintSubjects
    ensures var r := GroupRun(SState(Db.TableOr(old(db.subjects)), Db.TableOr(old(db.preprintSubjects))),
                              pid, items, g, refusedSubject, refusedLink, reraise);
      SState(Db.TableOr(db.subjects), Db.TableOr(db.preprintSubjects)) == r.state && raised == r.raised
    ensures old(db.subjects).Some? ==> db.subjects.Some?
    ensures old(db.preprintSubjects).Some? ==> db.preprintSubjects.Some?
    ensures db.preprints == old(db.preprints) && db.rawData == old(db.rawData)
    ensures db.contributors == old(db.contributors) && db.preprintContributors == old(db.preprintContributors)
  {
    ghost var sg := SState(Db.TableOr(db.subjects), Db.TableOr(db.preprintSubjects));
    for k := 0 to |items|
      invariant GroupRun(sg, pid, items[..k], g, refusedSubject, refusedLink, reraise) ==
        SRun(SState(Db.TableOr(db.subjects), Db.TableOr(db.preprintSubjects)), None)
      invariant old(db.subjects).Some? ==> db.subjects.Some?
      invariant old(db.preprintSubjects).Some? ==> db.preprintSubjects.Some?
      invariant db.preprints == old(db.preprints) && db.rawData == old(db.rawData)
      invariant db.contributors == old(db.contributors) && db.preprintContributors == old(db.preprintContributors)
    {
      assert items[..k + 1][..k] == items[..k];
      var r := WriteSubject(db, pid, items[k], (g, k) in refusedSubject, (g, k) in refusedLink, reraise);
      if r.Some? {
        GroupRunStops(sg, pid, items, k + 1, g, refusedSubject, refusedLink, reraise);
        return r;
      }
    }
    assert items[..|items|] == items;
    raised := None;
  }

  /** `process_subjects(db, preprint_id, preprint_data)`: the two nested loops, writing each
      subject and its link. `reraise` selects the handler: true for the code as written,
      false for the corrected code. */
  method ProcessSubjects(db: Db.Database, pid: string, data: Json, refusedSubject: set<(int, int)>,
                         refusedLink: set<(int, int)>, reraise: bool) returns (raised: Option<PyError>)
    modifies db`subjects, db`preprintSubjects
    ensures var r := SubjectsRun(SState(Db.TableOr(old(db.subjects)), Db.TableOr(old(db.preprintSubjects))),
                                 pid, data, refusedSubject, refusedLink, reraise);
      SState(Db.TableOr(db.subjects), Db.TableOr(db.preprintSubjects)) == r.state && raised == r.raised
    ensures old(db.subjects).Some? ==> db.subjects.Some?
    ensures old(db.preprintSubjects).Some? ==> db.preprintSubjects.Some?
    ensures db.preprints == old(db.preprints) && db.rawData == old(db.rawData)
    ensures db.contributors == old(db.contributors) && db.preprintContributors == old(db.preprintContributors)
  {
    var groups := SubjectGroups(data);
    if groups.Err? {
      return Some(groups.error);
    }
    ghost var s0 := SState(Db.TableOr(db.subjects), Db.TableOr(db.preprintSubjects));
    for g := 0 to |groups.value|
      invariant GroupsRun(s0, pid, groups.value[..g], refusedSubject, refusedLink, reraise) ==
        SRun(SState(Db.TableOr(db.subjects), Db.TableOr(db.preprintSubjects)), None)
      invariant old(db.subjects).Some? ==> db.subjects.Some?
      invariant old(db.preprintSubjects).Some? ==> db.preprintSubjects.Some?
      invariant db.preprints == old(db.preprints) && db.rawData == old(db.rawData)
      invariant db.contributors == old(db.contributors) && db.preprintContributors == old(db.preprintContributors)
    {
      ghost var before := groups.value[..g];
      assert groups.value[..g + 1][..g] == before;
      var items := Iterate(groups.value[g]);
      if items.Err? {
        GroupsRunStops(s0, pid, groups.value, g + 1, refusedSubject, refusedLink, reraise);
        return Some(items.error);
      }
      var r := WriteGroup(db, pid, items.value, g, refusedSubject, refusedLink, reraise);
      if r.Some? {
        GroupsRunStops(s0, pid, groups.value, g + 1, refusedSubject, refusedLink, reraise);
        return r;
      }
    }
    assert groups.value[..|groups.value|] == groups.value;
    raised := None;
  }
}

=== FILE: fix_gaps.dfy ===
/** The gap tool (tools/fix_gaps.py): `detect_gaps` over the stored `date_modified` values,
    `harvest_date_range` that re-harvests from a gap's start until the first record past its
    end, and `fill_gap` in both its dry-run and its writing form. The API is a finite sequence
    of responses, the records whose save the database refuses are an input (`refused`), and so
    is the clock (`now`). */
module FixGaps {
  import opened Wrappers
  import opened JsonModel
  import Text
  import Sql
  import IsoTime
  import opened Db
  import Harvester

  /** How the tool reads a timestamp: `datetime.fromisoformat(s.replace('Z', '+00:00'))`, which
      is `IsoTime.FromIso`. The definitions below take it as a parameter `read`, and the
      operations pass `IsoTime.FromIso`; the properties proved hold for any reader. */
  type Reader = string -> Result<IsoTime.DateTime, PyError>

  // ---- detect_gaps ----

  /** A gap `(prev_date, current_date, gap_hours)`; its length is kept exactly, in
      microseconds, where the source divides the seconds by 3600. */
  datatype Gap = Gap(start: IsoTime.DateTime, end: IsoTime.DateTime, micros: int)

  /** The sort key of `ORDER BY date_modified` over the rows with a non-NULL date. */
  function DateKeys(t: map<string, RawRow>): map<string, Sql.SqlValue> {
    map id | id in t && t[id].dateModified.Some? :: Sql.SText(t[id].dateModified.value)
  }

  /** `SELECT date_modified FROM raw_data WHERE date_modified IS NOT NULL ORDER BY
      date_modified`. Rows with equal dates give equal values, so the tie order is invisible. */
  function SortedDates(t: map<string, RawRow>): seq<string> {
    var key := DateKeys(t);
    var order := Sql.SortedBy(key, false, key.Keys);
    seq(|order|, i requires 0 <= i < |order| => t[order[i]].dateModified.value)
  }

  /** One value per row with a non-NULL date, every value is such a row's date, and the values
      ascend in code-point order. */
  lemma SortedDatesAscend(t: map<string, RawRow>)
    ensures var d := SortedDates(t);
      && |d| == |set id | id in t && t[id].dateModified.Some?|
      && (forall i :: 0 <= i < |d| ==> exists id :: id in t && t[id].dateModified == Some(d[i]))
      && (forall i, j :: 0 <= i < j < |d| ==> !Text.Less(d[j], d[i]))
  {
    var key := DateKeys(t);
    var order := Sql.SortedBy(key, false, key.Keys);
    var d := SortedDates(t);
    assert key.Keys == set id | id in t && t[id].dateModified.Some?;
    forall i | 0 <= i < |d| ensures exists id :: id in t && t[id].dateModified == Some(d[i]) {
      assert t[order[i]].dateModified == Some(d[i]);
    }
    forall i, j | 0 <= i < j < |d| ensures !Text.Less(d[j], d[i]) {
      assert Sql.Before(key, false, order[i], order[j]);
      if d[i] == d[j] {
        Text.LessIrreflexive(d[i]);
      } else {
        assert key[order[i]] == Sql.SText(d[i]) && key[order[j]] == Sql.SText(d[j]);
        Text.LessAsymmetric(d[i], d[j]);
      }
    }
  }

  /** The `for row in results` loop up to the subtraction: each text is read with
      `fromisoformat`, and subtracting a naive value from an aware one (or the reverse) raises
      TypeError. The first exception in row order is the one that escapes. */
  function ParseDates(dates: seq<string>, read: Reader): (r: Result<seq<IsoTime.DateTime>, PyError>)
    ensures r.Ok? ==> |r.value| == |dates|
    decreases |dates|
  {
    if dates == [] then Ok([])
    else
      match ParseDates(dates[..|dates| - 1], read)
      case Err(e) => Err(e)
      case Ok(ds) =>
        match read(dates[|dates| - 1])
        case Err(e) => Err(e)
        case Ok(d) =>
          if ds != [] && ds[|ds| - 1].offset.Some? != d.offset.Some? then Err(TypeError) else Ok(ds + [d])
  }

  /** The parsed values are the texts read one by one, all naive or all aware. */
  lemma {:induction false} ParseDatesReads(dates: seq<string>, read: Reader)
    requires ParseDates(dates, read).Ok?
    ensures var ds := ParseDates(dates, read).value;
      forall i :: 0 <= i < |dates| ==> read(dates[i]) == Ok(ds[i]) && ds[i].offset.Some? == ds[0].offset.Some?
    decreases |dates|
  {
    if dates != [] {
      var n := |dates| - 1;
      var front := dates[..n];
      assert ParseDates(front, read).Ok?;
      ParseDatesReads(front, read);
      var fs := ParseDates(front, read).value;
      var rd := read(dates[n]);
      assert rd.Ok?;
      var ds := ParseDates(dates, read).value;
      assert ds == fs + [rd.value];
      forall i | 0 <= i < n ensures read(dates[i]) == Ok(ds[i]) && ds[i].offset.Some? == ds[0].offset.Some? {
        assert front[i] == dates[i] && ds[i] == fs[i];
      }
    }
  }

  /** Reading one more text: its value is appended, unless it cannot be read or it mixes naive
      and aware values with its predecessor. */
  lemma ParseDatesSnoc(dates: seq<string>, i: nat, read: Reader)
    requires i < |dates| && ParseDates(dates[..i], read).Ok?
    ensures var ds := ParseDates(dates[..i], read).value;
      ParseDates(dates[..i + 1], read) == (match read(dates[i])
        case Err(e) => Err(e)
        case Ok(d) => if i > 0 && ds[i - 1].offset.Some? != d.offset.Some? then Err(TypeError) else Ok(ds + [d]))
  {
    assert dates[..i + 1][..i] == dates[..i];
  }

  /** A failure while reading a prefix is the failure of the whole list. */
  lemma {:induction false} ParseDatesPrefixErr(dates: seq<string>, i: nat, e: PyError, read: Reader)
    requires i <= |dates| && ParseDates(dates[..i], read) == Err(e)
    ensures ParseDates(dates, read) == Err(e)
    decreases |dates| - i
  {
    if i < |dates| {
      assert dates[..i + 1][..i] == dates[..i];
      ParseDatesPrefixErr(dates, i + 1, e, read);
    } else {
      assert dates[..i] == dates;
    }
  }

  /** Consecutive values `ds[i]`, `ds[i + 1]` more than `maxHours` apart form gap `g`. */
  predicate GapAt(ds: seq<IsoTime.DateTime>, maxHours: int, i: int, g: Gap)
  {
    0 <= i < |ds| - 1
    && g == Gap(ds[i], ds[i + 1], IsoTime.Instant(ds[i + 1]) - IsoTime.Instant(ds[i]))
    && g.micros > maxHours * IsoTime.MicrosPerHour
  }

  /** The gap `detect_gaps` appends for consecutive values `prev`, `cur`: one when they are more
      than `max_gap_hours` hours apart, with its length in microseconds. */
  function PairGap(prev: IsoTime.DateTime, cur: IsoTime.DateTime, maxHours: int): seq<Gap>
  {
    var diff := IsoTime.Instant(cur) - IsoTime.Instant(prev);
    if diff > maxHours * IsoTime.MicrosPerHour then [Gap(prev, cur, diff)] else []
  }

  /** The gaps `detect_gaps` appends, in order: one per consecutive pair whose difference
      exceeds `max_gap_hours` hours. */
  function GapsOf(ds: seq<IsoTime.DateTime>, maxHours: int): seq<Gap>
    decreases |ds|
  {
    if |ds| < 2 then []
    else GapsOf(ds[..|ds| - 1], maxHours) + PairGap(ds[|ds| - 2], ds[|ds| - 1], maxHours)
  }

  /** Appending one more value adds at most the gap between it and the previous last value. */
  lemma GapsOfSnoc(ds: seq<IsoTime.DateTime>, d: IsoTime.DateTime, maxHours: int)
    requires ds != []
    ensures GapsOf(ds + [d], maxHours) == GapsOf(ds, maxHours) + PairGap(ds[|ds| - 1], d, maxHours)
  {
    var e := ds + [d];
    assert e[..|e| - 1] == ds;
    assert e[|e| - 2] == ds[|ds| - 1];
  }

  /** Every reported gap is a consecutive pair more than `max_gap_hours` apart, with its exact
      length, and there is at most one gap per consecutive pair. */
  lemma {:induction false} GapsAreLongPairs(ds: seq<IsoTime.DateTime>, maxHours: int)
    ensures forall g :: g in GapsOf(ds, maxHours) ==> exists i :: GapAt(ds, maxHours, i, g)
    ensures |GapsOf(ds, maxHours)| <= if |ds| < 2 then 0 else |ds| - 1
    decreases |ds|
  {
    if |ds| >= 2 {
      var front := ds[..|ds| - 1];
      GapsAreLongPairs(front, maxHours);
      var n := |ds| - 2;
      var last := Gap(ds[n], ds[n + 1], IsoTime.Instant(ds[n + 1]) - IsoTime.Instant(ds[n]));
      assert GapsOf(ds, maxHours) == GapsOf(front, maxHours) + PairGap(ds[n], ds[n + 1], maxHours);
      forall g | g in GapsOf(ds, maxHours) ensures exists i :: GapAt(ds, maxHours, i, g) {
        if g in GapsOf(front, maxHours) {
          var i :| GapAt(front, maxHours, i, g);
          assert front[i] == ds[i] && front[i + 1] == ds[i + 1];
          assert GapAt(ds, maxHours, i, g);
        } else {
          assert GapAt(ds, maxHours, n, g);
        }
      }
    }
  }

  /** Every consecutive pair more than `max_gap_hours` apart is reported. */
  lemma {:induction false} LongPairsAreGaps(ds: seq<IsoTime.DateTime>, maxHours: int, i: int,
                                            g: Gap)
    requires GapAt(ds, maxHours, i, g)
    ensures g in GapsOf(ds, maxHours)
    decreases |ds|
  {
    var front := ds[..|ds| - 1];
    if i < |ds| - 2 {
      assert front[i] == ds[i] && front[i + 1] == ds[i + 1];
      assert GapAt(front, maxHours, i, g);
      LongPairsAreGaps(front, maxHours, i, g);
    }
  }

  /** With a non-negative threshold every gap moves forward in time. */
  lemma GapsMoveForward(ds: seq<IsoTime.DateTime>, maxHours: int)
    requires maxHours >= 0
    ensures forall g :: g in GapsOf(ds, maxHours) ==>
      IsoTime.Instant(g.start) < IsoTime.Instant(g.end)
  {
    GapsAreLongPairs(ds, maxHours);
  }

  predicate NonDecreasing(ds: seq<IsoTime.DateTime>) {
    forall i, j :: 0 <= i < j < |ds| ==> IsoTime.Instant(ds[i]) <= IsoTime.Instant(ds[j])
  }

  /** Gap `a` ends no later than gap `b` starts. */
  predicate EndsBefore(a: Gap, b: Gap) {
    IsoTime.Instant(a.end) <= IsoTime.Instant(b.start)
  }

  /** Each gap ends no later than any later gap starts. */
  predicate InTimeOrder(gs: seq<Gap>) {
    forall k, l :: 0 <= k < l < |gs| ==> EndsBefore(gs[k], gs[l])
  }

  /** When the values are in time order, the gaps come in time order and do not overlap. */
  lemma {:induction false} GapsInOrder(ds: seq<IsoTime.DateTime>, maxHours: int)
    requires NonDecreasing(ds)
    ensures InTimeOrder(GapsOf(ds, maxHours))
    decreases |ds|
  {
    if |ds| >= 2 {
      var n := |ds| - 2;
      var front := ds[..|ds| - 1];
      NonDecreasingFront(ds);
      GapsInOrder(front, maxHours);
      var fs := GapsOf(front, maxHours);
      assert InTimeOrder(fs);
      var gs := fs + PairGap(ds[n], ds[n + 1], maxHours);
      assert GapsOf(ds, maxHours) == gs;
      forall k, l | 0 <= k < l < |gs| ensures EndsBefore(gs[k], gs[l]) {
        assert gs[k] == fs[k] && fs[k] in fs;
        if l < |fs| {
          assert gs[l] == fs[l];
        } else {
          assert gs[l].start == ds[n];
          GapEndsBeforeLast(ds, maxHours, fs[k]);
        }
      }
    }
  }

  lemma NonDecreasingFront(ds: seq<IsoTime.DateTime>)
    requires NonDecreasing(ds) && ds != []
    ensures NonDecreasing(ds[..|ds| - 1])
  {
    var front := ds[..|ds| - 1];
    forall i, j | 0 <= i < j < |front| ensures IsoTime.Instant(front[i]) <= IsoTime.Instant(front[j]) {
      assert front[i] == ds[i] && front[j] == ds[j];
    }
  }

  /** A gap among the values before the last ends no later than the last but one value. */
  lemma GapEndsBeforeLast(ds: seq<IsoTime.DateTime>, maxHours: int, g: Gap)
    requires NonDecreasing(ds) && |ds| >= 2
    requires g in GapsOf(ds[..|ds| - 1], maxHours)
    ensures IsoTime.Instant(g.end) <= IsoTime.Instant(ds[|ds| - 2])
  {
    var front := ds[..|ds| - 1];
    GapsAreLongPairs(front, maxHours);
    var i :| GapAt(front, maxHours, i, g);
    assert g.end == ds[i + 1];
  }

  /** What `detect_gaps(db, max_gap_hours)` returns or raises. */
  function DetectGapsSpec(raw: Option<map<string, RawRow>>, maxHours: int)
    : Result<seq<Gap>, PyError>
  {
    if raw.None? then Ok([])
    else
      var dates := SortedDates(raw.value);
      if |dates| < 2 then Ok([])
      else
        match ParseDates(dates, IsoTime.FromIso)
        case Err(e) => Err(e)
        case Ok(ds) => Ok(GapsOf(ds, maxHours))
  }

  /** `detect_gaps` gives no gaps without `raw_data` or with fewer than two dated rows;
      otherwise, when every date reads, its gaps are exactly the consecutive pairs of the
      sorted dates more than `max_gap_hours` apart, fewer than the dates. */
  lemma DetectGapsFacts(raw: Option<map<string, RawRow>>, maxHours: int)
    ensures raw.None? || |SortedDates(raw.value)| < 2 ==> DetectGapsSpec(raw, maxHours) == Ok([])
    ensures var r := DetectGapsSpec(raw, maxHours);
      raw.Some? && |SortedDates(raw.value)| >= 2 ==>
        (r.Ok? <==> ParseDates(SortedDates(raw.value), IsoTime.FromIso).Ok?)
    ensures var r := DetectGapsSpec(raw, maxHours);
      r.Ok? && raw.Some? && |SortedDates(raw.value)| >= 2 ==>
        (|r.value| < |SortedDates(raw.value)|
         && var ds := ParseDates(SortedDates(raw.value), IsoTime.FromIso).value;
            forall g :: g in r.value <==> exists i :: GapAt(ds, maxHours, i, g))
  {
    var r := DetectGapsSpec(raw, maxHours);
    if r.Ok? && raw.Some? && |SortedDates(raw.value)| >= 2 {
      var ds := ParseDates(SortedDates(raw.value), IsoTime.FromIso).value;
      GapsAreLongPairs(ds, maxHours);
      forall i, g | GapAt(ds, maxHours, i, g)
        ensures g in r.value
      {
        LongPairsAreGaps(ds, maxHours, i, g);
      }
    }
  }

  /** `detect_gaps(db, max_gap_hours)`: reads the database and changes nothing. */
  method DetectGaps(db: Database, maxGapHours: int) returns (r: Result<seq<Gap>, PyError>)
    ensures r == DetectGapsSpec(db.rawData, maxGapHours)
  {
    if db.rawData.None? {
      return Ok([]);
    }
    var results := SortedDates(db.rawData.value);
    if |results| < 2 {
      return Ok([]);
    }
    r := ScanDates(results, maxGapHours, IsoTime.FromIso);
  }

  /** The `for row in results` loop of `detect_gaps`. */
  method ScanDates(results: seq<string>, maxGapHours: int, read: Reader) returns (r: Result<seq<Gap>, PyError>)
    ensures r.Err? <==> ParseDates(results, read).Err?
    ensures r.Err? ==> r.error == ParseDates(results, read).error
    ensures r.Ok? ==> r.value == GapsOf(ParseDates(results, read).value, maxGapHours)
  {
    var gaps: seq<Gap> := [];
    var prev: Option<IsoTime.DateTime> := None;
    var ds: seq<IsoTime.DateTime> := [];
    var i := 0;
    while i < |results|
      invariant 0 <= i <= |results| && |ds| == i
      invariant ParseDates(results[..i], read) == Ok(ds)
      invariant gaps == GapsOf(ds, maxGapHours)
      invariant i == 0 <==> prev.None?
      invariant i > 0 ==> prev == Some(ds[i - 1])
    {
      var failure, current, gaps' := ScanDate(results, i, ds, prev, gaps, maxGapHours, read);
      if failure.Some? {
        ParseDatesPrefixErr(results, i + 1, failure.value, read);
        return Err(failure.value);
      }
      gaps, prev, ds, i := gaps', Some(current), ds + [current], i + 1;
    }
    assert results[..i] == results;
    r := Ok(gaps);
  }

  /** One pass of the `for row in results` loop: the row's value and the gap list with the
      stretch that ends at it, or the exception the row raises. */
  method ScanDate(results: seq<string>, i: nat, ds: seq<IsoTime.DateTime>,
                  prev: Option<IsoTime.DateTime>, gaps: seq<Gap>, maxGapHours: int, read: Reader)
    returns (failure: Option<PyError>, current: IsoTime.DateTime, gaps': seq<Gap>)
    requires i < |results| && |ds| == i
    requires ParseDates(results[..i], read) == Ok(ds) && gaps == GapsOf(ds, maxGapHours)
    requires i == 0 <==> prev.None?
    requires i > 0 ==> prev == Some(ds[i - 1])
    ensures failure.Some? ==> ParseDates(results[..i + 1], read) == Err(failure.value)
    ensures failure.None? ==> ParseDates(results[..i + 1], read) == Ok(ds + [current])
    ensures failure.None? ==> gaps' == GapsOf(ds + [current], maxGapHours)
  {
    ParseDatesSnoc(results, i, read);
    var parsed := read(results[i]);
    if parsed.Err? {
      return Some(parsed.error), IsoTime.DateTime(1, 1, 1, 0, 0, 0, 0, None), gaps;
    }
    current, failure, gaps' := parsed.value, None, gaps;
    if prev.Some? {
      var diff := IsoTime.Compare(current, prev.value);
      if diff.Err? {
        return Some(diff.error), current, gaps;
      }
      GapsOfSnoc(ds, current, maxGapHours);
      if diff.value > maxGapHours * IsoTime.MicrosPerHour {
        gaps' := gaps + [Gap(prev.value, current, diff.value)];
      }
    }
  }

  // ---- harvest_date_range ----

  /** The state of `harvest_date_range`: the URL, `saved_count`, the `raw_data` rows, and
      whether the loop has been left by `break`. */
  datatype Range = Range(url: string, saved: int, raw: map<string, RawRow>, done: bool)

  /** `preprint.get('attributes', {}).get('date_modified', '')`. */
  function RangeDate(record: Json): Result<Json, PyError> {
    match Get(record, "attributes", EmptyObj)
    case Err(e) => Err(e)
    case Ok(attributes) => Get(attributes, "date_modified", JStr(""))
  }

  /** The record's date is readable and after the end of the range. */
  predicate PastEnd(record: Json, endDt: IsoTime.DateTime, read: Reader)
  {
    var date := RangeDate(record);
    date.Ok? && date.value.JStr? && date.value.s != ""
    && read(date.value.s).Ok?
    && IsoTime.Compare(read(date.value.s).value, endDt).Ok?
    && IsoTime.Compare(read(date.value.s).value, endDt).value > 0
  }

  /** One record of a page. A record without a date is skipped; the first record after the end
      stops the harvest; any exception (an unreadable date, mixing naive and aware values, a
      record that is not a dict) is caught by the loop's handler and also stops it. */
  function RangeRecord(run: Range, record: Json, endDt: IsoTime.DateTime, refused: set<Json>,
                       now: string, read: Reader): Range
  {
    match RangeDate(record)
    case Err(_) => run.(done := true)
    case Ok(date) =>
      if !Truthy(date) then run
      else if !date.JStr? then run.(done := true)
      else
        match read(date.s)
        case Err(_) => run.(done := true)
        case Ok(d) =>
          match IsoTime.Compare(d, endDt)
          case Err(_) => run.(done := true)
          case Ok(diff) =>
            if diff > 0 then run.(done := true)
            else
              var s := Harvester.Save(run.raw, record, record in refused, now);
              match s.result
              case Err(_) => run.(done := true)
              case Ok(ok) => if ok then run.(saved := run.saved + 1, raw := s.raw) else run
  }

  /** The `for preprint in ...` loop over one page, left at the first record that stops it. */
  function RangeRecords(run: Range, items: seq<Json>, endDt: IsoTime.DateTime,
                        refused: set<Json>, now: string, read: Reader): Range
    decreases |items|
  {
    if items == [] || run.done then run
    else RangeRecords(RangeRecord(run, items[0], endDt, refused, now, read), items[1..], endDt,
                      refused, now, read)
  }

  /** `url = data.get('links', {}).get('next')`. A `next` that is not a string makes the next
      `requests.get` raise, which ends the loop just as a missing one does. */
  function NextUrl(next: Json): string {
    if next.JStr? then next.s else ""
  }

  /** One pass of the `while url` loop: every exception, failed requests included, ends it. */
  function RangeStep(run: Range, response: Harvester.Response, endDt: IsoTime.DateTime,
                     refused: set<Json>, now: string, read: Reader): Range
  {
    match response
    case RequestError(_) => run.(done := true)
    case Page(body) =>
      match Get(body, "data", JArr([]))
      case Err(_) => run.(done := true)
      case Ok(data) =>
        match Iterate(data)
        case Err(_) => run.(done := true)
        case Ok(items) =>
          var r := RangeRecords(run, items, endDt, refused, now, read);
          if r.done then r
          else
            match GetPath(body, ["links", "next"], JNull)
            case Err(_) => r.(done := true)
            case Ok(next) => r.(url := NextUrl(next))
  }

  function RangeHarvest(run: Range, responses: seq<Harvester.Response>,
                        endDt: IsoTime.DateTime, refused: set<Json>, now: string,
                        read: Reader): Range
    decreases |responses|
  {
    if run.done || run.url == "" || responses == [] then run
    else RangeHarvest(RangeStep(run, responses[0], endDt, refused, now, read), responses[1..], endDt,
                      refused, now, read)
  }

  /** What `harvest_date_range(start_date, end_date)` raises, or its final state: an end
      `fromisoformat` cannot read raises before any request. */
  function HarvestDateRangeSpec(raw: map<string, RawRow>, startDate: string, endDate: string,
                                responses: seq<Harvester.Response>, refused: set<Json>,
                                now: string): Result<Range, PyError>
  {
    match IsoTime.FromIso(endDate)
    case Err(e) => Err(e)
    case Ok(endDt) =>
      Ok(RangeHarvest(Range(Harvester.ApiUrl(JStr(startDate)), 0, raw, false), responses,
                      endDt, refused, now, IsoTime.FromIso))
  }

  // ---- what harvest_date_range writes ----

  /** A row whose `date_modified` reads as a value no later than the end of the range. */
  predicate RowWithin(row: RawRow, endDt: IsoTime.DateTime, read: Reader)
  {
    row.dateModified.Some?
    && read(row.dateModified.value).Ok?
    && IsoTime.Compare(read(row.dateModified.value).value, endDt).Ok?
    && IsoTime.Compare(read(row.dateModified.value).value, endDt).value <= 0
  }

  /** From `before` to `after`: no row removed, every new or rewritten row within the range. */
  predicate WrittenWithin(before: map<string, RawRow>, after: map<string, RawRow>,
                          endDt: IsoTime.DateTime, read: Reader)
  {
    before.Keys <= after.Keys
    && forall id :: id in after && (id !in before || after[id] != before[id]) ==>
         RowWithin(after[id], endDt, read)
  }

  /** What holds from the start of a range harvest: `saved_count` only grows, at most one row
      is added per save, and only rows within the range are written. */
  predicate RangeKept(start: Range, run: Range, endDt: IsoTime.DateTime, read: Reader)
  {
    start.saved <= run.saved
    && |run.raw.Keys| <= |start.raw.Keys| + run.saved - start.saved
    && WrittenWithin(start.raw, run.raw, endDt, read)
  }

  lemma RangeRecordKeeps(start: Range, run: Range, record: Json, endDt: IsoTime.DateTime,
                         refused: set<Json>, now: string, read: Reader)
    requires RangeKept(start, run, endDt, read)
    ensures var r := RangeRecord(run, record, endDt, refused, now, read);
      RangeKept(start, r, endDt, read) && r.url == run.url
  {
    var r := RangeRecord(run, record, endDt, refused, now, read);
    if r.saved != run.saved {
      var s := Harvester.Save(run.raw, record, record in refused, now);
      Harvester.SaveWritesOnlyItsRow(run.raw, record, record in refused, now);
      Harvester.SaveKeys(run.raw, record, record in refused, now);
      assert s.result == Ok(true) && r.raw == s.raw;
      var id := KeyOf(Get(record, "id", JNull).value).value;
      var attributes := Get(record, "attributes", EmptyObj).value;
      assert r.raw[id].dateModified == TextOrNull(Get(attributes, "date_modified", JNull).value);
      assert Get(attributes, "date_modified", JNull).value == RangeDate(record).value;
      assert RowWithin(r.raw[id], endDt, read);
      forall x | x in r.raw && (x !in start.raw || r.raw[x] != start.raw[x])
        ensures RowWithin(r.raw[x], endDt, read)
      {
        if x != id {
          assert r.raw[x] == run.raw[x];
        }
      }
    }
  }

  lemma {:induction false} RangeRecordsKeep(start: Range, run: Range, items: seq<Json>,
                                            endDt: IsoTime.DateTime, refused: set<Json>,
                                            now: string, read: Reader)
    requires RangeKept(start, run, endDt, read)
    ensures var r := RangeRecords(run, items, endDt, refused, now, read);
      RangeKept(start, r, endDt, read) && r.url == run.url
    decreases |items|
  {
    if items != [] && !run.done {
      RangeRecordKeeps(start, run, items[0], endDt, refused, now, read);
      RangeRecordsKeep(start, RangeRecord(run, items[0], endDt, refused, now, read), items[1..],
                       endDt, refused, now, read);
    }
  }

  lemma RangeStepKeeps(start: Range, run: Range, response: Harvester.Response,
                       endDt: IsoTime.DateTime, refused: set<Json>, now: string,
                       read: Reader)
    requires RangeKept(start, run, endDt, read)
    ensures RangeKept(start, RangeStep(run, response, endDt, refused, now, read), endDt, read)
  {
    if response.Page? {
      var data := Get(response.body, "data", JArr([]));
      if data.Ok? && Iterate(data.value).Ok? {
        RangeRecordsKeep(start, run, Iterate(data.value).value, endDt, refused, now, read);
      }
    }
  }

  /** Over a whole range harvest: `saved_count` never decreases, no row is removed, at most
      `saved_count` rows are added, and every row written has a date that reads as no later
      than the end of the range (so records without a date are never written). */
  lemma {:induction false} RangeHarvestKeeps(start: Range, run: Range,
                                             responses: seq<Harvester.Response>,
                                             endDt: IsoTime.DateTime, refused: set<Json>,
                                             now: string, read: Reader)
    requires RangeKept(start, run, endDt, read)
    ensures RangeKept(start, RangeHarvest(run, responses, endDt, refused, now, read), endDt, read)
    decreases |responses|
  {
    if !run.done && run.url != "" && responses != [] {
      RangeStepKeeps(start, run, responses[0], endDt, refused, now, read);
      RangeHarvestKeeps(start, RangeStep(run, responses[0], endDt, refused, now, read),
                        responses[1..], endDt, refused, now, read);
    }
  }

  /** A page is processed only up to its first record past the end: that record and every
      later one are neither saved nor counted, and the harvest stops there. */
  lemma {:induction false} StopsAtFirstPastEnd(run: Range, items: seq<Json>, i: nat,
                                               endDt: IsoTime.DateTime, refused: set<Json>,
                                               now: string, read: Reader)
    requires i < |items| && PastEnd(items[i], endDt, read)
    requires !RangeRecords(run, items[..i], endDt, refused, now, read).done
    ensures RangeRecords(run, items, endDt, refused, now, read)
         == RangeRecords(run, items[..i], endDt, refused, now, read).(done := true)
    decreases i
  {
    if i == 0 {
      assert items[..0] == [];
    } else {
      assert items[..i][1..] == items[1..][..i - 1];
      StopsAtFirstPastEnd(RangeRecord(run, items[0], endDt, refused, now, read), items[1..], i - 1,
                          endDt, refused, now, read);
    }
  }

  /** Unlike `harvest_preprints`, a failed request is not retried: the harvest ends there with
      what it had saved. */
  lemma RequestErrorEndsRange(run: Range, message: string, rest: seq<Harvester.Response>,
                              endDt: IsoTime.DateTime, refused: set<Json>, now: string,
                              read: Reader)
    requires !run.done && run.url != ""
    ensures RangeHarvest(run, [Harvester.RequestError(message)] + rest, endDt, refused, now, read)
         == run.(done := true)
  {
  }

  /** `harvest_date_range` against the database: the records of one page. */
  method RangeSaveRecord(db: Database, ghost run: Range, saved: int, record: Json,
                         endDt: IsoTime.DateTime, refused: set<Json>, now: string,
                         read: Reader)
    returns (saved': int, done: bool)
    modifies db`rawData
    requires TableOr(db.rawData) == run.raw && run.saved == saved
    requires !run.done
    ensures RangeRecord(run, record, endDt, refused, now, read)
         == run.(saved := saved', raw := TableOr(db.rawData), done := done)
  {
    saved', done := saved, false;
    var date := RangeDate(record);
    if date.Err? {
      return saved', true;
    }
    if !Truthy(date.value) {
      return;
    }
    if !date.value.JStr? {
      return saved', true;
    }
    var d := read(date.value.s);
    if d.Err? {
      return saved', true;
    }
    var diff := IsoTime.Compare(d.value, endDt);
    if diff.Err? || diff.value > 0 {
      return saved', true;
    }
    var ok := Harvester.SavePreprint(db, record, record in refused, now);
    if ok.Err? {
      return saved', true;
    }
    if ok.value {
      saved' := saved' + 1;
    }
  }

  method RangePage(db: Database, url: string, saved: int, items: seq<Json>,
                   endDt: IsoTime.DateTime, refused: set<Json>, now: string,
                   read: Reader)
    returns (saved': int, done: bool)
    modifies db`rawData
    ensures RangeRecords(Range(url, saved, TableOr(old(db.rawData)), false), items, endDt,
                         refused, now, read)
         == Range(url, saved', TableOr(db.rawData), done)
  {
    saved', done := saved, false;
    ghost var page := RangeRecords(Range(url, saved, TableOr(db.rawData), false), items, endDt,
                                   refused, now, read);
    var j := 0;
    while j < |items|
      invariant 0 <= j <= |items| && !done
      invariant page == RangeRecords(Range(url, saved', TableOr(db.rawData), false), items[j..],
                                     endDt, refused, now, read)
      decreases |items| - j
    {
      ghost var cur := Range(url, saved', TableOr(db.rawData), false);
      assert items[j..][1..] == items[j + 1..];
      saved', done := RangeSaveRecord(db, cur, saved', items[j], endDt, refused, now, read);
      if done {
        return;
      }
      j := j + 1;
    }
    assert items[j..] == [];
  }

  /** One pass of the `while url` loop. */
  method RangeResponse(db: Database, url: string, saved: int, response: Harvester.Response,
                       endDt: IsoTime.DateTime, refused: set<Json>, now: string,
                       read: Reader)
    returns (url': string, saved': int, done: bool)
    modifies db`rawData
    ensures RangeStep(Range(url, saved, TableOr(old(db.rawData)), false), response, endDt,
                      refused, now, read)
         == Range(url', saved', TableOr(db.rawData), done)
  {
    url', saved', done := url, saved, true;
    if response.RequestError? {
      return;
    }
    var data := Get(response.body, "data", JArr([]));
    if data.Err? {
      return;
    }
    var items := Iterate(data.value);
    if items.Err? {
      return;
    }
    saved', done := RangePage(db, url, saved, items.value, endDt, refused, now, read);
    if done {
      return;
    }
    var next := GetPath(response.body, ["links", "next"], JNull);
    if next.Err? {
      done := true;
      return;
    }
    url' := NextUrl(next.value);
  }

  /** `harvest_date_range(start_date, end_date)`: returns `saved_count`, or the exception
      raised by an unreadable end date. */
  method HarvestDateRange(db: Database, startDate: string, endDate: string,
                          responses: seq<Harvester.Response>, refused: set<Json>, now: string)
    returns (r: Result<int, PyError>)
    modifies db`rawData
    ensures var spec := HarvestDateRangeSpec(TableOr(old(db.rawData)), startDate, endDate,
                                             responses, refused, now);
      && (r.Err? <==> spec.Err?)
      && (r.Err? ==> r.error == spec.error && db.rawData == old(db.rawData))
      && (r.Ok? ==> r.value == spec.value.saved && TableOr(db.rawData) == spec.value.raw)
  {
    var url := Harvester.BuildApiUrl(JStr(startDate));
    var end := IsoTime.FromIso(endDate);
    if end.Err? {
      return Err(end.error);
    }
    var saved := RangeLoop(db, url, end.value, responses, refused, now, IsoTime.FromIso);
    r := Ok(saved);
  }

  /** `fill_gap(start_date, end_date)`: writes both bounds with `strftime('%Y-%m-%dT%H:%M:%S')`,
      harvests from the start with the end as the bound, and reports
      `final_count - initial_count`. The end text always reads back, so nothing is raised; the
      rows added are no more than the records saved, and every row written lies in the range. */
  method FillGap(db: Database, gap: Gap, responses: seq<Harvester.Response>, refused: set<Json>,
                 now: string)
    returns (added: int)
    requires IsoTime.Valid(gap.start) && IsoTime.Valid(gap.end)
    requires db.rawData.Some?
    modifies db`rawData
    ensures var endDt := gap.end.(micro := 0, offset := None);
      var final := RangeHarvest(Range(Harvester.ApiUrl(JStr(IsoTime.Format(gap.start))), 0,
                                      old(db.rawData.value), false),
                                responses, endDt, refused, now, IsoTime.FromIso);
      && TableOr(db.rawData) == final.raw
      && added == |final.raw| - |old(db.rawData.value)|
      && 0 <= added <= final.saved
      && WrittenWithin(old(db.rawData.value), final.raw, endDt, IsoTime.FromIso)
  {
    var initial := |db.rawData.value|;
    ghost var raw0 := db.rawData.value;
    ghost var endDt := gap.end.(micro := 0, offset := None);
    IsoTime.FormatRoundTrip(gap.end);
    var r := HarvestDateRange(db, IsoTime.Format(gap.start), IsoTime.Format(gap.end), responses,
                              refused, now);
    ghost var start := Range(Harvester.ApiUrl(JStr(IsoTime.Format(gap.start))), 0, raw0, false);
    RangeHarvestKeeps(start, start, responses, endDt, refused, now, IsoTime.FromIso);
    ghost var final := RangeHarvest(start, responses, endDt, refused, now, IsoTime.FromIso);
    SubsetCard(raw0.Keys, final.raw.Keys);
    added := |TableOr(db.rawData)| - initial;
  }

  lemma SubsetCard<T>(a: set<T>, b: set<T>)
    requires a <= b
    ensures |a| <= |b|
  {
    assert b == a + (b - a);
  }

  /** The `while url` loop of `harvest_date_range`. */
  method RangeLoop(db: Database, url0: string, endDt: IsoTime.DateTime,
                   responses: seq<Harvester.Response>, refused: set<Json>, now: string,
                   read: Reader)
    returns (saved: int)
    modifies db`rawData
    ensures var final := RangeHarvest(Range(url0, 0, TableOr(old(db.rawData)), false), responses,
                                      endDt, refused, now, read);
      saved == final.saved && TableOr(db.rawData) == final.raw
  {
    var url := url0;
    saved := 0;
    var done := false;
    var k := 0;
    ghost var final := RangeHarvest(Range(url, 0, TableOr(db.rawData), false), responses, endDt,
                                    refused, now, read);
    while !done && url != "" && k < |responses|
      invariant 0 <= k <= |responses|
      invariant final == RangeHarvest(Range(url, saved, TableOr(db.rawData), done),
                                      responses[k..], endDt, refused, now, read)
      decreases |responses| - k
    {
      assert responses[k..][1..] == responses[k + 1..];
      url, saved, done := RangeResponse(db, url, saved, responses[k], endDt, refused, now, read);
      k := k + 1;
    }
  }

  // ---- fill_gap ----

  /** Whether the dry run counts a record: `start_date <= preprint_date <= end_date`, where the
      second comparison runs only when the first holds. A record without a date is not
      counted; anything else that raises makes the dry run log the error instead of a count. */
  function InGap(record: Json, startDt: IsoTime.DateTime, endDt: IsoTime.DateTime,
                 read: Reader)
    : Result<bool, PyError>
  {
    match RangeDate(record)
    case Err(e) => Err(e)
    case Ok(date) =>
      if !Truthy(date) then Ok(false)
      else if !date.JStr? then Err(AttributeError)
      else
        match read(date.s)
        case Err(e) => Err(e)
        case Ok(d) =>
          match IsoTime.Compare(d, startDt)
          case Err(e) => Err(e)
          case Ok(fromStart) =>
            if fromStart < 0 then Ok(false)
            else
              match IsoTime.Compare(d, endDt)
              case Err(e) => Err(e)
              case Ok(toEnd) => Ok(toEnd <= 0)
  }

  /** `total_count` over the records of the first page, or the first exception. */
  function CountInGap(items: seq<Json>, startDt: IsoTime.DateTime, endDt: IsoTime.DateTime,
                      read: Reader)
    : Result<int, PyError>
  {
    if items == [] then Ok(0)
    else
      match InGap(items[0], startDt, endDt, read)
      case Err(e) => Err(e)
      case Ok(counted) =>
        match CountInGap(items[1..], startDt, endDt, read)
        case Err(e) => Err(e)
        case Ok(n) => Ok(n + if counted then 1 else 0)
  }

  /** The dry run's count is the number of records of the page inside the gap, so at most the
      page's size; it fails exactly when some record raises. */
  lemma {:induction false} CountInGapBounds(items: seq<Json>, startDt: IsoTime.DateTime,
                                            endDt: IsoTime.DateTime,
                                            read: Reader)
    ensures var c := CountInGap(items, startDt, endDt, read);
      && (c.Ok? <==> forall i :: 0 <= i < |items| ==> InGap(items[i], startDt, endDt, read).Ok?)
      && (c.Ok? ==> 0 <= c.value <= |items|)
      && (c.Ok? && c.value == |items| ==>
            forall i :: 0 <= i < |items| ==> InGap(items[i], startDt, endDt, read) == Ok(true))
    decreases |items|
  {
    if items != [] {
      CountInGapBounds(items[1..], startDt, endDt, read);
      assert forall i :: 1 <= i < |items| ==> items[i] == items[1..][i - 1];
    }
  }

  /** What the dry run logs: the count for the first page, or the error it caught. */
  function DryRunSpec(response: Harvester.Response, startDt: IsoTime.DateTime,
                      endDt: IsoTime.DateTime): Result<int, PyError>
  {
    match response
    case RequestError(_) => Err(RequestFailed)
    case Page(body) =>
      match Get(body, "data", JArr([]))
      case Err(e) => Err(e)
      case Ok(data) =>
        match Iterate(data)
        case Err(e) => Err(e)
        case Ok(items) => CountInGap(items, startDt, endDt, IsoTime.FromIso)
  }

  /** `fill_gap(start_date, end_date, dry_run=True)`: requests the first page from the gap's
      start and counts its records inside the gap. It has no database to write to. */
  method FillGapDryRun(gap: Gap, response: Harvester.Response)
    returns (url: string, count: Result<int, PyError>)
    requires IsoTime.Valid(gap.start)
    ensures url == Harvester.ApiUrl(JStr(IsoTime.Format(gap.start)))
    ensures count == DryRunSpec(response, gap.start, gap.end)
  {
    url := Harvester.BuildApiUrl(JStr(IsoTime.Format(gap.start)));
    if response.RequestError? {
      return url, Err(RequestFailed);
    }
    var data := Get(response.body, "data", JArr([]));
    if data.Err? {
      return url, Err(data.error);
    }
    var items := Iterate(data.value);
    if items.Err? {
      return url, Err(items.error);
    }
    count := CountPage(items.value, gap.start, gap.end, IsoTime.FromIso);
  }

  /** The count from record `j` on: record `j`'s verdict, then the count of the records after it. */
  lemma CountInGapStep(items: seq<Json>, j: nat, startDt: IsoTime.DateTime,
                       endDt: IsoTime.DateTime, read: Reader)
    requires j < |items|
    ensures CountInGap(items[j..], startDt, endDt, read)
         == (match InGap(items[j], startDt, endDt, read)
             case Err(e) => Err(e)
             case Ok(counted) =>
               (match CountInGap(items[j + 1..], startDt, endDt, read)
                case Err(e) => Err(e)
                case Ok(n) => Ok(n + if counted then 1 else 0)))
  {
    assert items[j..][1..] == items[j + 1..];
  }

  /** The `for preprint in ...` loop of the dry run. */
  method CountPage(items: seq<Json>, startDt: IsoTime.DateTime, endDt: IsoTime.DateTime,
                   read: Reader)
    returns (count: Result<int, PyError>)
    ensures count == CountInGap(items, startDt, endDt, read)
  {
    var total := 0;
    var j := 0;
    while j < |items|
      invariant 0 <= j <= |items|
      invariant var rest := CountInGap(items[j..], startDt, endDt, read);
        CountInGap(items, startDt, endDt, read) == if rest.Err? then rest else Ok(total + rest.value)
    {
      CountInGapStep(items, j, startDt, endDt, read);
      var inGap := InGap(items[j], startDt, endDt, read);
      if inGap.Err? {
        return Err(inGap.error);
      }
      if inGap.value {
        total := total + 1;
      }
      j := j + 1;
    }
    assert items[j..] == [];
    count := Ok(total);
  }
}

=== FILE: harvester.dfy ===
/** The incremental harvester (osf/harvester.py): the OSF API URL, `save_preprint`, the
    resume point, and the page loop of `harvest_preprints`. The API is a finite sequence of
    responses, one per request; the database refusing the save of the n-th record handled is
    an input (`faults`), and so is the clock (`now`). */
module Harvester {
  import opened Wrappers
  import opened JsonModel
  import Text
  import Sql
  import IsoTime
  import opened Db

  const OsfApiUrl := "https://api.osf.io/v2/preprints/"
  const GtKey := "filter[date_modified][gt]"
  const DefaultFromDate := "2010-01-01"

  /** A query parameter's value: one value, or a list expanded into one `key=item` each. */
  datatype ParamValue = One(v: string) | Many(vs: seq<string>)

  /** A dict of query parameters in insertion order. */
  type Params = seq<(string, ParamValue)>

  /** `config.DEFAULT_PARAMS`. */
  const DefaultParams: Params := [
    ("sort", One("date_modified")),
    ("filter[provider]", One("psyarxiv")),
    (GtKey, One(DefaultFromDate)),
    ("embed", Many(["contributors", "license"])),
    ("fields[licenses]", One("name")),
    ("page[size]", One("50"))
  ]

  /** `params[key] = value`: an existing key keeps its place, a new key goes last. */
  function Assign(params: Params, key: string, value: ParamValue): Params {
    if params == [] then [(key, value)]
    else if params[0].0 == key then [(key, value)] + params[1..]
    else [params[0]] + Assign(params[1..], key, value)
  }

  /** The parameters `build_api_url(from_date)` sends. */
  function UrlParams(fromDate: Json): Params {
    var p := if Truthy(fromDate) then Assign(DefaultParams, GtKey, One(PyStr(fromDate)))
             else DefaultParams;
    Assign(p, "sort", One("date_modified"))
  }

  function ParamParts(key: string, value: ParamValue): seq<string> {
    match value
    case One(v) => [key + "=" + v]
    case Many(vs) => seq(|vs|, i requires 0 <= i < |vs| => key + "=" + vs[i])
  }

  function Parts(params: Params): seq<string> {
    if params == [] then [] else ParamParts(params[0].0, params[0].1) + Parts(params[1..])
  }

  /** The URL `build_api_url(from_date)` returns. */
  function ApiUrl(fromDate: Json): string {
    OsfApiUrl + "?" + Text.Join(Parts(UrlParams(fromDate)), "&")
  }

  /** The value of the `filter[date_modified][gt]` parameter. */
  function GtValue(fromDate: Json): string {
    if Truthy(fromDate) then PyStr(fromDate) else DefaultFromDate
  }

  /** The query has the seven parts of the default parameters in their order, with the
      `filter[date_modified][gt]` part carrying the resume point when there is one, and the
      list-valued `embed` expanded in list order. */
  lemma UrlPartsAre(fromDate: Json)
    ensures UrlParams(fromDate) == DefaultParams[2 := (GtKey, One(GtValue(fromDate)))]
    ensures Parts(UrlParams(fromDate)) == [
      "sort" + "=" + "date_modified", "filter[provider]" + "=" + "psyarxiv",
      GtKey + "=" + GtValue(fromDate), "embed" + "=" + "contributors", "embed" + "=" + "license",
      "fields[licenses]" + "=" + "name", "page[size]" + "=" + "50"]
  {
    UrlParamsAre(fromDate);
    DefaultPartsWith(GtValue(fromDate));
  }

  lemma UrlParamsAre(fromDate: Json)
    ensures UrlParams(fromDate) == DefaultParams[2 := (GtKey, One(GtValue(fromDate)))]
  {
    var d := DefaultParams;
    var gt := One(GtValue(fromDate));
    var p := if Truthy(fromDate) then Assign(d, GtKey, One(PyStr(fromDate))) else d;
    if Truthy(fromDate) {
      assert Assign(d[2..], GtKey, gt) == [(GtKey, gt)] + d[3..];
      assert Assign(d[1..], GtKey, gt) == [d[1]] + Assign(d[2..], GtKey, gt);
      assert Assign(d, GtKey, gt) == [d[0]] + Assign(d[1..], GtKey, gt);
    }
    assert p == d[2 := (GtKey, gt)];
    assert Assign(p, "sort", One("date_modified")) == p;
  }

  lemma DefaultPartsWith(v: string)
    ensures Parts(DefaultParams[2 := (GtKey, One(v))]) == [
      "sort" + "=" + "date_modified", "filter[provider]" + "=" + "psyarxiv",
      GtKey + "=" + v, "embed" + "=" + "contributors", "embed" + "=" + "license",
      "fields[licenses]" + "=" + "name", "page[size]" + "=" + "50"]
  {
    var d := DefaultParams;
    var gt := (GtKey, One(v));
    var embed := ParamParts("embed", Many(["contributors", "license"]));
    assert |embed| == 2 && embed[0] == "embed" + "=" + "contributors";
    assert embed[1] == "embed" + "=" + "license";
    var t5: Params := [d[5]];
    var t4 := [d[4]] + t5;
    var t3 := [d[3]] + t4;
    var t2 := [gt] + t3;
    var t1 := [d[1]] + t2;
    assert d[2 := gt] == [d[0]] + t1;
    assert t5 == [d[5]] + [];
    PartsCons(d[5], []);
    PartsCons(d[4], t5);
    PartsCons(d[3], t4);
    PartsCons(gt, t3);
    PartsCons(d[1], t2);
    PartsCons(d[0], t1);
    assert ParamParts(d[3].0, d[3].1) == embed;
    assert ParamParts(d[0].0, d[0].1) == ["sort" + "=" + "date_modified"];
    assert ParamParts(d[1].0, d[1].1) == ["filter[provider]" + "=" + "psyarxiv"];
    assert ParamParts(gt.0, gt.1) == [GtKey + "=" + v];
    assert ParamParts(d[4].0, d[4].1) == ["fields[licenses]" + "=" + "name"];
    assert ParamParts(d[5].0, d[5].1) == ["page[size]" + "=" + "50"];
    assert Parts([]) == [];
    var p := Parts(d[2 := gt]);
    assert p == ParamParts(d[0].0, d[0].1) + (ParamParts(d[1].0, d[1].1) + (ParamParts(gt.0, gt.1)
      + (embed + (ParamParts(d[4].0, d[4].1) + (ParamParts(d[5].0, d[5].1) + [])))));
    assert |p| == 7;
    assert p[3] == embed[0] && p[4] == embed[1];
  }

  /** Exactly one part of the query is a `filter[date_modified][gt]=` filter, and it carries
      the resume point (or the default date); a `sort=date_modified` part is always there. */
  lemma OneDateFilter(fromDate: Json)
    ensures var parts := Parts(UrlParams(fromDate));
      |parts| == 7
      && (forall i :: 0 <= i < |parts| ==> (Text.StartsWith(parts[i], GtKey + "=") <==> i == 2))
      && parts[2] == GtKey + "=" + GtValue(fromDate)
      && "sort=date_modified" in parts
  {
    UrlPartsAre(fromDate);
    var parts := Parts(UrlParams(fromDate));
    assert |GtKey + "="| == 26;
    forall i | 0 <= i < |parts| && i != 2 ensures !Text.StartsWith(parts[i], GtKey + "=") {
      assert |parts[i]| < 26;
    }
    assert Text.StartsWith(parts[2], GtKey + "=") by {
      assert parts[2][..26] == GtKey + "=";
    }
    assert parts[0] == "sort=date_modified" by {
      assert "sort" + "=" + "date_modified" == "sort=date_modified";
    }
  }

  lemma PartsCons(p: (string, ParamValue), rest: Params)
    ensures Parts([p] + rest) == ParamParts(p.0, p.1) + Parts(rest)
  {
    assert ([p] + rest)[1..] == rest;
  }

  lemma {:induction false} PartsAppend(params: Params, p: (string, ParamValue))
    ensures Parts(params + [p]) == Parts(params) + ParamParts(p.0, p.1)
  {
    if params != [] {
      assert (params + [p])[1..] == params[1..] + [p];
      PartsAppend(params[1..], p);
    }
  }

  /** `for v in value: url_parts.append(f"{key}={v}")`. */
  method AppendListParts(urlParts: seq<string>, key: string, items: seq<string>)
    returns (r: seq<string>)
    ensures r == urlParts + ParamParts(key, Many(items))
  {
    r := urlParts;
    var j := 0;
    while j < |items|
      invariant 0 <= j <= |items|
      invariant r == urlParts + ParamParts(key, Many(items[..j]))
    {
      r := r + [key + "=" + items[j]];
      j := j + 1;
    }
    assert items[..j] == items;
  }

  /** `build_api_url(from_date)`. */
  method BuildApiUrl(fromDate: Json) returns (url: string)
    ensures url == ApiUrl(fromDate)
  {
    var params := DefaultParams;
    if Truthy(fromDate) {
      params := Assign(params, GtKey, One(PyStr(fromDate)));
    }
    params := Assign(params, "sort", One("date_modified"));
    var urlParts: seq<string> := [];
    var i := 0;
    while i < |params|
      invariant 0 <= i <= |params|
      invariant urlParts == Parts(params[..i])
    {
      var key := params[i].0;
      match params[i].1 {
        case Many(items) =>
          urlParts := AppendListParts(urlParts, key, items);
        case One(v) =>
          urlParts := urlParts + [key + "=" + v];
      }
      assert params[..i + 1] == params[..i] + [params[i]];
      PartsAppend(params[..i], params[i]);
      i := i + 1;
    }
    assert params[..i] == params;
    url := OsfApiUrl + "?" + Text.Join(urlParts, "&");
  }

  // ---- save_preprint ----

  /** What `save_preprint` returns, and the `raw_data` rows it leaves. */
  datatype Saved = Saved(result: Result<bool, PyError>, raw: map<string, RawRow>)

  /** `save_preprint(db, record)` against the rows `raw`; `refused` makes the upsert raise. */
  function Save(raw: map<string, RawRow>, record: Json, refused: bool, now: string): Saved {
    match Get(record, "id", JNull)
    case Err(e) => Saved(Err(e), raw)
    case Ok(idValue) =>
      match KeyOf(idValue)
      case None => Saved(Ok(false), raw)
      case Some(id) =>
        match RawRowFor(record, JsonText(record), now)
        case Err(e) => Saved(Err(e), raw)
        case Ok(row) => if refused then Saved(Ok(false), raw) else Saved(Ok(true), raw[id := row])
  }

  /** A record without a truthy id is skipped; a dict record with dict attributes is written,
      unless the write is refused, as exactly the row for its id holding its dates and
      serialised document; anything else raises; nothing is written unless True is returned. */
  lemma SaveWritesOnlyItsRow(raw: map<string, RawRow>, record: Json, refused: bool, now: string)
    ensures var s := Save(raw, record, refused, now);
      && (s.result == Ok(true) ==> (record.JObj? &&
           var id := KeyOf(Get(record, "id", JNull).value);
           id.Some? && RawRowFor(record, JsonText(record), now).Ok?
           && s.raw == raw[id.value := RawRowFor(record, JsonText(record), now).value]))
      && (s.result != Ok(true) ==> s.raw == raw)
      && (record.JObj? && KeyOf(Get(record, "id", JNull).value).None? ==> s.result == Ok(false))
      && (s.result.Err? <==> (!record.JObj?
           || (KeyOf(Get(record, "id", JNull).value).Some?
               && RawRowFor(record, JsonText(record), now).Err?)))
      && ((record.JObj? && KeyOf(Get(record, "id", JNull).value).Some?
           && RawRowFor(record, JsonText(record), now).Ok?) ==> s.result == Ok(!refused))
  {
  }

  /** `save_preprint(db, record)`: writes `raw_data` (creating it if needed) only on success. */
  method SavePreprint(db: Database, record: Json, refused: bool, now: string)
    returns (r: Result<bool, PyError>)
    modifies db`rawData
    ensures r == Save(TableOr(old(db.rawData)), record, refused, now).result
    ensures r == Ok(true) ==>
      db.rawData == Some(Save(TableOr(old(db.rawData)), record, refused, now).raw)
    ensures r != Ok(true) ==> db.rawData == old(db.rawData)
    ensures db.preprints == old(db.preprints) && db.preprintsUi == old(db.preprintsUi)
  {
    var s := Save(TableOr(db.rawData), record, refused, now);
    r := s.result;
    if r == Ok(true) {
      db.rawData := Some(s.raw);
    }
  }

  // ---- get_most_recent_modified_date ----

  /** Row `id` has a `date_modified` no other row's exceeds. */
  predicate IsNewest(t: map<string, RawRow>, id: string) {
    id in t && t[id].dateModified.Some?
    && forall other :: other in t && t[other].dateModified.Some? ==>
         !Text.Less(t[id].dateModified.value, t[other].dateModified.value)
  }

  /** Row `id` is newest, with a non-empty date whose part before any `.` is `point`. */
  predicate IsNewestAt(t: map<string, RawRow>, id: string, point: string) {
    IsNewest(t, id) && t[id].dateModified.value != ""
    && point == Text.BeforeFirst(t[id].dateModified.value, '.')
  }

  /** `get_most_recent_modified_date(db)`: the greatest non-null `date_modified`, cut before
      its first `.`; None when `raw_data` is missing, has no dated row, or the greatest
      date is empty. */
  function ResumePoint(raw: Option<map<string, RawRow>>): Option<string> {
    if raw.None? then None
    else
      var t := raw.value;
      var ids := set id | id in t && t[id].dateModified.Some?;
      if ids == {} then None
      else
        var key := map id | id in ids :: Sql.SText(t[id].dateModified.value);
        var newest := t[Sql.Greatest(key, ids)].dateModified.value;
        if newest == "" then None else Some(Text.BeforeFirst(newest, '.'))
  }

  /** The resume point is absent exactly when there is no table or no non-empty date, and
      otherwise is the newest date up to (not including) its first `.`. */
  lemma ResumePointIsNewest(raw: Option<map<string, RawRow>>)
    ensures var r := ResumePoint(raw);
      && (r.None? <==> (raw.None? ||
           forall id :: id in raw.value && raw.value[id].dateModified.Some? ==>
             raw.value[id].dateModified.value == ""))
      && (r.Some? ==> '.' !in r.value && exists id :: IsNewestAt(raw.value, id, r.value))
  {
    if raw.Some? {
      var t := raw.value;
      var ids := set id | id in t && t[id].dateModified.Some?;
      assert forall id :: id in t && t[id].dateModified.Some? ==> id in ids;
      if ids != {} {
        var key := map id | id in ids :: Sql.SText(t[id].dateModified.value);
        var m := Sql.Greatest(key, ids);
        var newest := t[m].dateModified.value;
        forall id | id in ids ensures !Text.Less(newest, t[id].dateModified.value) {
          assert !Sql.SqlLess(key[m], key[id]);
        }
        assert IsNewest(t, m);
        if newest == "" {
          forall id | id in ids ensures t[id].dateModified.value == "" {
            assert !Text.Less("", t[id].dateModified.value);
          }
        } else {
          assert IsNewestAt(t, m, ResumePoint(raw).value);
        }
      }
    }
  }

  // ---- harvest_preprints ----

  /** One API response: a decoded page, or a `requests` exception with its message. */
  datatype Response = Page(body: Json) | RequestError(message: string)

  /** The loop variables of `harvest_preprints` and the `raw_data` rows. `raised` is an
      exception that escaped the loop. */
  datatype Run = Run(url: string, fromDate: Json, count: int, saved: int,
                     raw: map<string, RawRow>, raised: Option<PyError>)

  datatype Outcome = Returned(saved: int) | Raised(error: PyError)

  /** `preprint.get('attributes', {}).get('date_modified', 'unknown')`. */
  function CurrentDate(record: Json): Result<Json, PyError> {
    match Get(record, "attributes", EmptyObj)
    case Err(e) => Err(e)
    case Ok(attributes) => Get(attributes, "date_modified", JStr("unknown"))
  }

  /** `if limit and preprint_count >= limit`. */
  predicate LimitReached(limit: Option<int>, count: int) {
    limit.Some? && limit.value != 0 && count >= limit.value
  }

  /** The loop condition `url and (limit is None or preprint_count < limit)`. */
  predicate Continues(run: Run, limit: Option<int>) {
    run.raised.None? && run.url != "" && (limit.None? || run.count < limit.value)
  }

  /** The save of the `n`-th record handled is refused (its upsert raises). */
  predicate Refused(n: int, faults: set<nat>) {
    n >= 0 && n as nat in faults
  }

  /** The `n`-th record handled is saved: its date reads, and it is a dict with a truthy id
      and readable attributes whose write is not refused. */
  predicate Saves(record: Json, n: int, faults: set<nat>, now: string) {
    && CurrentDate(record).Ok? && record.JObj?
    && Get(record, "id", JNull).Ok? && KeyOf(Get(record, "id", JNull).value).Some?
    && RawRowFor(record, JsonText(record), now).Ok? && !Refused(n, faults)
  }

  /** One record of a page: it is counted, then saved (the save of the n-th record handled is
      refused when n is in `faults`); a save moves `last` to the record's date. */
  function RecordStep(run: Run, last: Json, record: Json, faults: set<nat>, now: string)
    : (Run, Json)
  {
    var count := run.count + 1;
    match CurrentDate(record)
    case Err(e) => (run.(count := count, raised := Some(e)), last)
    case Ok(date) =>
      var s := Save(run.raw, record, Refused(count, faults), now);
      match s.result
      case Err(e) => (run.(count := count, raised := Some(e)), last)
      case Ok(ok) =>
        if ok then (run.(count := count, saved := run.saved + 1, raw := s.raw), date)
        else (run.(count := count), last)
  }

  /** A record is counted once, is saved at most once, adds at most the one row it saved, and
      moves `last` only when saved, to its own date. */
  lemma RecordStepFacts(run: Run, last: Json, record: Json, faults: set<nat>, now: string)
    ensures var r := RecordStep(run, last, record, faults, now);
      && r.0.count == run.count + 1 && r.0.url == run.url && r.0.fromDate == run.fromDate
      && (r.0.saved == run.saved || r.0.saved == run.saved + 1)
      && r.0.raw.Keys >= run.raw.Keys
      && |r.0.raw.Keys| <= |run.raw.Keys| + r.0.saved - run.saved
      && (r.1 != last ==> r.0.saved == run.saved + 1 && CurrentDate(record) == Ok(r.1))
  {
    var count := run.count + 1;
    var refused := Refused(count, faults);
    match CurrentDate(record) {
      case Err(_) =>
      case Ok(date) =>
        SaveKeys(run.raw, record, refused, now);
    }
  }

  /** A record moves `last` to its date exactly when it is saved. */
  lemma RecordStepSaves(run: Run, last: Json, record: Json, faults: set<nat>, now: string)
    ensures var r := RecordStep(run, last, record, faults, now);
      && r.0.count == run.count + 1
      && r.1 == (if Saves(record, run.count + 1, faults, now) then CurrentDate(record).value else last)
  {
    SaveWritesOnlyItsRow(run.raw, record, Refused(run.count + 1, faults), now);
  }

  lemma SaveKeys(raw: map<string, RawRow>, record: Json, refused: bool, now: string)
    ensures var sv := Save(raw, record, refused, now);
      && raw.Keys <= sv.raw.Keys
      && |sv.raw.Keys| <= |raw.Keys| + (if sv.result == Ok(true) then 1 else 0)
  {
    var sv := Save(raw, record, refused, now);
    if sv.result == Ok(true) {
      var id := KeyOf(Get(record, "id", JNull).value).value;
      assert sv.raw.Keys == raw.Keys + {id};
      CardUnionOne(raw.Keys, id);
    }
  }

  lemma CardUnionOne<T>(a: set<T>, x: T)
    ensures |a + {x}| <= |a| + 1
  {
    if x !in a {
      assert |a + {x}| == |a| + 1;
    } else {
      assert a + {x} == a;
    }
  }

  /** Record `j` of a page whose records are counted from `base + 1` on is saved. */
  predicate SavedAt(items: seq<Json>, base: int, j: nat, faults: set<nat>, now: string)
    requires j < |items|
  {
    Saves(items[j], base + j + 1, faults, now)
  }

  /** The date of the last of the first `h` records of a page that was saved, where the page's
      records are counted from `base + 1` on; `last` when none of them was. */
  function LastSaved(items: seq<Json>, base: int, h: nat, last: Json, faults: set<nat>,
                     now: string): Json
    requires h <= |items|
  {
    if h == 0 then last
    else if SavedAt(items, base, h - 1, faults, now) then CurrentDate(items[h - 1]).value
    else LastSaved(items, base, h - 1, last, faults, now)
  }

  /** `LastSaved` is the date of a saved record with no saved record after it, or `last` when
      no record was saved. */
  lemma {:induction false} LastSavedIsLast(items: seq<Json>, base: int, h: nat, last: Json,
                                           faults: set<nat>, now: string)
    requires h <= |items|
    ensures var d := LastSaved(items, base, h, last, faults, now);
      && ((forall j :: 0 <= j < h ==> !SavedAt(items, base, j, faults, now)) ==> d == last)
      && ((exists j :: 0 <= j < h && SavedAt(items, base, j, faults, now)) ==>
          exists j :: 0 <= j < h && SavedAt(items, base, j, faults, now)
            && CurrentDate(items[j]) == Ok(d)
            && forall k :: j < k < h ==> !SavedAt(items, base, k, faults, now))
  {
    if h > 0 {
      if SavedAt(items, base, h - 1, faults, now) {
        assert CurrentDate(items[h - 1]) == Ok(LastSaved(items, base, h, last, faults, now));
      } else {
        LastSavedIsLast(items, base, h - 1, last, faults, now);
      }
    }
  }

  /** A date `LastSaved` finds is the date of one of the records it looked at. */
  lemma LastSavedIsRecordDate(items: seq<Json>, base: int, h: nat, faults: set<nat>, now: string)
    requires h <= |items|
    ensures var d := LastSaved(items, base, h, JNull, faults, now);
      d != JNull ==> exists i :: 0 <= i < h && CurrentDate(items[i]) == Ok(d)
  {
    LastSavedIsLast(items, base, h, JNull, faults, now);
  }

  /** Dropping the first record of a page: the rest starts from its verdict. */
  lemma {:induction false} LastSavedShift(items: seq<Json>, base: int, h: nat, last: Json,
                                          faults: set<nat>, now: string)
    requires 1 <= h <= |items|
    ensures LastSaved(items, base, h, last, faults, now)
         == LastSaved(items[1..], base + 1, h - 1,
                      if Saves(items[0], base + 1, faults, now) then CurrentDate(items[0]).value else last,
                      faults, now)
  {
    if h > 1 {
      assert items[1..][h - 2] == items[h - 1];
      LastSavedShift(items, base, h - 1, last, faults, now);
    }
  }

  /** The records of one page, in order, until one raises or the limit is reached. Returns the
      state and the date of the last record saved (`last` when none was). */
  function PageRecords(run: Run, last: Json, items: seq<Json>, limit: Option<int>,
                       faults: set<nat>, now: string): (Run, Json)
    decreases |items|
  {
    if items == [] || run.raised.Some? then (run, last)
    else
      var (next, l) := RecordStep(run, last, items[0], faults, now);
      if next.raised.Some? || LimitReached(limit, next.count) then (next, l)
      else PageRecords(next, l, items[1..], limit, faults, now)
  }

  /** After record `j` is handled, the page stops there when it raised or reached the limit,
      and otherwise goes on with the records after it. */
  lemma PageRecordsStep(run: Run, last: Json, items: seq<Json>, j: nat, limit: Option<int>,
                        faults: set<nat>, now: string, next: Run, l: Json)
    requires j < |items| && run.raised.None?
    requires RecordStep(run, last, items[j], faults, now) == (next, l)
    ensures PageRecords(run, last, items[j..], limit, faults, now)
         == if next.raised.Some? || LimitReached(limit, next.count) then (next, l)
            else PageRecords(next, l, items[j + 1..], limit, faults, now)
  {
    assert items[j..][0] == items[j] && items[j..][1..] == items[j + 1..];
  }

  /** Within a page: no more records are handled than it holds, saves never outnumber handled
      records, rows are only added and at most one per save, the limit is not overshot, and the
      date returned changes only when a record was saved. */
  lemma {:induction false} PageRecordsFacts(run: Run, last: Json, items: seq<Json>,
                                            limit: Option<int>, faults: set<nat>, now: string)
    requires run.raised.None?
    ensures var r := PageRecords(run, last, items, limit, faults, now);
      && run.count <= r.0.count <= run.count + |items|
      && r.0.url == run.url && r.0.fromDate == run.fromDate
      && run.saved <= r.0.saved && r.0.saved - run.saved <= r.0.count - run.count
      && r.0.raw.Keys >= run.raw.Keys
      && |r.0.raw.Keys| <= |run.raw.Keys| + r.0.saved - run.saved
      && (r.0.saved == run.saved ==> r.1 == last)
      && (limit.Some? && 0 <= run.count < limit.value ==> r.0.count <= limit.value)
    decreases |items|
  {
    if items != [] {
      RecordStepFacts(run, last, items[0], faults, now);
      var (next, l) := RecordStep(run, last, items[0], faults, now);
      if next.raised.None? && !LimitReached(limit, next.count) {
        PageRecordsFacts(next, l, items[1..], limit, faults, now);
      }
    }
  }

  /** The date a page returns is that of the last record handled whose save returned True,
      or `last` when none was saved. */
  lemma {:induction false} PageRecordsLastSaved(run: Run, last: Json, items: seq<Json>,
                                                limit: Option<int>, faults: set<nat>, now: string)
    requires run.raised.None?
    ensures var r := PageRecords(run, last, items, limit, faults, now);
      && run.count <= r.0.count <= run.count + |items|
      && r.1 == LastSaved(items, run.count, r.0.count - run.count, last, faults, now)
    decreases |items|
  {
    if items != [] {
      RecordStepSaves(run, last, items[0], faults, now);
      var (next, l) := RecordStep(run, last, items[0], faults, now);
      assert l == LastSaved(items, run.count, 1, last, faults, now);
      if next.raised.None? && !LimitReached(limit, next.count) {
        PageRecordsLastSaved(next, l, items[1..], limit, faults, now);
        var r := PageRecords(next, l, items[1..], limit, faults, now);
        LastSavedShift(items, run.count, r.0.count - run.count, last, faults, now);
      }
    }
  }

  /** `from_date` after a page: the last saved record's date, unless none was saved or it
      was the 'unknown' placeholder. */
  function ResumeAfterPage(fromDate: Json, last: Json): Json {
    if Truthy(last) && last != JStr("unknown") then last else fromDate
  }

  /** The URL of the next request after a page: none when the next link is falsy, rebuilt
      from the resume point when the page has a next link and saved a dated record, otherwise
      the next link itself (a link that is not text is requested as its `str()`, and the
      response to that request decides what follows). */
  function UrlAfterPage(next: Json, fromDate: Json, last: Json): string {
    if !Truthy(next) then ""
    else if Truthy(last) && last != JStr("unknown") then ApiUrl(fromDate)
    else PyStr(next)
  }

  /** The 404 branch: `from_date` moves 6 hours earlier and the URL is rebuilt; a resume point
      that is not text, not ISO 8601, or within 6 hours of year 1 raises. */
  function StepBack(run: Run): Run {
    match run.fromDate
    case JStr(s) =>
      (match IsoTime.FromIso(s)
       case Err(e) => run.(raised := Some(e))
       case Ok(dt) =>
         match IsoTime.SixHoursEarlier(dt)
         case Err(e) => run.(raised := Some(e))
         case Ok(earlier) =>
           var f := JStr(IsoTime.Format(earlier));
           run.(fromDate := f, url := ApiUrl(f)))
    case _ => run.(raised := Some(AttributeError))
  }

  /** A page of results: its records, then the new resume point and next URL. */
  function PageStep(run: Run, body: Json, limit: Option<int>, faults: set<nat>, now: string)
    : Run
  {
    match Get(body, "data", JArr([]))
    case Err(e) => run.(raised := Some(e))
    case Ok(data) =>
      match Iterate(data)
      case Err(e) => run.(raised := Some(e))
      case Ok(items) =>
        var (r, last) := PageRecords(run, JNull, items, limit, faults, now);
        if r.raised.Some? then r
        else
          var fromDate := ResumeAfterPage(r.fromDate, last);
          match GetPath(body, ["links", "next"], JNull)
          case Err(e) => r.(fromDate := fromDate, raised := Some(e))
          case Ok(next) => r.(fromDate := fromDate, url := UrlAfterPage(next, fromDate, last))
  }

  /** One pass of the `while` loop: one request and its response. */
  function Step(run: Run, response: Response, limit: Option<int>, faults: set<nat>,
                now: string): Run
  {
    match response
    case RequestError(message) =>
      if Text.Contains(message, "404") && Truthy(run.fromDate) then StepBack(run) else run
    case Page(body) => PageStep(run, body, limit, faults, now)
  }

  /** The loop until the URL is empty, the limit is reached, an exception escapes, or the
      responses run out. */
  function Harvest(run: Run, responses: seq<Response>, limit: Option<int>, faults: set<nat>,
                   now: string): Run
    decreases |responses|
  {
    if !Continues(run, limit) || responses == [] then run
    else Harvest(Step(run, responses[0], limit, faults, now), responses[1..], limit, faults, now)
  }

  /** A pass of the loop: the run goes on from the state the response leads to. */
  lemma HarvestStep(run: Run, responses: seq<Response>, k: nat, limit: Option<int>,
                    faults: set<nat>, now: string, next: Run)
    requires k < |responses| && Continues(run, limit)
    requires Step(run, responses[k], limit, faults, now) == next
    ensures Harvest(run, responses[k..], limit, faults, now)
         == Harvest(next, responses[k + 1..], limit, faults, now)
  {
    assert responses[k..][0] == responses[k] && responses[k..][1..] == responses[k + 1..];
  }

  /** The state before the first request: resume from the newest stored `date_modified`. */
  function Start(raw: map<string, RawRow>): Run {
    var resume := ResumePoint(Some(raw));
    var fromDate := if resume.Some? then JStr(resume.value) else JNull;
    Run(ApiUrl(fromDate), fromDate, 0, 0, raw, None)
  }

  function OutcomeOf(run: Run): Outcome {
    if run.raised.Some? then Raised(run.raised.value) else Returned(run.saved)
  }

  function Max0(n: int): int {
    if n < 0 then 0 else n
  }

  /** What holds between passes: saves never outnumber handled records, the limit bounds the
      handled records, rows are only added, and each new row was counted as saved. */
  predicate Bounded(start: Run, run: Run, limit: Option<int>) {
    0 <= run.saved <= run.count
    && (limit.Some? ==> run.count <= Max0(limit.value))
    && run.raw.Keys >= start.raw.Keys
    && |run.raw.Keys| <= |start.raw.Keys| + run.saved
  }

  /** After a page that raised nothing: `from_date` changes only when a record was saved,
      and then to the date of a record of the page, neither falsy nor 'unknown'; a page
      without a next link ends the loop; with one, a page that saved nothing follows the
      link and a page that moved `from_date` asks for records after the new date. */
  lemma PageStepResumes(run: Run, body: Json, limit: Option<int>, faults: set<nat>, now: string)
    requires run.raised.None?
    ensures var r := PageStep(run, body, limit, faults, now);
      r.raised.None? ==> (Get(body, "data", JArr([])).Ok? && Iterate(Get(body, "data", JArr([])).value).Ok?
        && GetPath(body, ["links", "next"], JNull).Ok?)
    ensures var r := PageStep(run, body, limit, faults, now);
      r.raised.None? && r.saved == run.saved ==> r.fromDate == run.fromDate
    ensures var r := PageStep(run, body, limit, faults, now);
      r.raised.None? && r.fromDate != run.fromDate ==>
        var items := Iterate(Get(body, "data", JArr([])).value).value;
        r.saved > run.saved && Truthy(r.fromDate) && r.fromDate != JStr("unknown")
        && exists i :: 0 <= i < |items| && CurrentDate(items[i]) == Ok(r.fromDate)
    ensures var r := PageStep(run, body, limit, faults, now);
      r.raised.None? ==> var next := GetPath(body, ["links", "next"], JNull).value;
        && (!Truthy(next) ==> r.url == "")
        && (Truthy(next) ==> r.url != "")
        && (Truthy(next) && r.saved == run.saved ==> r.url == PyStr(next))
        && (Truthy(next) && r.fromDate != run.fromDate ==> r.url == ApiUrl(r.fromDate))
  {
    var r := PageStep(run, body, limit, faults, now);
    if r.raised.None? {
      var items := Iterate(Get(body, "data", JArr([])).value).value;
      PageRecordsFacts(run, JNull, items, limit, faults, now);
      PageStepResumePoint(run, body, limit, faults, now);
      LastSavedIsRecordDate(items, run.count, r.count - run.count, faults, now);
    }
  }

  /** A page that raised nothing handled its records and set `from_date` from the date they
      returned. */
  lemma PageStepShape(run: Run, body: Json, limit: Option<int>, faults: set<nat>, now: string)
    requires run.raised.None?
    ensures var r := PageStep(run, body, limit, faults, now);
      r.raised.None? ==>
        && Get(body, "data", JArr([])).Ok? && Iterate(Get(body, "data", JArr([])).value).Ok?
        && var p := PageRecords(run, JNull, Iterate(Get(body, "data", JArr([])).value).value,
                                limit, faults, now);
           r.count == p.0.count && r.fromDate == ResumeAfterPage(run.fromDate, p.1)
  {
    var r := PageStep(run, body, limit, faults, now);
    if r.raised.None? {
      var items := Iterate(Get(body, "data", JArr([])).value).value;
      PageRecordsFacts(run, JNull, items, limit, faults, now);
    }
  }

  /** `from_date` after a page that raised nothing is the date of the last record handled
      whose save returned True (`LastSavedIsLast`), unless no record was saved or that date is
      falsy or 'unknown'. */
  lemma PageStepResumePoint(run: Run, body: Json, limit: Option<int>, faults: set<nat>, now: string)
    requires run.raised.None?
    ensures var r := PageStep(run, body, limit, faults, now);
      r.raised.None? ==>
        var items := Iterate(Get(body, "data", JArr([])).value).value;
        && run.count <= r.count <= run.count + |items|
        && r.fromDate == ResumeAfterPage(run.fromDate,
                                         LastSaved(items, run.count, r.count - run.count, JNull, faults, now))
  {
    var r := PageStep(run, body, limit, faults, now);
    PageStepShape(run, body, limit, faults, now);
    if r.raised.None? {
      var items := Iterate(Get(body, "data", JArr([])).value).value;
      PageRecordsResume(run, items, limit, faults, now);
    }
  }

  /** `PageRecordsLastSaved` for the loop as each page starts it, with no date seen yet. */
  lemma PageRecordsResume(run: Run, items: seq<Json>, limit: Option<int>, faults: set<nat>,
                          now: string)
    requires run.raised.None?
    ensures var p := PageRecords(run, JNull, items, limit, faults, now);
      && run.count <= p.0.count <= run.count + |items|
      && p.1 == LastSaved(items, run.count, p.0.count - run.count, JNull, faults, now)
  {
    PageRecordsLastSaved(run, JNull, items, limit, faults, now);
  }

  lemma PageStepBounded(start: Run, run: Run, body: Json, limit: Option<int>,
                        faults: set<nat>, now: string)
    requires Continues(run, limit) && Bounded(start, run, limit)
    ensures Bounded(start, PageStep(run, body, limit, faults, now), limit)
  {
    var r := PageStep(run, body, limit, faults, now);
    var data := Get(body, "data", JArr([]));
    if data.Ok? && Iterate(data.value).Ok? {
      var items := Iterate(data.value).value;
      PageRecordsFacts(run, JNull, items, limit, faults, now);
      var page := PageRecords(run, JNull, items, limit, faults, now).0;
      assert r.count == page.count && r.saved == page.saved && r.raw == page.raw;
    }
  }

  lemma StepBackKeepsCounts(run: Run)
    ensures var r := StepBack(run); r.count == run.count && r.saved == run.saved && r.raw == run.raw
  {
  }

  lemma StepBounded(start: Run, run: Run, response: Response, limit: Option<int>,
                    faults: set<nat>, now: string)
    requires Continues(run, limit) && Bounded(start, run, limit)
    ensures Bounded(start, Step(run, response, limit, faults, now), limit)
  {
    match response {
      case Page(body) =>
        PageStepBounded(start, run, body, limit, faults, now);
      case RequestError(message) =>
        StepBackKeepsCounts(run);
    }
  }

  /** Over the whole run `saved_count <= preprint_count`, `preprint_count` never exceeds a
      given limit, no row is removed, and at most `saved_count` rows are added. */
  lemma {:induction false} HarvestBounded(start: Run, run: Run, responses: seq<Response>,
                                          limit: Option<int>, faults: set<nat>, now: string)
    requires Bounded(start, run, limit)
    ensures Bounded(start, Harvest(run, responses, limit, faults, now), limit)
    decreases |responses|
  {
    if Continues(run, limit) && responses != [] {
      StepBounded(start, run, responses[0], limit, faults, now);
      HarvestBounded(start, Step(run, responses[0], limit, faults, now), responses[1..],
                     limit, faults, now);
    }
  }

  /** A request error other than a 404 with a resume point changes nothing: the same URL is
      requested again, with nothing counted or saved. */
  lemma OtherErrorsRetry(run: Run, message: string, rest: seq<Response>, limit: Option<int>,
                         faults: set<nat>, now: string)
    requires Continues(run, limit)
    requires !(Text.Contains(message, "404") && Truthy(run.fromDate))
    ensures Harvest(run, [RequestError(message)] + rest, limit, faults, now)
         == Harvest(run, rest, limit, faults, now)
  {
    assert ([RequestError(message)] + rest)[1..] == rest;
  }

  /** A 404 with a readable resume point moves it exactly 6 hours back, to whole seconds: the
      new `from_date` reads back as the old instant minus 6 hours minus its fraction, and the
      next request asks for records modified after it. */
  lemma NotFoundStepsBackSixHours(run: Run, message: string, limit: Option<int>,
                                  faults: set<nat>, now: string, s: string, dt: IsoTime.DateTime)
    requires Continues(run, limit) && Text.Contains(message, "404")
    requires run.fromDate == JStr(s) && s != "" && IsoTime.FromIso(s) == Ok(dt)
    requires IsoTime.Micros(dt) >= 6 * IsoTime.MicrosPerHour
    ensures var r := Step(run, RequestError(message), limit, faults, now);
      r.raised.None? && r.fromDate.JStr? && r.url == ApiUrl(r.fromDate)
      && IsoTime.FromIso(r.fromDate.s).Ok?
      && var back := IsoTime.FromIso(r.fromDate.s).value;
         back.offset.None? && back.micro == 0
         && IsoTime.Micros(back) == IsoTime.Micros(dt) - 6 * IsoTime.MicrosPerHour - dt.micro
  {
    assert Step(run, RequestError(message), limit, faults, now) == StepBack(run);
    IsoTime.SixHoursEarlierRoundTrip(dt);
    StepBackFormats(run, s, dt);
  }

  lemma StepBackFormats(run: Run, s: string, dt: IsoTime.DateTime)
    requires run.fromDate == JStr(s) && IsoTime.FromIso(s) == Ok(dt)
    requires IsoTime.SixHoursEarlier(dt).Ok?
    ensures var f := JStr(IsoTime.Format(IsoTime.SixHoursEarlier(dt).value));
      StepBack(run) == run.(fromDate := f, url := ApiUrl(f))
  {
  }

  /** One pass of the `for preprint in preprints` loop, on record `j`, with the limit check:
      the page stops after it (`stop`) or goes on with the records after it. */
  method HarvestRecord(db: Database, ghost run: Run, count: int, saved: int, last: Json,
                       items: seq<Json>, j: nat, limit: Option<int>, faults: set<nat>, now: string)
    returns (count': int, saved': int, last': Json, raised: Option<PyError>, stop: bool)
    modifies db`rawData
    requires j < |items|
    requires db.rawData == Some(run.raw) && run.count == count && run.saved == saved
    requires run.raised.None?
    ensures db.rawData.Some? && (raised.Some? ==> stop)
    ensures var next := run.(count := count', saved := saved', raw := db.rawData.value,
                             raised := raised);
      PageRecords(run, last, items[j..], limit, faults, now)
      == if stop then (next, last') else PageRecords(next, last', items[j + 1..], limit, faults, now)
  {
    count', saved', last', raised, stop := count + 1, saved, last, None, false;
    var date := CurrentDate(items[j]);
    if date.Err? {
      raised := Some(date.error);
    } else {
      var ok := SavePreprint(db, items[j], count' >= 0 && count' as nat in faults, now);
      if ok.Err? {
        raised := Some(ok.error);
      } else if ok.value {
        saved' := saved' + 1;
        last' := date.value;
      }
    }
    stop := raised.Some? || (limit.Some? && limit.value != 0 && count' >= limit.value);
    PageRecordsStep(run, last, items, j, limit, faults, now,
                    run.(count := count', saved := saved', raw := db.rawData.value, raised := raised),
                    last');
  }

  /** The `for preprint in preprints` loop over the records of one page. */
  method HarvestRecords(db: Database, url: string, fromDate: Json, count: int, saved: int,
                        items: seq<Json>, limit: Option<int>, faults: set<nat>, now: string)
    returns (count': int, saved': int, last: Json, raised: Option<PyError>)
    modifies db`rawData
    requires db.rawData.Some?
    ensures db.rawData.Some?
    ensures PageRecords(Run(url, fromDate, count, saved, old(db.rawData.value), None), JNull, items,
                        limit, faults, now)
         == (Run(url, fromDate, count', saved', db.rawData.value, raised), last)
  {
    count', saved', last, raised := count, saved, JNull, None;
    ghost var run := Run(url, fromDate, count, saved, db.rawData.value, None);
    ghost var page := PageRecords(run, JNull, items, limit, faults, now);
    var j := 0;
    while j < |items|
      invariant 0 <= j <= |items|
      invariant run == Run(url, fromDate, count', saved', TableOr(db.rawData), raised)
      invariant db.rawData.Some? && raised.None?
      invariant page == PageRecords(run, last, items[j..], limit, faults, now)
      decreases |items| - j
    {
      var stop;
      count', saved', last, raised, stop :=
        HarvestRecord(db, run, count', saved', last, items, j, limit, faults, now);
      run := run.(count := count', saved := saved', raw := db.rawData.value, raised := raised);
      if stop {
        return;
      }
      j := j + 1;
    }
    assert items[j..] == [];
  }

  /** One page of results: its records, then the new resume point and next URL. */
  method HarvestPage(db: Database, url: string, fromDate: Json, count: int, saved: int,
                     body: Json, limit: Option<int>, faults: set<nat>, now: string)
    returns (url': string, fromDate': Json, count': int, saved': int, raised: Option<PyError>)
    modifies db`rawData
    requires db.rawData.Some?
    ensures db.rawData.Some?
    ensures PageStep(Run(url, fromDate, count, saved, old(db.rawData.value), None), body, limit,
                     faults, now)
         == Run(url', fromDate', count', saved', db.rawData.value, raised)
  {
    url', fromDate', count', saved', raised := url, fromDate, count, saved, None;
    var data := Get(body, "data", JArr([]));
    if data.Err? {
      raised := Some(data.error);
      return;
    }
    var items := Iterate(data.value);
    if items.Err? {
      raised := Some(items.error);
      return;
    }
    var last;
    count', saved', last, raised :=
      HarvestRecords(db, url, fromDate, count, saved, items.value, limit, faults, now);
    if raised.Some? {
      return;
    }
    if Truthy(last) && last != JStr("unknown") {
      fromDate' := last;
    }
    var next := GetPath(body, ["links", "next"], JNull);
    if next.Err? {
      raised := Some(next.error);
      return;
    }
    if !Truthy(next.value) {
      url' := "";
    } else if Truthy(last) && last != JStr("unknown") {
      url' := BuildApiUrl(fromDate');
    } else {
      url' := PyStr(next.value);
    }
  }

  /** The 404 branch of the `except` clause, on the loop variables of `run`. */
  method StepBackResumePoint(ghost run: Run, url: string, fromDate: Json)
    returns (url': string, fromDate': Json, raised: Option<PyError>)
    requires run.url == url && run.fromDate == fromDate && run.raised.None?
    ensures StepBack(run) == run.(url := url', fromDate := fromDate', raised := raised)
  {
    url', fromDate', raised := url, fromDate, None;
    if !fromDate.JStr? {
      raised := Some(AttributeError);
      return;
    }
    var parsed := IsoTime.FromIso(fromDate.s);
    if parsed.Err? {
      raised := Some(parsed.error);
      return;
    }
    var earlier := IsoTime.SixHoursEarlier(parsed.value);
    if earlier.Err? {
      raised := Some(earlier.error);
      return;
    }
    fromDate' := JStr(IsoTime.Format(earlier.value));
    url' := BuildApiUrl(fromDate');
  }

  /** The body of the `while` loop: the request for response `k`. The run goes on from the
      state it leaves. */
  method HarvestResponse(db: Database, ghost run: Run, url: string, fromDate: Json, count: int,
                         saved: int, responses: seq<Response>, k: nat, limit: Option<int>,
                         faults: set<nat>, now: string)
    returns (url': string, fromDate': Json, count': int, saved': int, raised: Option<PyError>)
    modifies db`rawData
    requires k < |responses|
    requires db.rawData.Some? && run == Run(url, fromDate, count, saved, db.rawData.value, None)
    requires Continues(run, limit)
    ensures db.rawData.Some?
    ensures Step(run, responses[k], limit, faults, now)
         == Run(url', fromDate', count', saved', db.rawData.value, raised)
    ensures Harvest(run, responses[k..], limit, faults, now)
         == Harvest(Run(url', fromDate', count', saved', db.rawData.value, raised),
                    responses[k + 1..], limit, faults, now)
  {
    url', fromDate', count', saved', raised := url, fromDate, count, saved, None;
    match responses[k] {
      case RequestError(message) =>
        if Text.Contains(message, "404") && Truthy(fromDate) {
          url', fromDate', raised := StepBackResumePoint(run, url, fromDate);
        }
      case Page(body) =>
        url', fromDate', count', saved', raised :=
          HarvestPage(db, url, fromDate, count, saved, body, limit, faults, now);
    }
    HarvestStep(run, responses, k, limit, faults, now,
                Run(url', fromDate', count', saved', db.rawData.value, raised));
  }

  /** Before the loop: `init_db()`, then the resume point and the first URL. */
  method HarvestStart(db: Database) returns (url: string, fromDate: Json)
    modifies db`rawData, db`preprints, db`contributors, db`preprintContributors
    ensures db.rawData.Some?
    ensures Start(TableOr(old(db.rawData))) == Run(url, fromDate, 0, 0, db.rawData.value, None)
    ensures db.preprints == Created(old(db.preprints)) && db.contributors == Created(old(db.contributors))
    ensures db.preprintContributors == Created(old(db.preprintContributors))
  {
    db.InitDb();
    var resume := ResumePoint(Some(db.rawData.value));
    fromDate := if resume.Some? then JStr(resume.value) else JNull;
    url := BuildApiUrl(fromDate);
  }

  /** `harvest_preprints(limit)`: initialises the database, resumes from the newest stored
      `date_modified`, and requests pages until there is no URL, the limit is reached, an
      exception escapes, or the responses run out. Returns the outcome and `preprint_count`. */
  method HarvestPreprints(db: Database, limit: Option<int>, responses: seq<Response>,
                          faults: set<nat>, now: string) returns (outcome: Outcome, handled: int)
    modifies db`rawData, db`preprints, db`contributors, db`preprintContributors
    ensures var final := Harvest(Start(TableOr(old(db.rawData))), responses, limit, faults, now);
      db.rawData == Some(final.raw) && handled == final.count && outcome == OutcomeOf(final)
    ensures outcome.Returned? ==> 0 <= outcome.saved <= handled
    ensures limit.Some? ==> handled <= Max0(limit.value)
    ensures db.preprints == Created(old(db.preprints)) && db.contributors == Created(old(db.contributors))
    ensures db.preprintContributors == Created(old(db.preprintContributors))
  {
    var url, fromDate := HarvestStart(db);
    ghost var start := Start(TableOr(old(db.rawData)));
    HarvestBounded(start, start, responses, limit, faults, now);
    outcome, handled := HarvestLoop(db, url, fromDate, limit, responses, faults, now);
  }

  /** The `while` loop of `harvest_preprints`, from the first URL. */
  method HarvestLoop(db: Database, url0: string, fromDate0: Json, limit: Option<int>,
                     responses: seq<Response>, faults: set<nat>, now: string)
    returns (outcome: Outcome, handled: int)
    modifies db`rawData
    requires db.rawData.Some?
    ensures var final := Harvest(Run(url0, fromDate0, 0, 0, old(db.rawData.value), None),
                                 responses, limit, faults, now);
      db.rawData == Some(final.raw) && handled == final.count && outcome == OutcomeOf(final)
  {
    var url, fromDate := url0, fromDate0;
    var count := 0;
    var saved := 0;
    var raised: Option<PyError> := None;
    var k := 0;
    ghost var run := Run(url, fromDate, 0, 0, db.rawData.value, None);
    ghost var final := Harvest(run, responses, limit, faults, now);
    while raised.None? && url != "" && (limit.None? || count < limit.value) && k < |responses|
      invariant 0 <= k <= |responses|
      invariant db.rawData.Some?
      invariant run == Run(url, fromDate, count, saved, TableOr(db.rawData), raised)
      invariant final == Harvest(run, responses[k..], limit, faults, now)
      decreases |responses| - k
    {
      url, fromDate, count, saved, raised :=
        HarvestResponse(db, run, url, fromDate, count, saved, responses, k, limit, faults, now);
      run := Run(url, fromDate, count, saved, db.rawData.value, raised);
      k := k + 1;
    }
    outcome := if raised.Some? then Raised(raised.value) else Returned(saved);
    handled := count;
  }
}

=== FILE: ingestor.dfy ===
/** Ingestion (osf/ingestor.py): flattening a raw API document into a `preprints` row, the
    selection of raw rows that have no `preprints` row yet, and the ingestion loop with its
    success, error and processed counters and its commit every 100 processed records. */
module Ingestor {
  import opened Wrappers
  import opened JsonModel
  import Sql
  import Db

  /** The value a dict holds for `key`, or None when `d` is not a dict or lacks the key. */
  function Field(d: Json, key: string): Option<Json> {
    if d.JObj? then Lookup(d.members, key) else None
  }

  /** `d.get(key, {})` as the model reads it when `d` is a dict. */
  function Sub(d: Json, key: string): Json {
    Field(d, key).GetOr(EmptyObj)
  }

  /** `attributes.get(key, default)` for the document's `attributes`. */
  function AttrOf(data: Json, key: string, default: Json): Json {
    Field(Sub(data, "attributes"), key).GetOr(default)
  }

  /** The members of a dict; anything else raises AttributeError at its first `.get`. */
  function AsDict(v: Json): Result<seq<Member>, PyError> {
    if v.JObj? then Ok(v.members) else Err(AttributeError)
  }

  /** `dict.get(key, default)` on the members of a dict. */
  function At(members: seq<Member>, key: string, default: Json): Json {
    Lookup(members, key).GetOr(default)
  }

  /** One entry of the `contributors` JSON column. */
  datatype ContribEntry = ContribEntry(fullName: Json, dateRegistered: Json, index: Json,
                                       bibliographic: Json)

  function EntryJson(e: ContribEntry): Json {
    JObj([Member("full_name", e.fullName), Member("date_registered", e.dateRegistered),
          Member("index", e.index), Member("bibliographic", e.bibliographic)])
  }

  /** The entry for one embedded contributor: name and registration date from the embedded
      user's attributes, index and bibliographic flag from the contributor's attributes,
      with the defaults `''`, None, 0 and True. */
  function ContributorEntry(contrib: Json): (r: Result<ContribEntry, PyError>)
    ensures !contrib.JObj? ==> r == Err(AttributeError)
    ensures r.Ok? ==> r.value.index == Field(Sub(contrib, "attributes"), "index").GetOr(JNum(0))
    ensures r.Ok? ==>
      r.value.bibliographic == Field(Sub(contrib, "attributes"), "bibliographic").GetOr(JBool(true))
    ensures r.Ok? ==> (r.value.fullName ==
      Field(Sub(Sub(Sub(Sub(contrib, "embeds"), "users"), "data"), "attributes"), "full_name")
        .GetOr(JStr("")))
  {
    var attrs :- Get(contrib, "attributes", EmptyObj);
    var user :- GetPath(contrib, ["embeds", "users", "data", "attributes"], EmptyObj);
    var u :- AsDict(user);
    var a :- AsDict(attrs);
    Ok(ContribEntry(At(u, "full_name", JStr("")), At(u, "date_registered", JNull),
                    At(a, "index", JNum(0)), At(a, "bibliographic", JBool(true))))
  }

  /** The contributor entries, one per embedded contributor and in the same order; the
      first contributor that is not shaped as a dict makes the whole extraction raise. */
  function ContributorEntries(items: seq<Json>): (r: Result<seq<ContribEntry>, PyError>)
    ensures r.Ok? <==> forall i :: 0 <= i < |items| ==> ContributorEntry(items[i]).Ok?
    ensures r.Ok? ==> |r.value| == |items|
    ensures r.Ok? ==> forall i :: 0 <= i < |items| ==> ContributorEntry(items[i]) == Ok(r.value[i])
  {
    if items == [] then Ok([])
    else
      var e :- ContributorEntry(items[0]);
      var rest :- ContributorEntries(items[1..]);
      assert forall i :: 1 <= i < |items| ==> items[i] == items[1..][i - 1];
      Ok([e] + rest)
  }

  /** The embedded contributors the extraction iterates over. */
  function ContributorItems(data: Json): Result<seq<Json>, PyError> {
    var embeds :- Get(data, "embeds", EmptyObj);
    var list :- GetPath(embeds, ["contributors", "data"], JArr([]));
    Iterate(list)
  }

  /** `publication_doi`: a DOI link exactly when the document's `doi` is truthy. */
  function DoiLink(doi: Json): Cell {
    if Truthy(doi) then Text("https://doi.org/" + PyStr(doi)) else Null
  }

  function Flag(v: Json): Cell {
    Int(if Truthy(v) then 1 else 0)
  }

  /** Column `c` of the row `extract_preprint_data` returns, from the dicts it reads (the
      columns the lemmas below inspect come first). */
  function ColumnValue(c: string, id: string, a: seq<Member>, l: seq<Member>, download: Cell,
                       license: Json, contributors: seq<ContribEntry>): Cell
  {
    if c == "id" then Text(id)
    else if c == "publication_doi" then DoiLink(At(a, "doi", JNull))
    else if c == "is_published" then Flag(At(a, "is_published", JNull))
    else if c == "is_latest_version" then Flag(At(a, "is_latest_version", JBool(true)))
    else if c == "has_coi" then Flag(At(a, "has_coi", JNull))
    else if c == "contributors" then
      JsonText(JArr(seq(|contributors|, i requires 0 <= i < |contributors| => EntryJson(contributors[i]))))
    else if c == "title" then ToCell(At(a, "title", JNull))
    else if c == "description" then ToCell(At(a, "description", JNull))
    else if c == "date_created" then ToCell(At(a, "date_created", JNull))
    else if c == "date_modified" then ToCell(At(a, "date_modified", JNull))
    else if c == "date_published" then ToCell(At(a, "date_published", JNull))
    else if c == "original_publication_date" then ToCell(At(a, "original_publication_date", JNull))
    else if c == "preprint_doi" then ToCell(At(l, "preprint_doi", JNull))
    else if c == "download_url" then download
    else if c == "license" then ToCell(license)
    else if c == "reviews_state" then ToCell(At(a, "reviews_state", JNull))
    else if c == "version" then ToCell(At(a, "version", JNull))
    else if c == "conflict_of_interest_statement" then
      ToCell(At(a, "conflict_of_interest_statement", JNull))
    else if c == "has_data_links" then ToCell(At(a, "has_data_links", JNull))
    else if c == "why_no_data" then ToCell(At(a, "why_no_data", JNull))
    else if c == "data_links" then JsonText(At(a, "data_links", JArr([])))
    else if c == "has_prereg_links" then ToCell(At(a, "has_prereg_links", JNull))
    else if c == "why_no_prereg" then ToCell(At(a, "why_no_prereg", JNull))
    else if c == "prereg_links" then JsonText(At(a, "prereg_links", JArr([])))
    else if c == "prereg_link_info" then ToCell(At(a, "prereg_link_info", JNull))
    else if c == "subjects" then JsonText(At(a, "subjects", JArr([])))
    else JsonText(At(a, "tags", JArr([])))
  }

  /** The row `extract_preprint_data` returns: a value for each `preprints` column. */
  function PreprintRow(id: string, a: seq<Member>, l: seq<Member>, download: Cell, license: Json,
                       contributors: seq<ContribEntry>): (row: Db.Row)
  {
    map c | c in Db.PreprintColumns :: ColumnValue(c, id, a, l, download, license, contributors)
  }

  /** `download_url`: a download link when `relationships.primary_file.data` is truthy. */
  function DownloadCell(relationships: Json): (r: Result<Cell, PyError>)
    ensures r.Ok? ==> (r.value.Null? || r.value.Text?)
  {
    var primary :- GetPath(relationships, ["primary_file", "data"], JNull);
    if !Truthy(primary) then Ok(Null)
    else
      var fileId :- Get(primary, "id", JNull);
      Ok(Text("https://osf.io/download/" + PyStr(fileId)))
  }

  /** `license`: the name under `embeds.license.data.attributes`, None when absent. */
  function LicenseName(embeds: Json): Result<Json, PyError> {
    GetPath(embeds, ["license", "data", "attributes", "name"], JNull)
  }

  /** What `extract_preprint_data` reads from a document before building the row. */
  datatype Parts = Parts(attributes: seq<Member>, links: seq<Member>, download: Cell,
                         license: Json, contributors: seq<ContribEntry>)

  /** The reads `extract_preprint_data` performs. Any of `attributes`, `relationships`,
      `links`, `embeds` (and the dicts read below them) that is present but not a dict
      raises, as does a contributor list that cannot be iterated. */
  function ReadParts(data: Json): (r: Result<Parts, PyError>)
    ensures !data.JObj? ==> r == Err(AttributeError)
    ensures r.Ok? ==> Sub(data, "attributes") == JObj(r.value.attributes)
    ensures r.Ok? ==> ContributorItems(data).Ok? && ContributorEntries(ContributorItems(data).value).Ok?
    ensures r.Ok? ==> r.value.contributors == ContributorEntries(ContributorItems(data).value).value
  {
    var d :- AsDict(data);
    var attributes := At(d, "attributes", EmptyObj);
    var relationships := At(d, "relationships", EmptyObj);
    var links := At(d, "links", EmptyObj);
    var embeds := At(d, "embeds", EmptyObj);
    var items :- ContributorItems(data);
    var contributors :- ContributorEntries(items);
    var a :- AsDict(attributes);
    var l :- AsDict(links);
    var rel :- AsDict(relationships);
    var download :- DownloadCell(relationships);
    var license :- LicenseName(embeds);
    Ok(Parts(a, l, download, license, contributors))
  }

  /** `extract_preprint_data(preprint_id, preprint_data)`: the `preprints` row for a raw
      document, with a value for every column `init_db` declares. */
  function ExtractPreprintData(id: string, data: Json): (r: Result<Db.Row, PyError>)
    ensures !data.JObj? ==> r == Err(AttributeError)
    ensures r.Ok? ==> r.value.Keys == Db.PreprintColumns
  {
    var p :- ReadParts(data);
    Ok(PreprintRow(id, p.attributes, p.links, p.download, p.license, p.contributors))
  }

  /** The extracted row keeps the given id. */
  lemma ExtractedId(id: string, data: Json)
    requires ExtractPreprintData(id, data).Ok?
    ensures ExtractPreprintData(id, data).value["id"] == Text(id)
  {
    var p := ReadParts(data).value;
    assert ExtractPreprintData(id, data).value
      == PreprintRow(id, p.attributes, p.links, p.download, p.license, p.contributors);
  }

  /** `publication_doi` is a DOI link exactly when the document's `doi` is truthy. */
  lemma ExtractedDoi(id: string, data: Json)
    requires ExtractPreprintData(id, data).Ok?
    ensures var doi := AttrOf(data, "doi", JNull);
      var cell := ExtractPreprintData(id, data).value["publication_doi"];
      (cell.Text? <==> Truthy(doi)) && (cell.Text? ==> cell.s == "https://doi.org/" + PyStr(doi))
      && (!cell.Text? ==> cell == Null)
  {
    var p := ReadParts(data).value;
    assert ExtractPreprintData(id, data).value
      == PreprintRow(id, p.attributes, p.links, p.download, p.license, p.contributors);
    assert AttrOf(data, "doi", JNull) == At(p.attributes, "doi", JNull);
  }

  /** The three flags are 0 or 1, and `is_latest_version` is 1 when the attribute is absent. */
  lemma ExtractedFlags(id: string, data: Json)
    requires ExtractPreprintData(id, data).Ok?
    ensures var row := ExtractPreprintData(id, data).value;
      row["is_published"] in {Int(0), Int(1)} && row["has_coi"] in {Int(0), Int(1)}
      && row["is_latest_version"] in {Int(0), Int(1)}
    ensures Field(Sub(data, "attributes"), "is_latest_version").None? ==>
      ExtractPreprintData(id, data).value["is_latest_version"] == Int(1)
  {
    var p := ReadParts(data).value;
    assert ExtractPreprintData(id, data).value
      == PreprintRow(id, p.attributes, p.links, p.download, p.license, p.contributors);
    assert Field(Sub(data, "attributes"), "is_latest_version") == Lookup(p.attributes, "is_latest_version");
  }

  /** The `contributors` column lists one entry per embedded contributor, in order. */
  lemma ExtractedContributors(id: string, data: Json)
    requires ExtractPreprintData(id, data).Ok?
    ensures ContributorItems(data).Ok? && ContributorEntries(ContributorItems(data).value).Ok?
    ensures var items := ContributorItems(data).value;
      var cell := ExtractPreprintData(id, data).value["contributors"];
      cell.JsonText? && cell.doc.JArr? && |cell.doc.items| == |items|
      && forall i :: 0 <= i < |items| ==> cell.doc.items[i] == EntryJson(ContributorEntry(items[i]).value)
  {
    var p := ReadParts(data).value;
    assert ExtractPreprintData(id, data).value
      == PreprintRow(id, p.attributes, p.links, p.download, p.license, p.contributors);
  }

  /** `process_preprint(db, preprint_id, preprint_data)`: upserts the extracted row into
      `preprints` (creating the table when needed). A document that does not extract, or a
      write the database refuses (`refused`), gives False and changes nothing. */
  method ProcessPreprint(db: Db.Database, id: string, data: Json, refused: bool) returns (ok: bool)
    modifies db`preprints
    ensures ok <==> ExtractPreprintData(id, data).Ok? && !refused
    ensures ok ==> (db.preprints ==
      Some(Db.UpsertRow(Db.TableOr(old(db.preprints)), id, ExtractPreprintData(id, data).value)))
    ensures ok ==> id in db.preprints.value
    ensures !ok ==> db.preprints == old(db.preprints)
    ensures db.rawData == old(db.rawData)
  {
    var preprint := ExtractPreprintData(id, data);
    if preprint.Err? || refused {
      return false;
    }
    db.preprints := Some(Db.UpsertRow(Db.TableOr(db.preprints), id, preprint.value));
    ok := true;
  }

  /** The `ORDER BY r.date_modified` key of each raw row. */
  function ModifiedKey(raw: map<string, Db.RawRow>): (key: map<string, Sql.SqlValue>)
    ensures key.Keys == raw.Keys
    ensures forall id :: id in raw ==> key[id] == Sql.TextValue(raw[id].dateModified)
  {
    map id | id in raw :: Sql.TextValue(raw[id].dateModified)
  }

  /** The raw ids the `LEFT JOIN ... WHERE p.id IS NULL` keeps. */
  function UnprocessedIds(raw: map<string, Db.RawRow>, preprints: map<string, Db.Row>): set<string> {
    set id | id in raw && id !in preprints
  }

  /** The `{id, payload}` records `get_unprocessed_preprints` lists when both tables exist:
      raw rows with no `preprints` row, at most `int(limit)` of them when `limit` is truthy
      and positive (SQLite treats a negative LIMIT as none). */
  function PendingListing(raw: map<string, Db.RawRow>, preprints: map<string, Db.Row>,
                          limit: Option<int>): (r: seq<(string, Cell)>)
    ensures forall i :: 0 <= i < |r| ==>
      r[i].0 in UnprocessedIds(raw, preprints) && r[i].1 == raw[r[i].0].payload
    ensures |r| == if limit.Some? && 0 < limit.value < |UnprocessedIds(raw, preprints)| then limit.value
                   else |UnprocessedIds(raw, preprints)|
  {
    var ids := Sql.OrderedLimit(ModifiedKey(raw), UnprocessedIds(raw, preprints), limit);
    seq(|ids|, i requires 0 <= i < |ids| => (ids[i], raw[ids[i]].payload))
  }

  /** Record `id` is in the listing. */
  predicate Listed(r: seq<(string, Cell)>, id: string) {
    exists i :: 0 <= i < |r| && r[i].0 == id
  }

  /** The records come once each, ascending by `date_modified` (NULL first; equal dates in
      id order). */
  lemma PendingListingSorted(raw: map<string, Db.RawRow>, preprints: map<string, Db.Row>,
                             limit: Option<int>)
    ensures var r := PendingListing(raw, preprints, limit);
      forall i, j :: 0 <= i < j < |r| ==> (r[i].0 != r[j].0
        && !Sql.SqlLess(Sql.TextValue(raw[r[j].0].dateModified), Sql.TextValue(raw[r[i].0].dateModified)))
  {
    var ids := Sql.OrderedLimit(ModifiedKey(raw), UnprocessedIds(raw, preprints), limit);
    var r := PendingListing(raw, preprints, limit);
    forall i, j | 0 <= i < j < |r|
      ensures r[i].0 != r[j].0
      ensures !Sql.SqlLess(Sql.TextValue(raw[r[j].0].dateModified), Sql.TextValue(raw[r[i].0].dateModified))
    {
      assert r[i].0 == ids[i] && r[j].0 == ids[j];
    }
  }

  /** No unprocessed row left out by the limit is dated before a listed one. */
  lemma PendingListingFirst(raw: map<string, Db.RawRow>, preprints: map<string, Db.Row>,
                            limit: Option<int>)
    ensures var r := PendingListing(raw, preprints, limit);
      forall id, i :: id in UnprocessedIds(raw, preprints) && 0 <= i < |r| && !Listed(r, id) ==>
        !Sql.SqlLess(Sql.TextValue(raw[id].dateModified), Sql.TextValue(raw[r[i].0].dateModified))
  {
    var ids := Sql.OrderedLimit(ModifiedKey(raw), UnprocessedIds(raw, preprints), limit);
    var r := PendingListing(raw, preprints, limit);
    ListsQueryIds(raw, preprints, limit);
    forall id, i | id in UnprocessedIds(raw, preprints) && 0 <= i < |r| && !Listed(r, id)
      ensures !Sql.SqlLess(Sql.TextValue(raw[id].dateModified), Sql.TextValue(raw[r[i].0].dateModified))
    {
      assert r[i].0 == ids[i];
    }
  }

  /** Every id the ordered query returns is listed. */
  lemma ListsQueryIds(raw: map<string, Db.RawRow>, preprints: map<string, Db.Row>, limit: Option<int>)
    ensures forall id :: id in Sql.OrderedLimit(ModifiedKey(raw), UnprocessedIds(raw, preprints), limit) ==>
      Listed(PendingListing(raw, preprints, limit), id)
  {
    var ids := Sql.OrderedLimit(ModifiedKey(raw), UnprocessedIds(raw, preprints), limit);
    var r := PendingListing(raw, preprints, limit);
    forall id | id in ids ensures Listed(r, id) {
      var k :| 0 <= k < |ids| && ids[k] == id;
      assert r[k].0 == id;
    }
  }

  /** Without an effective limit every unprocessed row is listed. */
  lemma PendingListingComplete(raw: map<string, Db.RawRow>, preprints: map<string, Db.Row>,
                               limit: Option<int>)
    ensures var r := PendingListing(raw, preprints, limit);
      !(limit.Some? && 0 < limit.value < |UnprocessedIds(raw, preprints)|) ==>
        forall id :: id in UnprocessedIds(raw, preprints) ==> Listed(r, id)
  {
    ListsQueryIds(raw, preprints, limit);
  }

  /** `get_unprocessed_preprints(db, limit)`: no records without `raw_data`; the query
      raises when `preprints` is missing. */
  function UnprocessedListing(raw: Option<map<string, Db.RawRow>>,
                              preprints: Option<map<string, Db.Row>>, limit: Option<int>)
    : (r: Result<seq<(string, Cell)>, PyError>)
    ensures raw.None? ==> r == Ok([])
    ensures raw.Some? && preprints.None? ==> r.Err?
    ensures raw.Some? && preprints.Some? ==> r == Ok(PendingListing(raw.value, preprints.value, limit))
  {
    if raw.None? then Ok([])
    else if preprints.None? then Err(StoreError)
    else Ok(PendingListing(raw.value, preprints.value, limit))
  }

  /** Without a limit the listing holds exactly the rows `get_unprocessed_preprints` of the
      database module returns. */
  lemma ListingMatchesDatabase(raw: map<string, Db.RawRow>, preprints: map<string, Db.Row>)
    ensures var r := PendingListing(raw, preprints, None);
      forall id :: Listed(r, id) <==> id in Db.UnprocessedRows(true, Some(raw), Some(preprints))
  {
    PendingListingComplete(raw, preprints, None);
  }

  /** What happens to one listed record in `process_all_new_preprints`. */
  datatype Verdict = NoPayload | Failed | Added(row: Db.Row)

  /** Record `i` of `listing`; `faults` holds the positions whose upsert the database refuses. */
  function VerdictAt(listing: seq<(string, Cell)>, i: nat, faults: set<nat>): Verdict
    requires i < |listing|
  {
    var (id, payload) := listing[i];
    if !CellTruthy(payload) then NoPayload
    else match Loads(payload)
      case Err(_) => Failed
      case Ok(doc) =>
        match ExtractPreprintData(id, doc)
        case Err(_) => Failed
        case Ok(row) => if i in faults then Failed else Added(row)
  }

  /** The verdict of every listed record. */
  function Verdicts(listing: seq<(string, Cell)>, faults: set<nat>): (vs: seq<Verdict>)
    ensures |vs| == |listing|
    ensures forall i :: 0 <= i < |listing| ==> vs[i] == VerdictAt(listing, i, faults)
  {
    seq(|listing|, i requires 0 <= i < |listing| => VerdictAt(listing, i, faults))
  }

  /** The `preprints` table after the records of `listing`, with verdicts `vs`, were
      processed in order. */
  function IngestTable(t: map<string, Db.Row>, listing: seq<(string, Cell)>, vs: seq<Verdict>)
    : map<string, Db.Row>
    requires |vs| == |listing|
  {
    if listing == [] then t
    else
      var n := |listing| - 1;
      var prev := IngestTable(t, listing[..n], vs[..n]);
      if vs[n].Added? then Db.UpsertRow(prev, listing[n].0, vs[n].row) else prev
  }

  /** The number of records added (`success`). */
  function Successes(vs: seq<Verdict>): nat {
    if vs == [] then 0
    else Successes(vs[..|vs| - 1]) + (if vs[|vs| - 1].Added? then 1 else 0)
  }

  /** The number of records with a payload (`processed`). */
  function Processed(vs: seq<Verdict>): nat {
    if vs == [] then 0
    else Processed(vs[..|vs| - 1]) + (if vs[|vs| - 1].NoPayload? then 0 else 1)
  }

  /** Processing one more record: the spec functions of a prefix one longer. */
  lemma IngestStep(t: map<string, Db.Row>, listing: seq<(string, Cell)>, vs: seq<Verdict>, i: nat)
    requires |vs| == |listing| && i < |listing|
    ensures IngestTable(t, listing[..i + 1], vs[..i + 1]) == if vs[i].Added?
      then Db.UpsertRow(IngestTable(t, listing[..i], vs[..i]), listing[i].0, vs[i].row)
      else IngestTable(t, listing[..i], vs[..i])
    ensures Successes(vs[..i + 1]) == Successes(vs[..i]) + if vs[i].Added? then 1 else 0
    ensures Processed(vs[..i + 1]) == Processed(vs[..i]) + if vs[i].NoPayload? then 0 else 1
  {
    assert listing[..i + 1][..i] == listing[..i] && vs[..i + 1][..i] == vs[..i];
  }

  /** A record counted as a success had a payload: `success <= processed <= len(unprocessed)`. */
  lemma {:induction false} TalliesBounded(vs: seq<Verdict>)
    ensures Successes(vs) <= Processed(vs) <= |vs|
  {
    if vs != [] {
      TalliesBounded(vs[..|vs| - 1]);
    }
  }

  /** The records added are exactly the new keys of `preprints`, each holding its extracted
      columns; rows of ids the listing does not name are untouched. */
  lemma {:induction false} IngestTableKeys(t: map<string, Db.Row>, listing: seq<(string, Cell)>,
                                           vs: seq<Verdict>)
    requires |vs| == |listing|
    ensures forall id :: id in IngestTable(t, listing, vs) <==>
      (id in t || exists i :: 0 <= i < |listing| && listing[i].0 == id && vs[i].Added?)
    ensures forall id :: id in t && (forall i :: 0 <= i < |listing| ==> listing[i].0 != id) ==>
      IngestTable(t, listing, vs)[id] == t[id]
  {
    if listing != [] {
      var n := |listing| - 1;
      IngestTableKeys(t, listing[..n], vs[..n]);
      assert forall i :: 0 <= i < n ==> listing[..n][i] == listing[i] && vs[..n][i] == vs[i];
    }
  }

  /** One pass of the loop body of `process_all_new_preprints`: a record without a payload
      is an error and not processed; otherwise the payload is parsed and the document
      processed, any failure counting as an error. `vs` are the records' verdicts; the
      table moves from the state after `i` records to the state after `i + 1`. */
  method ProcessRecord(db: Db.Database, listing: seq<(string, Cell)>, i: nat, faults: set<nat>,
                       ghost t0: map<string, Db.Row>, ghost vs: seq<Verdict>)
    returns (added: bool, hasPayload: bool)
    requires i < |listing| && vs == Verdicts(listing, faults)
    requires db.preprints == Some(IngestTable(t0, listing[..i], vs[..i]))
    modifies db`preprints
    ensures db.preprints == Some(IngestTable(t0, listing[..i + 1], vs[..i + 1]))
    ensures Successes(vs[..i + 1]) == Successes(vs[..i]) + if added then 1 else 0
    ensures Processed(vs[..i + 1]) == Processed(vs[..i]) + if hasPayload then 1 else 0
    ensures db.rawData == old(db.rawData)
  {
    IngestStep(t0, listing, vs, i);
    var (id, payload) := listing[i];
    added := false;
    hasPayload := CellTruthy(payload);
    if !hasPayload {
      return;
    }
    var doc := Loads(payload);
    if doc.Ok? {
      added := ProcessPreprint(db, id, doc.value, i in faults);
    }
  }

  /** The commit points after `processed` moved to `p`. */
  lemma CommitStep(p: int, commits: seq<int>)
    requires p > 0 && |commits| == (p - 1) / 100
    ensures |commits + if p % 100 == 0 then [p] else []| == p / 100
    ensures p % 100 == 0 ==> p == 100 * (|commits| + 1)
  {
  }

  /** The loop of `process_all_new_preprints` over the listed records, in one transaction;
      `commits` are the values of `processed` at which it commits. */
  method IngestListing(db: Db.Database, listing: seq<(string, Cell)>, faults: set<nat>)
    returns (processed: int, success: int, errors: int, commits: seq<int>)
    requires db.preprints.Some?
    modifies db`preprints
    ensures var vs := Verdicts(listing, faults);
      success == Successes(vs) && errors == |listing| - success && processed == Processed(vs)
      && db.preprints == Some(IngestTable(old(db.preprints.value), listing, vs))
    ensures |commits| == processed / 100
    ensures forall k :: 0 <= k < |commits| ==> commits[k] == 100 * (k + 1)
    ensures db.rawData == old(db.rawData)
  {
    ghost var vs := Verdicts(listing, faults);
    ghost var t0 := db.preprints.value;
    processed, success, errors, commits := 0, 0, 0, [];
    var i := 0;
    while i < |listing|
      invariant 0 <= i <= |listing|
      invariant db.rawData == old(db.rawData)
      invariant db.preprints == Some(IngestTable(t0, listing[..i], vs[..i]))
      invariant success == Successes(vs[..i]) && errors == i - success
      invariant processed == Processed(vs[..i])
      invariant |commits| == processed / 100
      invariant forall k :: 0 <= k < |commits| ==> commits[k] == 100 * (k + 1)
    {
      var added, hasPayload := ProcessRecord(db, listing, i, faults, t0, vs);
      if added {
        success := success + 1;
      } else {
        errors := errors + 1;
      }
      if hasPayload {
        processed := processed + 1;
        CommitStep(processed, commits);
        if processed % 100 == 0 {
          commits := commits + [processed];
        }
      }
      i := i + 1;
    }
    assert listing[..i] == listing && vs[..i] == vs;
  }

  /** `process_all_new_preprints(limit)`: runs `init_db`, lists the unprocessed records and
      processes them in order, returning `(processed, success, errors)` and the commit
      points. `faults` holds the positions of the records whose upsert the database refuses. */
  method ProcessAllNewPreprints(db: Db.Database, limit: Option<int>, faults: set<nat>)
    returns (processed: int, success: int, errors: int, commits: seq<int>)
    modifies db`rawData, db`preprints, db`contributors, db`preprintContributors
    ensures var listing := PendingListing(Db.TableOr(old(db.rawData)), Db.TableOr(old(db.preprints)), limit);
      var vs := Verdicts(listing, faults);
      success == Successes(vs) && errors == |listing| - success && processed == Processed(vs)
      && db.preprints == Some(IngestTable(Db.TableOr(old(db.preprints)), listing, vs))
    ensures PendingListing(Db.TableOr(old(db.rawData)), Db.TableOr(old(db.preprints)), limit) == [] ==>
      processed == 0 && success == 0 && errors == 0
    ensures |commits| == processed / 100
    ensures forall k :: 0 <= k < |commits| ==> commits[k] == 100 * (k + 1)
    ensures db.rawData == Some(Db.TableOr(old(db.rawData)))
    ensures db.contributors == Db.Created(old(db.contributors))
    ensures db.preprintContributors == Db.Created(old(db.preprintContributors))
  {
    ghost var raw0, pre0 := Db.TableOr(db.rawData), Db.TableOr(db.preprints);
    db.InitDb();
    assert db.rawData == Some(raw0) && db.preprints == Some(pre0);
    var unprocessed := UnprocessedListing(db.rawData, db.preprints, limit);
    var listing := unprocessed.value;
    assert listing == PendingListing(raw0, pre0, limit);
    if listing == [] {
      return 0, 0, 0, [];
    }
    processed, success, errors, commits := IngestListing(db, listing, faults);
  }
}

=== FILE: iso_time.dfy ===
/** Timestamps as the pipeline reads and writes them: `datetime.fromisoformat` on ISO 8601
    extended-format text (after the `.replace('Z', '+00:00')` every caller applies), the
    6-hour step back, `strftime('%Y-%m-%dT%H:%M:%S')`, and comparison and subtraction. */
module IsoTime {
  import opened Wrappers
  import opened JsonModel
  import Text

  /** A proleptic Gregorian date and time on a wall clock. An aware value carries its offset
      from UTC in minutes (east positive); a naive value has none. */
  datatype DateTime = DateTime(year: int, month: int, day: int, hour: int, minute: int,
                               second: int, micro: int, offset: Option<int>)

  predicate IsLeap(y: int) {
    y % 4 == 0 && (y % 100 != 0 || y % 400 == 0)
  }

  function DaysInMonth(y: int, m: int): int
    requires 1 <= m <= 12
  {
    if m == 2 then (if IsLeap(y) then 29 else 28)
    else if m == 4 || m == 6 || m == 9 || m == 11 then 30
    else 31
  }

  function DaysInYear(y: int): int {
    if IsLeap(y) then 366 else 365
  }

  function DaysBeforeYear(y: int): int
    requires y >= 1
  {
    if y == 1 then 0 else DaysBeforeYear(y - 1) + DaysInYear(y - 1)
  }

  /** Days of year `y` before the first of month `m`. */
  function DaysBeforeMonth(y: int, m: int): int
    requires 1 <= m <= 12
  {
    (if m > 2 && IsLeap(y) then 1 else 0)
    + (if m == 1 then 0 else if m == 2 then 31 else if m == 3 then 59 else if m == 4 then 90
       else if m == 5 then 120 else if m == 6 then 151 else if m == 7 then 181
       else if m == 8 then 212 else if m == 9 then 243 else if m == 10 then 273
       else if m == 11 then 304 else 334)
  }

  /** Each month starts where the previous one ends. */
  lemma MonthFollows(y: int, m: int)
    requires 1 < m <= 12
    ensures DaysBeforeMonth(y, m) == DaysBeforeMonth(y, m - 1) + DaysInMonth(y, m - 1)
  {
  }

  /** Days since 0001-01-01 (which is day 0). */
  function DayIndex(y: int, m: int, d: int): int
    requires y >= 1 && 1 <= m <= 12
  {
    DaysBeforeYear(y) + DaysBeforeMonth(y, m) + d - 1
  }

  predicate ValidDate(y: int, m: int, d: int) {
    1 <= y <= 9999 && 1 <= m <= 12 && 1 <= d <= DaysInMonth(y, m)
  }

  predicate Valid(dt: DateTime) {
    ValidDate(dt.year, dt.month, dt.day)
    && 0 <= dt.hour < 24 && 0 <= dt.minute < 60 && 0 <= dt.second < 60
    && 0 <= dt.micro < 1000000
    && (dt.offset.Some? ==> -MinutesPerDay < dt.offset.value < MinutesPerDay)
  }

  const MinutesPerDay := 1440

  const MicrosPerSecond := 1000000
  const MicrosPerHour := 3600 * MicrosPerSecond

  /** Microseconds since 0001-01-01T00:00:00 on the value's own wall clock. Only the value
      of a valid date and time is meant; the guard keeps the function total. */
  function Micros(dt: DateTime): int {
    if dt.year >= 1 && 1 <= dt.month <= 12 then
      ((((DayIndex(dt.year, dt.month, dt.day) * 24 + dt.hour) * 60 + dt.minute) * 60
        + dt.second) * MicrosPerSecond) + dt.micro
    else 0
  }

  /** The point in time the value names, in microseconds: an aware value's wall clock less its
      offset (so on the UTC clock), a naive value's wall clock as it is. */
  function Instant(dt: DateTime): int {
    Micros(dt) - (if dt.offset.Some? then dt.offset.value * 60 * MicrosPerSecond else 0)
  }

  lemma DecemberEndsYear(y: int)
    ensures DaysBeforeMonth(y, 12) + 31 == DaysInYear(y)
  {
  }

  /** The calendar day before a valid date other than 0001-01-01. */
  function PreviousDay(y: int, m: int, d: int): (r: (int, int, int))
    requires ValidDate(y, m, d) && !(y == 1 && m == 1 && d == 1)
    ensures ValidDate(r.0, r.1, r.2)
    ensures DayIndex(r.0, r.1, r.2) == DayIndex(y, m, d) - 1
  {
    if d > 1 then (y, m, d - 1)
    else if m > 1 then
      MonthFollows(y, m);
      (y, m - 1, DaysInMonth(y, m - 1))
    else
      DecemberEndsYear(y - 1);
      (y - 1, 12, 31)
  }

  /** `dt - timedelta(hours=6)`; below year 1 Python raises OverflowError. */
  function SixHoursEarlier(dt: DateTime): (r: Result<DateTime, PyError>)
    requires Valid(dt)
  {
    if dt.hour >= 6 then Ok(dt.(hour := dt.hour - 6))
    else if dt.year == 1 && dt.month == 1 && dt.day == 1 then Err(OverflowError)
    else
      var p := PreviousDay(dt.year, dt.month, dt.day);
      Ok(dt.(year := p.0, month := p.1, day := p.2, hour := dt.hour + 18))
  }

  /** The step back moves the clock exactly 6 hours and fails only within the first 6 hours
      of the calendar. */
  lemma SixHoursEarlierIsExact(dt: DateTime)
    requires Valid(dt)
    ensures SixHoursEarlier(dt).Ok? <==> Micros(dt) >= 6 * MicrosPerHour
    ensures SixHoursEarlier(dt).Ok? ==>
      var r := SixHoursEarlier(dt).value;
      Valid(r) && r.offset == dt.offset && Micros(r) == Micros(dt) - 6 * MicrosPerHour
      && Instant(r) == Instant(dt) - 6 * MicrosPerHour
  {
    if dt.hour < 6 && !(dt.year == 1 && dt.month == 1 && dt.day == 1) {
      var p := PreviousDay(dt.year, dt.month, dt.day);
      var r := SixHoursEarlier(dt).value;
      assert DayIndex(r.year, r.month, r.day) == DayIndex(dt.year, dt.month, dt.day) - 1;
    }
    if dt.year == 1 && dt.month == 1 && dt.day == 1 {
      assert DayIndex(1, 1, 1) == 0;
    } else {
      DayIndexPositive(dt.year, dt.month, dt.day);
    }
  }

  lemma DayIndexPositive(y: int, m: int, d: int)
    requires ValidDate(y, m, d) && !(y == 1 && m == 1 && d == 1)
    ensures DayIndex(y, m, d) >= 1
  {
    var p := PreviousDay(y, m, d);
    DayIndexNonNegative(p.0, p.1, p.2);
  }

  lemma {:induction false} DayIndexNonNegative(y: int, m: int, d: int)
    requires ValidDate(y, m, d)
    ensures DayIndex(y, m, d) >= 0
  {
    DaysBeforeNonNegative(y, m);
  }

  lemma {:induction false} DaysBeforeNonNegative(y: int, m: int)
    requires y >= 1 && 1 <= m <= 12
    ensures DaysBeforeYear(y) >= 0 && DaysBeforeMonth(y, m) >= 0
  {
    if y > 1 {
      DaysBeforeNonNegative(y - 1, m);
    }
  }

  // ---- Text forms ----

  predicate IsDigit(c: char) {
    '0' <= c <= '9'
  }

  predicate AllDigits(s: string) {
    forall i :: 0 <= i < |s| ==> IsDigit(s[i])
  }

  function DigitsValue(s: string): nat
    requires AllDigits(s)
  {
    if s == [] then 0 else DigitsValue(s[..|s| - 1]) * 10 + (s[|s| - 1] as int - '0' as int)
  }

  function Pow10(n: nat): nat {
    if n == 0 then 1 else 10 * Pow10(n - 1)
  }

  lemma {:induction false} DigitsValueBound(s: string)
    requires AllDigits(s)
    ensures DigitsValue(s) < Pow10(|s|)
  {
    if s != [] {
      DigitsValueBound(s[..|s| - 1]);
    }
  }

  /** `n` written with exactly `width` decimal digits, zero-padded on the left. */
  function Pad(n: nat, width: nat): (r: string)
    ensures |r| == width && AllDigits(r)
  {
    if width == 0 then "" else Pad(n / 10, width - 1) + [Text.DigitChar(n % 10)]
  }

  lemma {:induction false} PadValue(n: nat, width: nat)
    requires n < Pow10(width)
    ensures DigitsValue(Pad(n, width)) == n
  {
    if width > 0 {
      var r := Pad(n, width);
      assert r[..|r| - 1] == Pad(n / 10, width - 1);
      PadValue(n / 10, width - 1);
    }
  }

  /** `dt.strftime('%Y-%m-%dT%H:%M:%S')`: the fraction and the offset are dropped. */
  function Format(dt: DateTime): (r: string)
    requires Valid(dt)
    ensures |r| == 19
  {
    Pad(dt.year, 4) + "-" + Pad(dt.month, 2) + "-" + Pad(dt.day, 2) + "T"
    + Pad(dt.hour, 2) + ":" + Pad(dt.minute, 2) + ":" + Pad(dt.second, 2)
  }

  /** `s` holds digits at `[i, i + n)`. */
  predicate DigitsAt(s: string, i: nat, n: nat) {
    i + n <= |s| && AllDigits(s[i..i + n])
  }

  function NumberAt(s: string, i: nat, n: nat): nat
    requires DigitsAt(s, i, n)
  {
    DigitsValue(s[i..i + n])
  }

  /** `YYYY-MM-DD` at the start of `s`. */
  function ParseDate(s: string): (r: Result<(int, int, int), PyError>)
    ensures r.Ok? ==> |s| >= 10 && ValidDate(r.value.0, r.value.1, r.value.2)
  {
    if |s| < 10 || !DigitsAt(s, 0, 4) || s[4] != '-' || !DigitsAt(s, 5, 2) || s[7] != '-'
       || !DigitsAt(s, 8, 2) then Err(ValueError)
    else
      var y := NumberAt(s, 0, 4);
      DigitsValueBound(s[0..4]);
      var m := NumberAt(s, 5, 2);
      var d := NumberAt(s, 8, 2);
      if 1 <= y && 1 <= m <= 12 && 1 <= d <= DaysInMonth(y, m) then Ok((y, m, d))
      else Err(ValueError)
  }

  /** The index of the first `c` in `t`, `|t|` when there is none. */
  function FirstIndex(t: string, c: char): (k: nat)
    ensures k <= |t| && (k < |t| ==> t[k] == c)
    ensures forall i :: 0 <= i < k ==> t[i] != c
  {
    if t == [] || t[0] == c then 0 else 1 + FirstIndex(t[1..], c)
  }

  /** Where the offset starts in the text after the separator: at the first `-` when there is
      one, else at the first `+`, else nowhere (`|t|`). */
  function ZoneStart(t: string): (z: nat)
    ensures z <= |t| && (z < |t| ==> t[z] == '-' || t[z] == '+')
    ensures forall i :: 0 <= i < z ==> t[i] != '-'
    ensures ('-' !in t) ==> forall i :: 0 <= i < z ==> t[i] != '+'
  {
    var minus := FirstIndex(t, '-');
    if minus < |t| then minus else FirstIndex(t, '+')
  }

  /** `HH`, `HH:MM`, `HH:MM:SS` or `HH:MM:SS.f` with one to six fraction digits: the hour,
      minute, second and microsecond it writes (not yet range-checked). */
  function ParseClock(c: string): (r: Result<(int, int, int, int), PyError>)
    ensures r.Ok? ==> 0 <= r.value.3 < MicrosPerSecond
  {
    if !DigitsAt(c, 0, 2) then Err(ValueError)
    else if |c| == 2 then Ok((NumberAt(c, 0, 2), 0, 0, 0))
    else if c[2] != ':' || !DigitsAt(c, 3, 2) then Err(ValueError)
    else if |c| == 5 then Ok((NumberAt(c, 0, 2), NumberAt(c, 3, 2), 0, 0))
    else if c[5] != ':' || !DigitsAt(c, 6, 2) then Err(ValueError)
    else if |c| == 8 then Ok((NumberAt(c, 0, 2), NumberAt(c, 3, 2), NumberAt(c, 6, 2), 0))
    else
      var frac := c[9..];
      if c[8] != '.' || !(1 <= |frac| <= 6) || !AllDigits(frac) then Err(ValueError)
      else
        DigitsValueBound(frac);
        Pow10Add(|frac|, 6 - |frac|);
        Ok((NumberAt(c, 0, 2), NumberAt(c, 3, 2), NumberAt(c, 6, 2),
            DigitsValue(frac) * Pow10(6 - |frac|)))
  }

  lemma {:induction false} Pow10Add(a: nat, b: nat)
    ensures Pow10(a) * Pow10(b) == Pow10(a + b)
  {
    if a > 0 {
      Pow10Add(a - 1, b);
    }
  }

  /** What follows the time: nothing (a naive value), or `+HH:MM` / `-HH:MM`, the offset in
      minutes east of UTC, which `timezone` requires to be less than a day. */
  function ParseZone(z: string): (r: Result<Option<int>, PyError>)
    ensures r.Ok? && r.value.Some? ==> -MinutesPerDay < r.value.value < MinutesPerDay
  {
    if z == [] then Ok(None)
    else if |z| != 6 || !(z[0] == '+' || z[0] == '-') || !DigitsAt(z, 1, 2) || z[3] != ':'
      || !DigitsAt(z, 4, 2) then Err(ValueError)
    else
      var minutes := NumberAt(z, 1, 2) * 60 + NumberAt(z, 4, 2);
      if minutes >= MinutesPerDay then Err(ValueError)
      else Ok(Some(if z[0] == '-' then -minutes else minutes))
  }

  /** ISO 8601 extended format, as `datetime.fromisoformat` reads it: `YYYY-MM-DD`, optionally
      followed by any one separator character, a time (`ParseClock`) and an offset
      (`ParseZone`). */
  function Parse(s: string): (r: Result<DateTime, PyError>)
    ensures r.Ok? ==> Valid(r.value)
  {
    match ParseDate(s)
    case Err(e) => Err(e)
    case Ok(date) =>
      if |s| == 10 then Ok(DateTime(date.0, date.1, date.2, 0, 0, 0, 0, None))
      else
        var t := s[11..];
        var z := ZoneStart(t);
        match ParseClock(t[..z])
        case Err(e) => Err(e)
        case Ok(clock) =>
          match ParseZone(t[z..])
          case Err(e) => Err(e)
          case Ok(offset) =>
            if clock.0 < 24 && clock.1 < 60 && clock.2 < 60 then
              Ok(DateTime(date.0, date.1, date.2, clock.0, clock.1, clock.2, clock.3, offset))
            else Err(ValueError)
  }

  /** `datetime.fromisoformat(s.replace('Z', '+00:00'))`. */
  function FromIso(s: string): Result<DateTime, PyError> {
    Parse(Text.ReplaceChar(s, 'Z', "+00:00"))
  }

  lemma PaddedAt(s: string, i: nat, n: nat, width: nat, rest: string, pre: string)
    requires n < Pow10(width)
    requires s == pre + Pad(n, width) + rest && |pre| == i
    ensures DigitsAt(s, i, width) && NumberAt(s, i, width) == n
  {
    assert s[i..i + width] == Pad(n, width);
    PadValue(n, width);
  }

  /** Where `Format` puts each field and separator. */
  lemma FormatFields(dt: DateTime)
    requires Valid(dt)
    ensures var s := Format(dt);
      && DigitsAt(s, 0, 4) && NumberAt(s, 0, 4) == dt.year && s[4] == '-'
      && DigitsAt(s, 5, 2) && NumberAt(s, 5, 2) == dt.month && s[7] == '-'
      && DigitsAt(s, 8, 2) && NumberAt(s, 8, 2) == dt.day && s[10] == 'T'
      && DigitsAt(s, 11, 2) && NumberAt(s, 11, 2) == dt.hour && s[13] == ':'
      && DigitsAt(s, 14, 2) && NumberAt(s, 14, 2) == dt.minute && s[16] == ':'
      && DigitsAt(s, 17, 2) && NumberAt(s, 17, 2) == dt.second
  {
    var s := Format(dt);
    PaddedAt(s, 0, dt.year, 4, s[4..], "");
    PaddedAt(s, 5, dt.month, 2, s[7..], s[..5]);
    PaddedAt(s, 8, dt.day, 2, s[10..], s[..8]);
    PaddedAt(s, 11, dt.hour, 2, s[13..], s[..11]);
    PaddedAt(s, 14, dt.minute, 2, s[16..], s[..14]);
    PaddedAt(s, 17, dt.second, 2, s[19..], s[..17]);
  }

  lemma FormatHasNoZ(dt: DateTime)
    requires Valid(dt)
    ensures 'Z' !in Format(dt)
  {
    var s := Format(dt);
    assert forall i :: 0 <= i < |s| ==> s[i] != 'Z';
  }

  /** The time `Format` writes carries no sign, so no offset is read from it. */
  lemma FormatClockHasNoZone(dt: DateTime)
    requires Valid(dt)
    ensures ZoneStart(Format(dt)[11..]) == |Format(dt)[11..]|
  {
    var t := Format(dt)[11..];
    assert t == Pad(dt.hour, 2) + ":" + Pad(dt.minute, 2) + ":" + Pad(dt.second, 2);
    assert forall i :: 0 <= i < |t| ==> t[i] != '-' && t[i] != '+';
  }

  /** The time `Format` writes reads back as its hour, minute and second. */
  lemma FormatClock(dt: DateTime)
    requires Valid(dt)
    ensures ParseClock(Format(dt)[11..]) == Ok((dt.hour, dt.minute, dt.second, 0))
  {
    var t := Pad(dt.hour, 2) + ":" + Pad(dt.minute, 2) + ":" + Pad(dt.second, 2);
    assert Format(dt)[11..] == t;
    PaddedAt(t, 0, dt.hour, 2, t[2..], "");
    PaddedAt(t, 3, dt.minute, 2, t[5..], t[..3]);
    PaddedAt(t, 6, dt.second, 2, "", t[..6]);
  }

  /** Text written by `Format` reads back as the same second, naive. */
  lemma FormatRoundTrip(dt: DateTime)
    requires Valid(dt)
    ensures Parse(Format(dt)) == Ok(dt.(micro := 0, offset := None))
    ensures FromIso(Format(dt)) == Ok(dt.(micro := 0, offset := None))
  {
    var s := Format(dt);
    FormatFields(dt);
    assert ParseDate(s) == Ok((dt.year, dt.month, dt.day));
    FormatClockHasNoZone(dt);
    FormatClock(dt);
    var t := s[11..];
    assert t[..|t|] == t && t[|t|..] == [];
    FormatHasNoZ(dt);
  }

  /** Stepping a datetime back 6 hours and writing it with `Format` gives text that reads back
      as a naive datetime exactly 6 hours earlier, less the dropped fraction of a second. */
  lemma SixHoursEarlierRoundTrip(dt: DateTime)
    requires Valid(dt) && Micros(dt) >= 6 * MicrosPerHour
    ensures SixHoursEarlier(dt).Ok?
    ensures var back := FromIso(Format(SixHoursEarlier(dt).value));
      back.Ok? && Valid(back.value) && back.value.offset.None? && back.value.micro == 0
      && Micros(back.value) == Micros(dt) - 6 * MicrosPerHour - dt.micro
  {
    SixHoursEarlierIsExact(dt);
    var earlier := SixHoursEarlier(dt).value;
    FormatRoundTrip(earlier);
    assert earlier.micro == dt.micro;
  }

  /** Python's comparison and subtraction refuse to mix aware and naive values; two aware
      values are compared as points in time, whatever their offsets. */
  function Compare(a: DateTime, b: DateTime): (r: Result<int, PyError>)
    ensures r.Err? <==> a.offset.Some? != b.offset.Some?
    ensures r.Ok? ==> r.value == Instant(a) - Instant(b)
    ensures r.Ok? && a.offset == b.offset ==> r.value == Micros(a) - Micros(b)
  {
    if a.offset.Some? != b.offset.Some? then Err(TypeError) else Ok(Instant(a) - Instant(b))
  }
}

=== FILE: json.dfy ===
/** JSON documents as Python holds them after `json.loads`, the dictionary access the
    pipeline performs on them (`d.get(key, default)`, iteration), Python truthiness, and
    the SQL values (`Cell`) that sqlite-utils stores for Python values. */
module JsonModel {
  import opened Wrappers
  import Text

  /** A decoded JSON value. An object keeps its members in document order; when a key
      repeats, the later member's value wins and the key keeps its first position, as in
      the dict `json.loads` builds. Numbers are integers (floats are not modelled). */
  datatype Json =
    | JNull
    | JBool(b: bool)
    | JNum(n: int)
    | JStr(s: string)
    | JArr(items: seq<Json>)
    | JObj(members: seq<Member>)

  datatype Member = Member(key: string, value: Json)

  /** The Python exceptions that the modelled code can raise or catch. */
  datatype PyError =
    | AttributeError   // `.get` on something that is not a dict
    | TypeError        // iterating a number, joining a non-string, mixing aware and naive datetimes
    | ValueError       // `datetime.fromisoformat` on text it does not accept
    | OverflowError    // date arithmetic below year 1
    | NotFoundError    // sqlite-utils `Table.update` on a missing primary key
    | StoreError       // the database refused a write
    | DecodeError      // `json.loads` on text that is not JSON
    | RequestFailed    // `requests.get` or `raise_for_status` raised
    | NoSuchTable      // a query names a table that does not exist

  const EmptyObj: Json := JObj([])

  /** Python truthiness of a decoded value. */
  predicate Truthy(j: Json) {
    match j
    case JNull => false
    case JBool(b) => b
    case JNum(n) => n != 0
    case JStr(s) => s != ""
    case JArr(items) => items != []
    case JObj(members) => members != []
  }

  /** The value the dict holds for `key`: the last member with that key. */
  function Lookup(members: seq<Member>, key: string): Option<Json> {
    if members == [] then None
    else if members[|members| - 1].key == key then Some(members[|members| - 1].value)
    else Lookup(members[..|members| - 1], key)
  }

  /** A key is found exactly when some member has it, and what is found is a member's value. */
  lemma {:induction false} LookupFinds(members: seq<Member>, key: string)
    ensures Lookup(members, key).None? <==> forall i :: 0 <= i < |members| ==> members[i].key != key
    ensures Lookup(members, key).Some? ==>
      exists i :: 0 <= i < |members| && members[i] == Member(key, Lookup(members, key).value)
  {
    if members != [] && members[|members| - 1].key != key {
      var front := members[..|members| - 1];
      LookupFinds(front, key);
      forall i | 0 <= i < |front| ensures front[i] == members[i] { }
      if Lookup(front, key).Some? {
        var i :| 0 <= i < |front| && front[i] == Member(key, Lookup(front, key).value);
        assert members[i] == front[i];
      }
    }
  }

  /** A value found in a dict is part of it, so recursion into it terminates. */
  lemma LookupBelow(members: seq<Member>, key: string)
    requires Lookup(members, key).Some?
    ensures Lookup(members, key).value < JObj(members)
  {
    LookupFinds(members, key);
    var i :| 0 <= i < |members| && members[i] == Member(key, Lookup(members, key).value);
    assert members[i] in members;
  }

  /** `d.get(key, default)`; raises AttributeError when `d` is not a dict. */
  function Get(d: Json, key: string, default: Json): Result<Json, PyError> {
    match d
    case JObj(members) => Ok(Lookup(members, key).GetOr(default))
    case _ => Err(AttributeError)
  }

  /** `d.get(k1, {}).get(k2, {}) ... .get(kn, last)`: every link but the last defaults to `{}`. */
  function GetPath(d: Json, keys: seq<string>, last: Json): Result<Json, PyError>
    requires keys != []
    decreases |keys|
  {
    if |keys| == 1 then Get(d, keys[0], last)
    else
      match Get(d, keys[0], EmptyObj)
      case Err(e) => Err(e)
      case Ok(v) => GetPath(v, keys[1..], last)
  }

  /** The distinct keys of an object in first-occurrence order (the dict's iteration order). */
  function Keys(members: seq<Member>): seq<string> {
    if members == [] then []
    else
      var rest := Keys(members[..|members| - 1]);
      var k := members[|members| - 1].key;
      if k in rest then rest else rest + [k]
  }

  /** The keys listed are the members' keys, each once. */
  lemma {:induction false} KeysAreMemberKeys(members: seq<Member>)
    ensures forall k :: k in Keys(members) <==> exists i :: 0 <= i < |members| && members[i].key == k
    ensures forall i, j :: 0 <= i < j < |Keys(members)| ==> Keys(members)[i] != Keys(members)[j]
  {
    if members != [] {
      var front := members[..|members| - 1];
      KeysAreMemberKeys(front);
      forall k | (exists i :: 0 <= i < |members| && members[i].key == k) ensures k in Keys(members) {
        var i :| 0 <= i < |members| && members[i].key == k;
        if i < |front| {
          assert front[i].key == k;
        }
      }
      forall k | k in Keys(members) ensures exists i :: 0 <= i < |members| && members[i].key == k {
        if k in Keys(front) {
          var i :| 0 <= i < |front| && front[i].key == k;
          assert members[i].key == k;
        } else {
          assert members[|members| - 1].key == k;
        }
      }
    }
  }

  /** Every listed key has a value. */
  lemma KeysHaveValues(members: seq<Member>)
    ensures forall k :: k in Keys(members) ==> Lookup(members, k).Some?
  {
    KeysAreMemberKeys(members);
    forall k | k in Keys(members) ensures Lookup(members, k).Some? {
      LookupFinds(members, k);
      var i :| 0 <= i < |members| && members[i].key == k;
    }
  }

  /** `for x in v`: list items, dict keys, or the one-character strings of a str;
      numbers, booleans and None raise TypeError. */
  function Iterate(v: Json): (r: Result<seq<Json>, PyError>)
    ensures v.JArr? ==> r == Ok(v.items)
    ensures r.Err? <==> v.JNull? || v.JBool? || v.JNum?
  {
    match v
    case JArr(items) => Ok(items)
    case JObj(members) => Ok(seq(|Keys(members)|, i requires 0 <= i < |Keys(members)| => JStr(Keys(members)[i])))
    case JStr(s) => Ok(seq(|s|, i requires 0 <= i < |s| => JStr([s[i]])))
    case _ => Err(TypeError)
  }

  /** A JSON string value as text; any other value reads as NULL. */
  function TextOrNull(v: Json): Option<string> {
    if v.JStr? then Some(v.s) else None
  }

  /** A truthy identifier. Identifiers that are not JSON strings are not modelled and read as missing. */
  function KeyOf(v: Json): (r: Option<string>)
    ensures r.Some? ==> r.value != "" && v == JStr(r.value)
    ensures v.JStr? && v.s != "" ==> r == Some(v.s)
  {
    if v.JStr? && v.s != "" then Some(v.s) else None
  }

  /** `str(v)` as an f-string renders it. Lists and dicts render as a placeholder. */
  function PyStr(v: Json): string {
    match v
    case JNull => "None"
    case JBool(b) => if b then "True" else "False"
    case JNum(n) => Text.IntToString(n)
    case JStr(s) => s
    case JArr(_) => "[...]"
    case JObj(_) => "{...}"
  }

  /** A value in an SQLite column. `JsonText(doc)` is the text `json.dumps(doc)` produced
      (sqlite-utils also stores lists and dicts this way); `DumpsText` spells it out. */
  datatype Cell = Null | Int(i: int) | Text(s: string) | JsonText(doc: Json)

  /** What sqlite-utils stores for a decoded JSON value. */
  function ToCell(v: Json): (c: Cell)
    ensures v.JStr? <==> c.Text?
    ensures v.JNull? <==> c.Null?
    ensures (v.JArr? || v.JObj?) <==> c.JsonText?
  {
    match v
    case JNull => Null
    case JBool(b) => Int(if b then 1 else 0)
    case JNum(n) => Int(n)
    case JStr(s) => Text(s)
    case _ => JsonText(v)
  }

  /** Python truthiness of a column value read back from SQLite. */
  predicate CellTruthy(c: Cell) {
    match c
    case Null => false
    case Int(i) => i != 0
    case Text(s) => s != ""
    case JsonText(_) => true
  }

  /** `json.loads` of a column value. Text the model did not write with `json.dumps` reads as
      not JSON; NULL and integers raise TypeError. */
  function Loads(c: Cell): Result<Json, PyError> {
    match c
    case JsonText(doc) => Ok(doc)
    case Text(_) => Err(DecodeError)
    case _ => Err(TypeError)
  }

  /** A column value used where Python needs a `str`: text and JSON text are strings,
      an integer raises TypeError (e.g. in `"; ".join`). */
  function CellString(c: Cell): Result<string, PyError> {
    match c
    case Text(s) => Ok(s)
    case JsonText(doc) => Ok(DumpsText(doc))
    case Null => Err(TypeError)
    case Int(_) => Err(TypeError)
  }

  predicate IsPrintableAscii(s: string) {
    forall i :: 0 <= i < |s| ==> ' ' <= s[i] <= '~'
  }

  function HexDigit(d: int): char
    requires 0 <= d < 16
    ensures ' ' <= HexDigit(d) <= '~'
  {
    "0123456789abcdef"[d]
  }

  /** `\uXXXX` with four lower-case hex digits. */
  function UnicodeEscape(n: int): (r: string)
    requires 0 <= n < 0x10000
    ensures IsPrintableAscii(r)
  {
    "\\u" + [HexDigit(n / 4096), HexDigit(n / 256 % 16), HexDigit(n / 16 % 16), HexDigit(n % 16)]
  }

  /** How `json.dumps` (ensure_ascii) writes one character of a string. */
  function EscapeChar(c: char): (r: string)
    ensures IsPrintableAscii(r)
  {
    var n := c as int;
    if c == '"' then "\\\""
    else if c == '\\' then "\\\\"
    else if c == '\n' then "\\n"
    else if c == '\r' then "\\r"
    else if c == '\t' then "\\t"
    else if n == 8 then "\\b"
    else if n == 12 then "\\f"
    else if ' ' <= c <= '~' then [c]
    else if n < 0x10000 then UnicodeEscape(n)
    else
      var v := n - 0x10000;
      UnicodeEscape(0xd800 + v / 1024) + UnicodeEscape(0xdc00 + v % 1024)
  }

  function EscapeString(s: string): (r: string)
    ensures IsPrintableAscii(r)
  {
    if s == [] then "" else EscapeChar(s[0]) + EscapeString(s[1..])
  }

  lemma PrintableJoin(a: string, b: string)
    requires IsPrintableAscii(a) && IsPrintableAscii(b)
    ensures IsPrintableAscii(a + b)
  {
    forall i | |a| <= i < |a + b| ensures ' ' <= (a + b)[i] <= '~' {
      assert (a + b)[i] == b[i - |a|];
    }
  }

  function Quote(s: string): (r: string)
    ensures IsPrintableAscii(r)
  {
    "\"" + EscapeString(s) + "\""
  }

  /** The text `json.dumps(v)` writes (default separators, ensure_ascii). */
  function DumpsText(v: Json): (r: string)
    ensures IsPrintableAscii(r)
    decreases v, 2
  {
    match v
    case JNull => "null"
    case JBool(b) => if b then "true" else "false"
    case JNum(n) => Text.IntToString(n)
    case JStr(s) => Quote(s)
    case JArr(items) => "[" + DumpsItems(items, v) + "]"
    case JObj(members) =>
      KeysHaveValues(members);
      "{" + DumpsMembers(members, Keys(members), v) + "}"
  }

  function DumpsItems(items: seq<Json>, ghost parent: Json): (r: string)
    requires forall i :: 0 <= i < |items| ==> items[i] < parent
    ensures IsPrintableAscii(r)
    decreases parent, 1, |items|
  {
    if items == [] then ""
    else if |items| == 1 then DumpsText(items[0])
    else
      var first, rest := DumpsText(items[0]), DumpsItems(items[1..], parent);
      PrintableJoin(first, ", ");
      PrintableJoin(first + ", ", rest);
      first + ", " + rest
  }

  function DumpsMembers(members: seq<Member>, keys: seq<string>, ghost parent: Json): (r: string)
    requires parent == JObj(members)
    requires forall k :: k in keys ==> Lookup(members, k).Some?
    ensures IsPrintableAscii(r)
    decreases parent, 1, |keys|
  {
    if keys == [] then ""
    else
      var value := Lookup(members, keys[0]).value;
      LookupBelow(members, keys[0]);
      var key, text := Quote(keys[0]), DumpsText(value);
      PrintableJoin(key, ": ");
      PrintableJoin(key + ": ", text);
      var first := key + ": " + text;
      if |keys| == 1 then first
      else
        var rest := DumpsMembers(members, keys[1..], parent);
        PrintableJoin(first, ", ");
        PrintableJoin(first + ", ", rest);
        first + ", " + rest
  }
}

=== FILE: optimizer_ui.dfy ===
/** The denormalised `preprints_ui` table (osf/optimizer_ui.py): which preprints are
    (re)built, how the candidates are cut into batches, how one UI row is assembled from
    `preprints`, the contributor and subject joins and the stored tag list, and the count
    `populate_preprints_ui` returns. */
module OptimizerUi {
  import opened Wrappers
  import opened JsonModel
  import Text
  import Sql
  import Db
  import Entities
  import opened UiColumns

  type Table = map<string, Db.Row>
  type Links = map<(string, string), Db.Row>

  // ---------------------------------------------------------------- the table

  /** `create_preprints_ui_table`: creates `preprints_ui`, empty, when it is missing. */
  method CreatePreprintsUiTable(db: Db.Database)
    modifies db`preprintsUi
    ensures db.preprintsUi == Some(Db.TableOr(old(db.preprintsUi)))
  {
    if db.preprintsUi.None? {
      db.preprintsUi := Some(map[]);
    }
  }

  // ---------------------------------------------------------------- candidates

  /** `datetime(p.date_modified) > datetime(u.last_updated)`. `datetime` is SQLite's
      normalisation of a column value (NULL for text it cannot read); a comparison with NULL
      is not true. */
  predicate Stale(p: Db.Row, u: Db.Row, datetime: Cell -> Option<string>) {
    var modified := datetime(Db.Col(p, "date_modified"));
    var updated := datetime(Db.Col(u, "last_updated"));
    modified.Some? && updated.Some? && Text.Less(updated.value, modified.value)
  }

  /** The preprint ids to (re)build: all of them on a full rebuild, otherwise those missing
      from `preprints_ui` together with those modified since their UI row was written. */
  function Candidates(pre: Table, ui: Table, fullRebuild: bool, datetime: Cell -> Option<string>)
    : (c: set<string>)
    ensures c <= pre.Keys
  {
    if fullRebuild then pre.Keys
    else (set id | id in pre && id !in ui) + (set id | id in pre && id in ui && Stale(pre[id], ui[id], datetime))
  }

  /** A full rebuild takes every preprint; an incremental one takes a preprint exactly when
      it has no UI row or its UI row is older than its last modification. */
  lemma CandidatesMembership(pre: Table, ui: Table, datetime: Cell -> Option<string>)
    ensures Candidates(pre, ui, true, datetime) == pre.Keys
    ensures forall id :: id in Candidates(pre, ui, false, datetime) <==>
      id in pre && (id !in ui || Stale(pre[id], ui[id], datetime))
  {
  }

  /** `ids` lists the set `s`, each member once. */
  predicate IsListing(ids: seq<string>, s: set<string>) {
    (forall i, j :: 0 <= i < j < |ids| ==> ids[i] != ids[j]) &&
    (forall i :: 0 <= i < |ids| ==> ids[i] in s) && (forall id :: id in s ==> id in ids)
  }

  // ---------------------------------------------------------------- batches

  function Min(a: int, b: int): int {
    if a < b then a else b
  }

  /** `ids[i:i + size]` for a start `i` inside the list. */
  function BatchAt(ids: seq<string>, size: int, i: int): (b: seq<string>)
    requires size > 0 && 0 <= i < |ids|
    ensures 0 < |b| <= size
  {
    ids[i..Min(i + size, |ids|)]
  }

  /** The batches `for i in range(start, len(ids), size)` visits. */
  function BatchesFrom(ids: seq<string>, size: int, start: int): seq<seq<string>>
    requires size > 0 && 0 <= start
    decreases |ids| - start
  {
    if start >= |ids| then [] else [BatchAt(ids, size, start)] + BatchesFrom(ids, size, start + size)
  }

  function Concat(bs: seq<seq<string>>): seq<string> {
    if bs == [] then [] else bs[0] + Concat(bs[1..])
  }

  /** The batches, one after the other, are the candidate list itself: every candidate is in
      exactly one batch, in list order. */
  lemma {:induction false} BatchesCover(ids: seq<string>, size: int, start: int)
    requires size > 0 && 0 <= start <= |ids|
    ensures Concat(BatchesFrom(ids, size, start)) == ids[start..]
    decreases |ids| - start
  {
    if start < |ids| {
      var b := BatchAt(ids, size, start);
      var rest := BatchesFrom(ids, size, start + size);
      var all := BatchesFrom(ids, size, start);
      assert all == [b] + rest;
      assert all[0] == b && all[1..] == rest;
      assert Concat(all) == b + Concat(rest);
      if start + size <= |ids| {
        BatchesCover(ids, size, start + size);
        assert b == ids[start..start + size];
        assert ids[start..] == b + ids[start + size..];
      } else {
        assert Concat(rest) == [];
        assert b == ids[start..];
      }
    }
  }

  /** No batch is empty or longer than `size`. */
  lemma {:induction false} BatchesBounded(ids: seq<string>, size: int, start: int)
    requires size > 0 && 0 <= start
    ensures forall b :: b in BatchesFrom(ids, size, start) ==> 0 < |b| <= size
    decreases |ids| - start
  {
    if start < |ids| {
      BatchesBounded(ids, size, start + size);
      assert BatchesFrom(ids, size, start) == [BatchAt(ids, size, start)] + BatchesFrom(ids, size, start + size);
    }
  }

  // ---------------------------------------------------------------- the joins

  /** The contributors linked to `pid` through `preprint_contributors`
      (`c.id = pc.contributor_id`, both read from the primary keys). */
  function LinkedContributors(contribs: Table, links: Links, pid: string): set<string> {
    set c | c in contribs && (pid, c) in links
  }

  /** `pc.contributor_index` of each linked contributor, as SQLite orders it. */
  function IndexKey(links: Links, pid: string, ids: set<string>): (key: map<string, Sql.SqlValue>)
    requires forall c :: c in ids ==> (pid, c) in links
    ensures key.Keys == ids
  {
    map c | c in ids :: Sql.ValueOf(Db.Col(links[(pid, c)], "contributor_index"))
  }

  /** The linked contributors in `ORDER BY pc.contributor_index` order. */
  function ContributorOrder(contribs: Table, links: Links, pid: string): (order: seq<string>)
    ensures forall c :: c in order <==> c in LinkedContributors(contribs, links, pid)
    ensures forall c :: c in order ==> c in contribs && (pid, c) in links
  {
    var ids := LinkedContributors(contribs, links, pid);
    Sql.SortedBy(IndexKey(links, pid, ids), false, ids)
  }

  /** A joined row: `c.*` with the link's `contributor_index` and `bibliographic`. */
  function JoinRow(c: Db.Row, link: Db.Row): (r: Db.Row)
    ensures Db.Col(r, "contributor_index") == Db.Col(link, "contributor_index")
    ensures Db.Col(r, "bibliographic") == Db.Col(link, "bibliographic")
  {
    c["contributor_index" := Db.Col(link, "contributor_index")]["bibliographic" := Db.Col(link, "bibliographic")]
  }

  /** The rows of the contributor query for `pid`. */
  function JoinedContributors(contribs: Table, links: Links, pid: string): (rows: seq<Db.Row>)
    ensures |rows| == |ContributorOrder(contribs, links, pid)|
  {
    var order := ContributorOrder(contribs, links, pid);
    seq(|order|, i requires 0 <= i < |order| => JoinRow(contribs[order[i]], links[(pid, order[i])]))
  }

  /** The linked contributors come in non-decreasing `contributor_index` order. */
  lemma ContributorOrderSorted(contribs: Table, links: Links, pid: string)
    ensures var order := ContributorOrder(contribs, links, pid);
      var key := IndexKey(links, pid, LinkedContributors(contribs, links, pid));
      forall i, j :: 0 <= i < j < |order| ==> !Sql.SqlLess(key[order[j]], key[order[i]])
  {
    var ids := LinkedContributors(contribs, links, pid);
    var key := IndexKey(links, pid, ids);
    var order := ContributorOrder(contribs, links, pid);
    assert Sql.SortedByKey(key, false, order);
    forall i, j | 0 <= i < j < |order| ensures !Sql.SqlLess(key[order[j]], key[order[i]]) {
      assert Sql.Before(key, false, order[i], order[j]);
      if key[order[i]] == key[order[j]] {
        Sql.SqlLessIrreflexive(key[order[i]]);
      } else {
        Sql.SqlLessAsymmetric(key[order[i]], key[order[j]]);
      }
    }
  }

  /** The contributor rows come in non-decreasing `contributor_index` order. */
  lemma JoinedContributorsOrdered(contribs: Table, links: Links, pid: string)
    ensures var rows := JoinedContributors(contribs, links, pid);
      forall i, j :: 0 <= i < j < |rows| ==>
        !Sql.SqlLess(Sql.ValueOf(Db.Col(rows[j], "contributor_index")),
                     Sql.ValueOf(Db.Col(rows[i], "contributor_index")))
  {
    var ids := LinkedContributors(contribs, links, pid);
    var key := IndexKey(links, pid, ids);
    var order := ContributorOrder(contribs, links, pid);
    var rows := JoinedContributors(contribs, links, pid);
    ContributorOrderSorted(contribs, links, pid);
    assert forall i :: 0 <= i < |rows| ==> Sql.ValueOf(Db.Col(rows[i], "contributor_index")) == key[order[i]];
  }

  /** The rows of the subject query for `pid` (`s.id = ps.subject_id`). The query has no
      ORDER BY; the model takes subject-id order. */
  function JoinedSubjects(subjects: Table, links: Links, pid: string): seq<Db.Row> {
    var ids := set s | s in subjects && (pid, s) in links;
    var order := Text.SortedList(ids);
    assert forall x :: x in order ==> x in subjects;
    seq(|order|, i requires 0 <= i < |order| => subjects[order[i]])
  }

  // ---------------------------------------------------------------- formatting

  /** `[r[col] for r in rows if keep(r)]`. */
  function Pick(rows: seq<Db.Row>, keep: Db.Row -> bool, col: string): (r: seq<Cell>)
    ensures |r| <= |rows|
    decreases |rows|
  {
    if rows == [] then []
    else (if keep(rows[0]) then [Db.Col(rows[0], col)] else []) + Pick(rows[1..], keep, col)
  }

  /** A picked value is the column of a kept row, and every kept row's column is picked. */
  lemma {:induction false} PickSelects(rows: seq<Db.Row>, keep: Db.Row -> bool, col: string)
    ensures forall x :: x in Pick(rows, keep, col) <==>
      exists i :: 0 <= i < |rows| && keep(rows[i]) && Db.Col(rows[i], col) == x
    decreases |rows|
  {
    if rows != [] {
      PickSelects(rows[1..], keep, col);
      forall x | x in Pick(rows, keep, col)
        ensures exists i :: 0 <= i < |rows| && keep(rows[i]) && Db.Col(rows[i], col) == x
      {
        if !(keep(rows[0]) && Db.Col(rows[0], col) == x) {
          var i :| 0 <= i < |rows[1..]| && keep(rows[1..][i]) && Db.Col(rows[1..][i], col) == x;
          assert rows[i + 1] == rows[1..][i];
        }
      }
      forall x | exists i :: 0 <= i < |rows| && keep(rows[i]) && Db.Col(rows[i], col) == x
        ensures x in Pick(rows, keep, col)
      {
        var i :| 0 <= i < |rows| && keep(rows[i]) && Db.Col(rows[i], col) == x;
        if i > 0 {
          assert rows[1..][i - 1] == rows[i];
        }
      }
    }
  }

  /** `sep.join(values)`: every value must be a `str`, otherwise TypeError. */
  function JoinCells(cells: seq<Cell>, sep: string): (r: Result<string, PyError>)
    ensures r.Ok? <==> forall i :: 0 <= i < |cells| ==> CellString(cells[i]).Ok?
    ensures r.Err? ==> r.error == TypeError
    decreases |cells|
  {
    if cells == [] then Ok("")
    else
      var head :- CellString(cells[0]);
      var rest :- JoinCells(cells[1..], sep);
      Ok(if |cells| == 1 then head else head + sep + rest)
  }

  /** A contributor listed in `contributors_list`: a name and a truthy `bibliographic`. */
  predicate Listed(c: Db.Row) {
    CellTruthy(Db.Col(c, "full_name")) && CellTruthy(Db.Col(c, "bibliographic"))
  }

  /** `contributors_list`: the listed contributors' names joined with "; ". */
  function ContributorsList(rows: seq<Db.Row>): Result<string, PyError> {
    JoinCells(Pick(rows, Listed, "full_name"), "; ")
  }

  /** Exactly the names of contributors that have a name and are bibliographic make up
      `contributors_list`; the join fails only on a name that is not text. */
  lemma ContributorsListContents(rows: seq<Db.Row>)
    ensures forall x :: x in Pick(rows, Listed, "full_name") <==>
      exists i :: 0 <= i < |rows| && Listed(rows[i]) && Db.Col(rows[i], "full_name") == x
    ensures ContributorsList(rows).Err? <==>
      exists i :: 0 <= i < |rows| && Listed(rows[i]) && Db.Col(rows[i], "full_name").Int?
  {
    var names := Pick(rows, Listed, "full_name");
    PickSelects(rows, Listed, "full_name");
    if ContributorsList(rows).Err? {
      var k :| 0 <= k < |names| && CellString(names[k]).Err?;
      assert names[k] in names;
    }
    if exists i :: 0 <= i < |rows| && Listed(rows[i]) && Db.Col(rows[i], "full_name").Int? {
      var i :| 0 <= i < |rows| && Listed(rows[i]) && Db.Col(rows[i], "full_name").Int?;
      var x := Db.Col(rows[i], "full_name");
      assert x in names;
      var k :| 0 <= k < |names| && names[k] == x;
    }
  }

  /** A contributor that may be the first author: index 0 and a name. */
  predicate FirstAuthorCandidate(c: Db.Row) {
    Db.Col(c, "contributor_index") == Int(0) && CellTruthy(Db.Col(c, "full_name"))
  }

  /** `first_author`: the name of the first candidate row, "" when there is none. */
  function FirstAuthorOf(rows: seq<Db.Row>): Cell
    decreases |rows|
  {
    if rows == [] then Text("")
    else if FirstAuthorCandidate(rows[0]) then Db.Col(rows[0], "full_name")
    else FirstAuthorOf(rows[1..])
  }

  /** The first author is the name of the earliest row with index 0 and a name, and "" when
      no row has both. */
  lemma {:induction false} FirstAuthorIsFirst(rows: seq<Db.Row>)
    ensures (forall i :: 0 <= i < |rows| ==> !FirstAuthorCandidate(rows[i])) ==> FirstAuthorOf(rows) == Text("")
    ensures forall k :: (0 <= k < |rows| && FirstAuthorCandidate(rows[k]) &&
      (forall i :: 0 <= i < k ==> !FirstAuthorCandidate(rows[i]))) ==>
      FirstAuthorOf(rows) == Db.Col(rows[k], "full_name")
    decreases |rows|
  {
    if rows != [] {
      FirstAuthorIsFirst(rows[1..]);
      forall k | 0 <= k < |rows| && FirstAuthorCandidate(rows[k]) &&
        (forall i :: 0 <= i < k ==> !FirstAuthorCandidate(rows[i]))
        ensures FirstAuthorOf(rows) == Db.Col(rows[k], "full_name")
      {
        if k > 0 {
          assert !FirstAuthorCandidate(rows[0]);
          assert rows[1..][k - 1] == rows[k];
          assert forall i :: 0 <= i < k - 1 ==> rows[1..][i] == rows[i + 1];
        }
      }
      if forall i :: 0 <= i < |rows| ==> !FirstAuthorCandidate(rows[i]) {
        assert forall i :: 0 <= i < |rows[1..]| ==> rows[1..][i] == rows[i + 1];
      }
    }
  }

  /** The loop that looks for the first author, stopping at the first match. */
  method FindFirstAuthor(rows: seq<Db.Row>) returns (author: Cell)
    ensures author == FirstAuthorOf(rows)
  {
    author := Text("");
    var i := 0;
    while i < |rows|
      invariant 0 <= i <= |rows|
      invariant author == Text("")
      invariant FirstAuthorOf(rows[i..]) == FirstAuthorOf(rows)
    {
      assert rows[i..][1..] == rows[i + 1..];
      if FirstAuthorCandidate(rows[i]) {
        author := Db.Col(rows[i], "full_name");
        return;
      }
      i := i + 1;
    }
  }

  /** `[t for t in tags if t]`. */
  function TruthyItems(items: seq<Json>): (r: seq<Json>)
    ensures forall x :: x in r <==> x in items && Truthy(x)
    decreases |items|
  {
    if items == [] then []
    else (if Truthy(items[0]) then [items[0]] else []) + TruthyItems(items[1..])
  }

  /** `"; ".join(items)` over decoded values: each must be a string. */
  function JoinJson(items: seq<Json>, sep: string): (r: Result<string, PyError>)
    ensures r.Ok? <==> forall i :: 0 <= i < |items| ==> items[i].JStr?
    decreases |items|
  {
    if items == [] then Ok("")
    else if !items[0].JStr? then Err(TypeError)
    else
      var rest :- JoinJson(items[1..], sep);
      Ok(if |items| == 1 then items[0].s else items[0].s + sep + rest)
  }

  /** The tag list read back from the `tags` column: a falsy column gives none, text that is
      not JSON gives none, other failures propagate. */
  function TagItems(tags: Cell): (r: Result<seq<Json>, PyError>)
    ensures tags.Text? || tags.Null? ==> r == Ok([])
  {
    if !CellTruthy(tags) then Ok([])
    else
      match Loads(tags)
      case Ok(doc) => Iterate(doc)
      case Err(e) => if e == DecodeError then Ok([]) else Err(e)
  }

  /** `tags_list`: the truthy tags joined with "; ". */
  function TagsList(tags: Cell): Result<string, PyError> {
    var items :- TagItems(tags);
    JoinJson(TruthyItems(items), "; ")
  }

  /** Text that is not a JSON document gives an empty tag list rather than an error. */
  lemma TagsListOfInvalidJson(s: string)
    ensures TagsList(Text(s)) == Ok("")
  {
  }

  lemma {:induction false} JoinJsonStrings(tags: seq<string>, sep: string)
    ensures JoinJson(Entities.StringList(tags).items, sep) == Ok(Text.Join(tags, sep))
    decreases |tags|
  {
    if tags != [] {
      JoinJsonStrings(tags[1..], sep);
      assert Entities.StringList(tags).items[1..] == Entities.StringList(tags[1..]).items;
    }
  }

  lemma {:induction false} TruthyStrings(tags: seq<string>)
    requires "" !in tags
    ensures TruthyItems(Entities.StringList(tags).items) == Entities.StringList(tags).items
    decreases |tags|
  {
    if tags != [] {
      TruthyStrings(tags[1..]);
      assert Entities.StringList(tags).items[1..] == Entities.StringList(tags[1..]).items;
      assert tags[0] in tags;
    }
  }

  /** Reading back a tag list that `process_tags` stored gives the tags joined with "; ". */
  lemma TagsListRoundTrip(tags: seq<string>)
    requires "" !in tags
    ensures TagsList(JsonText(Entities.StringList(tags))) == Ok(Text.Join(tags, "; "))
  {
    TruthyStrings(tags);
    JoinJsonStrings(tags, "; ");
  }

  /** Any stored JSON list reads back as its truthy items joined: nulls, empty strings,
      zeros and empty lists among the tags are dropped, and a non-string tag that is truthy
      makes the join raise. */
  lemma TagsListOfList(items: seq<Json>)
    ensures TagsList(JsonText(JArr(items))) == JoinJson(TruthyItems(items), "; ")
    ensures TagsList(JsonText(JArr(items))).Ok? <==> forall x :: x in items && Truthy(x) ==> x.JStr?
  {
    var kept := TruthyItems(items);
    if TagsList(JsonText(JArr(items))).Ok? {
      forall x | x in items && Truthy(x) ensures x.JStr? {
        var i :| 0 <= i < |kept| && kept[i] == x;
      }
    }
  }

  /** A column value as Python holds it after reading it from SQLite. */
  function CellJson(c: Cell): Json {
    match c
    case Null => JNull
    case Int(i) => JNum(i)
    case Text(s) => JStr(s)
    case JsonText(doc) => JStr(DumpsText(doc))
  }

  predicate HasId(r: Db.Row) {
    CellTruthy(Db.Col(r, "id"))
  }

  /** `contributors_data`: one dict per contributor row with a truthy id. */
  function ContributorsData(rows: seq<Db.Row>): (r: seq<Json>)
    ensures |r| <= |rows|
    ensures forall e :: e in r ==> e.JObj? && |e.members| == 5 && e.members[0].key == "id"
    decreases |rows|
  {
    if rows == [] then []
    else
      var c := rows[0];
      (if HasId(c) then
         [JObj([Member("id", CellJson(Db.Col(c, "id"))), Member("name", CellJson(Db.Col(c, "full_name"))),
                Member("index", CellJson(Db.Col(c, "contributor_index"))),
                Member("orcid", CellJson(Db.Col(c, "orcid"))),
                Member("bibliographic", JBool(Db.Col(c, "bibliographic") == Int(1)))])]
       else []) + ContributorsData(rows[1..])
  }

  /** `subjects_data`: one dict per subject row with a truthy id. */
  function SubjectsData(rows: seq<Db.Row>): (r: seq<Json>)
    ensures |r| <= |rows|
    ensures forall e :: e in r ==> e.JObj? && |e.members| == 2 && e.members[0].key == "id"
    decreases |rows|
  {
    if rows == [] then []
    else
      var s := rows[0];
      (if HasId(s) then [JObj([Member("id", CellJson(Db.Col(s, "id"))), Member("text", CellJson(Db.Col(s, "text")))])]
       else []) + SubjectsData(rows[1..])
  }

  /** Picking two columns of the same kept rows gives lists of one length. */
  lemma {:induction false} PickLength(rows: seq<Db.Row>, keep: Db.Row -> bool, a: string, b: string)
    ensures |Pick(rows, keep, a)| == |Pick(rows, keep, b)|
    decreases |rows|
  {
    if rows != [] {
      PickLength(rows[1..], keep, a, b);
    }
  }

  /** Entry `i` of `contributors_data` is built from the `i`-th contributor row with a truthy id:
      its id, `full_name`, `contributor_index` and `orcid`, and whether `bibliographic` is 1. */
  lemma {:induction false} ContributorsDataRows(rows: seq<Db.Row>)
    ensures var r := ContributorsData(rows);
      && |r| == |Pick(rows, HasId, "id")|
      && forall i :: 0 <= i < |r| ==>
           && i < |Pick(rows, HasId, "full_name")| && i < |Pick(rows, HasId, "contributor_index")|
           && i < |Pick(rows, HasId, "orcid")| && i < |Pick(rows, HasId, "bibliographic")|
           && r[i] == JObj([Member("id", CellJson(Pick(rows, HasId, "id")[i])),
                            Member("name", CellJson(Pick(rows, HasId, "full_name")[i])),
                            Member("index", CellJson(Pick(rows, HasId, "contributor_index")[i])),
                            Member("orcid", CellJson(Pick(rows, HasId, "orcid")[i])),
                            Member("bibliographic", JBool(Pick(rows, HasId, "bibliographic")[i] == Int(1)))])
    decreases |rows|
  {
    PickLength(rows, HasId, "id", "full_name");
    PickLength(rows, HasId, "id", "contributor_index");
    PickLength(rows, HasId, "id", "orcid");
    PickLength(rows, HasId, "id", "bibliographic");
    if rows != [] {
      ContributorsDataRows(rows[1..]);
    }
  }

  lemma {:induction false} SubjectsDataLength(rows: seq<Db.Row>)
    ensures |SubjectsData(rows)| == |Pick(rows, HasId, "id")| == |Pick(rows, HasId, "text")|
    decreases |rows|
  {
    if rows != [] {
      SubjectsDataLength(rows[1..]);
    }
  }

  lemma {:induction false} SubjectsDataAt(rows: seq<Db.Row>, i: nat)
    requires i < |SubjectsData(rows)|
    ensures i < |Pick(rows, HasId, "id")| && i < |Pick(rows, HasId, "text")|
    ensures SubjectsData(rows)[i] == JObj([Member("id", CellJson(Pick(rows, HasId, "id")[i])),
                                           Member("text", CellJson(Pick(rows, HasId, "text")[i]))])
    decreases |rows|
  {
    SubjectsDataLength(rows);
    if !HasId(rows[0]) {
      SubjectsDataAt(rows[1..], i);
    } else if i > 0 {
      SubjectsDataAt(rows[1..], i - 1);
    }
  }

  /** Entry `i` of `subjects_data` is the id and text of the `i`-th subject row with a truthy
      id. */
  lemma {:induction false} SubjectsDataRows(rows: seq<Db.Row>)
    ensures var r := SubjectsData(rows);
      && |r| == |Pick(rows, HasId, "id")|
      && forall i :: 0 <= i < |r| ==>
           && i < |Pick(rows, HasId, "text")|
           && r[i] == JObj([Member("id", CellJson(Pick(rows, HasId, "id")[i])),
                            Member("text", CellJson(Pick(rows, HasId, "text")[i]))])
  {
    SubjectsDataLength(rows);
    forall i | 0 <= i < |SubjectsData(rows)|
      ensures i < |Pick(rows, HasId, "text")|
      ensures SubjectsData(rows)[i] == JObj([Member("id", CellJson(Pick(rows, HasId, "id")[i])),
                                             Member("text", CellJson(Pick(rows, HasId, "text")[i]))])
    {
      SubjectsDataAt(rows, i);
    }
  }

  predicate HasText(s: Db.Row) {
    CellTruthy(Db.Col(s, "text"))
  }

  // ---------------------------------------------------------------- the UI record

  /** What the joins and the tag column give one UI row. */
  datatype Formatted = Formatted(tagsList: string, contributorsList: string, contributorsData: seq<Json>,
                                 firstAuthor: Cell, subjectsList: string, subjectsData: seq<Json>)

  /** The default `preprint.get(c, default)` gives a copied column. */
  function CopiedDefault(c: string): Cell {
    if c in {"is_published", "has_coi"} then Int(0)
    else if c in {"version", "is_latest_version"} then Int(1)
    else Text("")
  }

  /** `preprint.get(c, default)` on a `preprints` row: a column of the table's schema reads
      from the row (NULL included), any other column gives the default. */
  function PreprintGet(pre: Db.Row, c: string): Cell {
    if c in Db.PreprintColumns then Db.Col(pre, c) else CopiedDefault(c)
  }

  function RecordColumn(c: string, pid: string, pre: Db.Row, f: Formatted, now: string): Cell {
    if c in CopiedColumns then PreprintGet(pre, c)
    else if c == "id" then Text(pid)
    else if c == "tags_list" then Text(f.tagsList)
    else if c == "tags_data" then Db.Col(pre, "tags")
    else if c == "contributors_list" then Text(f.contributorsList)
    else if c == "contributors_data" then JsonText(JArr(f.contributorsData))
    else if c == "first_author" then f.firstAuthor
    else if c == "subjects_list" then Text(f.subjectsList)
    else if c == "subjects_data" then JsonText(JArr(f.subjectsData))
    else if c == "last_updated" then Text(now)
    else Null
  }

  /** The record appended for one preprint. */
  function UiRecord(pid: string, pre: Db.Row, f: Formatted, now: string): (r: Db.Row)
    ensures r.Keys == RecordColumns
  {
    map c | c in RecordColumns :: RecordColumn(c, pid, pre, f, now)
  }

  /** A UI record keys itself by the preprint id, stamps `last_updated` with the run's time
      and keeps the stored tag document in `tags_data`. */
  lemma UiRecordStamps(pid: string, pre: Db.Row, f: Formatted, now: string)
    ensures UiRecord(pid, pre, f, now)["id"] == Text(pid)
    ensures UiRecord(pid, pre, f, now)["last_updated"] == Text(now)
    ensures UiRecord(pid, pre, f, now)["tags_data"] == Db.Col(pre, "tags")
  {
    StampsAreNotCopied();
  }

  /** A UI record copies the preprint's own columns unchanged. */
  lemma UiRecordCopies(pid: string, pre: Db.Row, f: Formatted, now: string)
    ensures forall c :: c in CopiedColumns && c in Db.PreprintColumns ==>
      UiRecord(pid, pre, f, now)[c] == Db.Col(pre, c)
  {
  }

  /** `provider` is not a column of `preprints`, so every UI record gets its default `""`. */
  lemma UiRecordProvider(pid: string, pre: Db.Row, f: Formatted, now: string)
    ensures "provider" in UiRecord(pid, pre, f, now) && UiRecord(pid, pre, f, now)["provider"] == Text("")
  {
    assert "provider" !in Db.PreprintColumns;
  }

  /** A UI record never sets `why_no_data`, `data_links` or `why_no_prereg`, columns the
      table's schema has, so an upsert leaves them as they were (NULL on a new row). */
  lemma UiRecordOmits(pid: string, pre: Db.Row, f: Formatted, now: string)
    ensures "why_no_data" !in UiRecord(pid, pre, f, now) && "data_links" !in UiRecord(pid, pre, f, now)
    ensures "why_no_prereg" !in UiRecord(pid, pre, f, now)
  {
    NoWhyNoData();
    NoDataLinks();
    NoWhyNoPrereg();
  }

  /** The tables the builder reads. */
  datatype Sources = Sources(preprints: Table, contributors: Option<Table>, contributorLinks: Option<Links>,
                             subjects: Option<Table>, subjectLinks: Option<Links>)

  function Present<T>(t: Option<T>): Result<T, PyError> {
    if t.Some? then Ok(t.value) else Err(NoSuchTable)
  }

  /** Everything in a UI row beyond the preprint's own columns; an error is an exception the
      per-preprint `try` catches. */
  function Format(src: Sources, pid: string, pre: Db.Row): Result<Formatted, PyError> {
    var contribs :- Present(src.contributors);
    var links :- Present(src.contributorLinks);
    var rows := JoinedContributors(contribs, links, pid);
    var contributorsList :- ContributorsList(rows);
    var subjects :- Present(src.subjects);
    var subjectLinks :- Present(src.subjectLinks);
    var srows := JoinedSubjects(subjects, subjectLinks, pid);
    var subjectsList :- JoinCells(Pick(srows, HasText, "text"), "; ");
    var tagsList :- TagsList(Db.Col(pre, "tags"));
    Ok(Formatted(tagsList, contributorsList, ContributorsData(rows), FirstAuthorOf(rows),
                 subjectsList, SubjectsData(srows)))
  }

  /** The record for one candidate, None when it is skipped: no `preprints` row, or an
      exception while formatting it. */
  function RecordFor(src: Sources, pid: string, now: string): (r: Option<Db.Row>)
    ensures r.Some? ==> pid in src.preprints && r.value.Keys == RecordColumns
  {
    if pid !in src.preprints then None
    else
      match Format(src, pid, src.preprints[pid])
      case Ok(f) => Some(UiRecord(pid, src.preprints[pid], f, now))
      case Err(_) => None
  }

  /** Formatting one preprint: the contributor join, the first author found by a scan, the
      subject join and the tag list. */
  method FormatPreprint(src: Sources, pid: string, pre: Db.Row) returns (f: Result<Formatted, PyError>)
    ensures f == Format(src, pid, pre)
  {
    if src.contributors.None? || src.contributorLinks.None? {
      return Err(NoSuchTable);
    }
    var rows := JoinedContributors(src.contributors.value, src.contributorLinks.value, pid);
    var contributorsList := ContributorsList(rows);
    var firstAuthor := FindFirstAuthor(rows);
    if contributorsList.Err? {
      return Err(contributorsList.error);
    }
    if src.subjects.None? || src.subjectLinks.None? {
      return Err(NoSuchTable);
    }
    var srows := JoinedSubjects(src.subjects.value, src.subjectLinks.value, pid);
    var subjectsList := JoinCells(Pick(srows, HasText, "text"), "; ");
    if subjectsList.Err? {
      return Err(subjectsList.error);
    }
    var tagsList := TagsList(Db.Col(pre, "tags"));
    if tagsList.Err? {
      return Err(tagsList.error);
    }
    f := Ok(Formatted(tagsList.value, contributorsList.value, ContributorsData(rows), firstAuthor,
                      subjectsList.value, SubjectsData(srows)));
  }

  /** Building one candidate's record. */
  method BuildRecord(src: Sources, pid: string, now: string) returns (r: Option<Db.Row>)
    ensures r == RecordFor(src, pid, now)
  {
    if pid !in src.preprints {
      return None;
    }
    var pre := src.preprints[pid];
    var f := FormatPreprint(src, pid, pre);
    if f.Err? {
      return None;
    }
    r := Some(UiRecord(pid, pre, f.value, now));
  }

  /** The record each candidate yields in one run. */
  function RecordsOf(src: Sources, now: string): string -> Option<Db.Row> {
    pid => RecordFor(src, pid, now)
  }

  /** The records a list of candidates yields, in order, keyed by preprint id. */
  function BatchRecords(recordOf: string -> Option<Db.Row>, ids: seq<string>): (r: seq<(string, Db.Row)>)
    ensures |r| <= |ids|
    decreases |ids|
  {
    if ids == [] then []
    else
      var front := BatchRecords(recordOf, ids[..|ids| - 1]);
      match recordOf(ids[|ids| - 1])
      case Some(rec) => front + [(ids[|ids| - 1], rec)]
      case None => front
  }

  /** Each record is the one its candidate yields, and every candidate that yields a record
      has it among the records. */
  lemma {:induction false} BatchRecordsMembers(recordOf: string -> Option<Db.Row>, ids: seq<string>)
    ensures forall e :: e in BatchRecords(recordOf, ids) ==> e.0 in ids && recordOf(e.0) == Some(e.1)
    ensures forall pid :: pid in ids && recordOf(pid).Some? ==> (pid, recordOf(pid).value) in BatchRecords(recordOf, ids)
    decreases |ids|
  {
    if ids != [] {
      var front := ids[..|ids| - 1];
      BatchRecordsMembers(recordOf, front);
      assert ids == front + [ids[|ids| - 1]];
    }
  }

  /** The records of a list are the records of its two halves. */
  lemma {:induction false} BatchRecordsAppend(recordOf: string -> Option<Db.Row>, a: seq<string>, b: seq<string>)
    ensures BatchRecords(recordOf, a + b) == BatchRecords(recordOf, a) + BatchRecords(recordOf, b)
    decreases |b|
  {
    if b != [] {
      var b' := b[..|b| - 1];
      BatchRecordsAppend(recordOf, a, b');
      assert (a + b)[..|a + b| - 1] == a + b';
      assert (a + b)[|a + b| - 1] == b[|b| - 1];
    } else {
      assert a + b == a;
    }
  }

  /** The inner loop over one batch. */
  method BuildBatch(src: Sources, batch: seq<string>, now: string) returns (records: seq<(string, Db.Row)>)
    ensures records == BatchRecords(RecordsOf(src, now), batch)
  {
    records := [];
    for j := 0 to |batch|
      invariant records == BatchRecords(RecordsOf(src, now), batch[..j])
    {
      assert batch[..j + 1][..j] == batch[..j];
      var r := BuildRecord(src, batch[j], now);
      if r.Some? {
        records := records + [(batch[j], r.value)];
      }
    }
    assert batch[..|batch|] == batch;
  }

  /** `upsert_all(records, pk="id")`. */
  function UpsertAll(ui: Table, records: seq<(string, Db.Row)>): Table
    decreases |records|
  {
    if records == [] then ui else UpsertAll(Db.UpsertRow(ui, records[0].0, records[0].1), records[1..])
  }

  /** `pid`'s UI row holds every column of `rec`. */
  predicate Holds(ui: Table, pid: string, rec: Db.Row) {
    pid in ui && forall c :: c in rec ==> Db.Col(ui[pid], c) == rec[c]
  }

  /** Upserting records that all agree with `recordOf` keeps a row that holds its record. */
  lemma {:induction false} UpsertAllKeeps(recordOf: string -> Option<Db.Row>, ui: Table,
                                          records: seq<(string, Db.Row)>, pid: string)
    requires forall e :: e in records ==> recordOf(e.0) == Some(e.1)
    requires recordOf(pid).Some? && Holds(ui, pid, recordOf(pid).value)
    ensures Holds(UpsertAll(ui, records), pid, recordOf(pid).value)
    decreases |records|
  {
    if records != [] {
      assert records[0] in records;
      assert forall e :: e in records[1..] ==> e in records;
      UpsertAllKeeps(recordOf, Db.UpsertRow(ui, records[0].0, records[0].1), records[1..], pid);
    }
  }

  /** Upserting records that all agree with `recordOf` leaves every record's row holding it. */
  lemma {:induction false} UpsertAllWrites(recordOf: string -> Option<Db.Row>, ui: Table,
                                           records: seq<(string, Db.Row)>)
    requires forall e :: e in records ==> recordOf(e.0) == Some(e.1)
    ensures forall e :: e in records ==> Holds(UpsertAll(ui, records), e.0, e.1)
    decreases |records|
  {
    if records != [] {
      var next := Db.UpsertRow(ui, records[0].0, records[0].1);
      assert forall e :: e in records[1..] ==> e in records;
      UpsertAllWrites(recordOf, next, records[1..]);
      assert records[0] in records;
      UpsertAllKeeps(recordOf, next, records[1..], records[0].0);
    }
  }

  /** Upserting adds only the records' keys and leaves the other rows alone. */
  lemma {:induction false} UpsertAllKeys(ui: Table, records: seq<(string, Db.Row)>)
    ensures forall k :: k in UpsertAll(ui, records) && k !in ui ==> exists i :: 0 <= i < |records| && records[i].0 == k
    ensures forall k :: k in ui && (forall i :: 0 <= i < |records| ==> records[i].0 != k) ==>
      k in UpsertAll(ui, records) && UpsertAll(ui, records)[k] == ui[k]
    decreases |records|
  {
    if records != [] {
      var next := Db.UpsertRow(ui, records[0].0, records[0].1);
      UpsertAllKeys(next, records[1..]);
      assert forall i :: 0 <= i < |records[1..]| ==> records[1..][i] == records[i + 1];
    }
  }

  /** `for i in range(start, len(ids), size)`: each batch's records are upserted unless the
      write fails (`refused` holds the starts of batches whose write raises); gives the UI
      table and the number of records written. */
  function RunFrom(recordOf: string -> Option<Db.Row>, ids: seq<string>, size: int, start: int, ui: Table,
                   refused: set<int>): (Table, int)
    requires size > 0 && 0 <= start
    decreases |ids| - start
  {
    if start >= |ids| then (ui, 0)
    else
      var records := BatchRecords(recordOf, BatchAt(ids, size, start));
      var written := records != [] && start !in refused;
      var rest := RunFrom(recordOf, ids, size, start + size, if written then UpsertAll(ui, records) else ui, refused);
      (rest.0, rest.1 + if written then |records| else 0)
  }

  /** The count returned is at most the number of candidates. */
  lemma {:induction false} RunCountBound(recordOf: string -> Option<Db.Row>, ids: seq<string>, size: int,
                                         start: int, ui: Table, refused: set<int>)
    requires size > 0 && 0 <= start
    ensures 0 <= RunFrom(recordOf, ids, size, start, ui, refused).1
    ensures start <= |ids| ==> RunFrom(recordOf, ids, size, start, ui, refused).1 <= |ids| - start
    decreases |ids| - start
  {
    if start < |ids| {
      var records := BatchRecords(recordOf, BatchAt(ids, size, start));
      var written := records != [] && start !in refused;
      RunCountBound(recordOf, ids, size, start + size, if written then UpsertAll(ui, records) else ui, refused);
    }
  }

  /** Every member of a batch is a candidate. */
  lemma BatchInIds(ids: seq<string>, size: int, start: int)
    requires size > 0 && 0 <= start < |ids|
    ensures forall x :: x in BatchAt(ids, size, start) ==> x in ids
  {
    var batch := BatchAt(ids, size, start);
    forall x | x in batch ensures x in ids {
      var i :| 0 <= i < |batch| && batch[i] == x;
      assert ids[start + i] == x;
    }
  }

  /** Rows are written only for candidates: no key other than a candidate's is added. */
  lemma {:induction false} RunAddsOnlyCandidates(recordOf: string -> Option<Db.Row>, ids: seq<string>,
                                                 size: int, start: int, ui: Table, refused: set<int>)
    requires size > 0 && 0 <= start
    ensures forall k :: k in RunFrom(recordOf, ids, size, start, ui, refused).0 ==> k in ui || k in ids
    decreases |ids| - start
  {
    if start < |ids| {
      var next := Step(recordOf, ids, size, start, ui, refused).0;
      RunStep(recordOf, ids, size, start, ui, refused);
      StepAddsOnlyCandidates(recordOf, ids, size, start, ui, refused);
      RunAddsOnlyCandidates(recordOf, ids, size, start + size, next, refused);
    }
  }

  /** One batch adds rows only for candidates. */
  lemma StepAddsOnlyCandidates(recordOf: string -> Option<Db.Row>, ids: seq<string>, size: int, start: int,
                               ui: Table, refused: set<int>)
    requires size > 0 && 0 <= start < |ids|
    ensures forall k :: k in Step(recordOf, ids, size, start, ui, refused).0 ==> k in ui || k in ids
  {
    var batch := BatchAt(ids, size, start);
    var records := BatchRecords(recordOf, batch);
    var next := Step(recordOf, ids, size, start, ui, refused).0;
    UpsertAllKeys(ui, records);
    BatchRecordsMembers(recordOf, batch);
    BatchInIds(ids, size, start);
    forall k | k in next && k !in ui ensures k in ids {
      var i :| 0 <= i < |records| && records[i].0 == k;
      assert records[i] in records;
    }
  }

  /** Rows of preprints that are not candidates are left as they were. */
  lemma {:induction false} RunKeepsOthers(recordOf: string -> Option<Db.Row>, ids: seq<string>,
                                          size: int, start: int, ui: Table, refused: set<int>)
    requires size > 0 && 0 <= start
    ensures var out := RunFrom(recordOf, ids, size, start, ui, refused).0;
      forall k :: k in ui && k !in ids ==> k in out && out[k] == ui[k]
    decreases |ids| - start
  {
    if start < |ids| {
      var next := Step(recordOf, ids, size, start, ui, refused).0;
      RunStep(recordOf, ids, size, start, ui, refused);
      StepKeepsOthers(recordOf, ids, size, start, ui, refused);
      RunKeepsOthers(recordOf, ids, size, start + size, next, refused);
    }
  }

  /** One batch leaves the rows of preprints that are not candidates as they were. */
  lemma StepKeepsOthers(recordOf: string -> Option<Db.Row>, ids: seq<string>, size: int, start: int,
                        ui: Table, refused: set<int>)
    requires size > 0 && 0 <= start < |ids|
    ensures var next := Step(recordOf, ids, size, start, ui, refused).0;
      forall k :: k in ui && k !in ids ==> k in next && next[k] == ui[k]
  {
    var batch := BatchAt(ids, size, start);
    var records := BatchRecords(recordOf, batch);
    UpsertAllKeys(ui, records);
    BatchRecordsMembers(recordOf, batch);
    BatchInIds(ids, size, start);
    forall k, i | k in ui && k !in ids && 0 <= i < |records| ensures records[i].0 != k {
      assert records[i] in records;
    }
  }

  /** A row that already holds its record keeps it through the remaining batches. */
  lemma {:induction false} RunKeeps(recordOf: string -> Option<Db.Row>, ids: seq<string>, size: int, start: int,
                                    ui: Table, refused: set<int>, pid: string)
    requires size > 0 && 0 <= start
    requires recordOf(pid).Some? && Holds(ui, pid, recordOf(pid).value)
    ensures Holds(RunFrom(recordOf, ids, size, start, ui, refused).0, pid, recordOf(pid).value)
    decreases |ids| - start
  {
    if start < |ids| {
      var batch := BatchAt(ids, size, start);
      var records := BatchRecords(recordOf, batch);
      BatchRecordsMembers(recordOf, batch);
      UpsertAllKeeps(recordOf, ui, records, pid);
      RunStep(recordOf, ids, size, start, ui, refused);
      RunKeeps(recordOf, ids, size, start + size, Step(recordOf, ids, size, start, ui, refused).0, refused, pid);
    }
  }

  /** A batch member that yields a record holds it once the batch is written. */
  lemma BatchWritten(recordOf: string -> Option<Db.Row>, ui: Table, batch: seq<string>, pid: string)
    requires pid in batch && recordOf(pid).Some?
    ensures BatchRecords(recordOf, batch) != []
    ensures Holds(UpsertAll(ui, BatchRecords(recordOf, batch)), pid, recordOf(pid).value)
  {
    var records := BatchRecords(recordOf, batch);
    BatchRecordsMembers(recordOf, batch);
    UpsertAllWrites(recordOf, ui, records);
    assert (pid, recordOf(pid).value) in records;
  }

  /** With no failing write, a member of the first batch that yields a record ends holding it. */
  lemma RunWritesBatch(recordOf: string -> Option<Db.Row>, ids: seq<string>, size: int, start: int,
                       ui: Table, pid: string)
    requires size > 0 && 0 <= start < |ids|
    requires pid in BatchAt(ids, size, start) && recordOf(pid).Some?
    ensures Holds(RunFrom(recordOf, ids, size, start, ui, {}).0, pid, recordOf(pid).value)
  {
    var records := BatchRecords(recordOf, BatchAt(ids, size, start));
    BatchWritten(recordOf, ui, BatchAt(ids, size, start), pid);
    RunKeeps(recordOf, ids, size, start + size, UpsertAll(ui, records), {}, pid);
  }

  /** When no write fails, every candidate that yields a record ends with a UI row holding
      that record. */
  lemma {:induction false} RunWritesAll(recordOf: string -> Option<Db.Row>, ids: seq<string>, size: int,
                                        start: int, ui: Table)
    requires size > 0 && 0 <= start
    ensures forall j :: start <= j < |ids| && recordOf(ids[j]).Some? ==>
      Holds(RunFrom(recordOf, ids, size, start, ui, {}).0, ids[j], recordOf(ids[j]).value)
    decreases |ids| - start
  {
    if start < |ids| {
      var batch := BatchAt(ids, size, start);
      var records := BatchRecords(recordOf, batch);
      var next := if records != [] then UpsertAll(ui, records) else ui;
      RunWritesAll(recordOf, ids, size, start + size, next);
      forall j | start <= j < Min(start + size, |ids|) && recordOf(ids[j]).Some?
        ensures Holds(RunFrom(recordOf, ids, size, start, ui, {}).0, ids[j], recordOf(ids[j]).value)
      {
        assert batch[j - start] == ids[j];
        RunWritesBatch(recordOf, ids, size, start, ui, ids[j]);
      }
    }
  }

  /** With no failing write, one batch adds its records to the count of the batches after it. */
  lemma RunCountStep(recordOf: string -> Option<Db.Row>, ids: seq<string>, size: int, start: int, ui: Table)
    requires size > 0 && 0 <= start < |ids|
    ensures var records := BatchRecords(recordOf, BatchAt(ids, size, start));
      var next := if records != [] then UpsertAll(ui, records) else ui;
      RunFrom(recordOf, ids, size, start, ui, {}).1
        == RunFrom(recordOf, ids, size, Min(start + size, |ids|), next, {}).1 + |records|
  {
  }

  /** When no write fails, the count returned is the number of records built. */
  lemma {:induction false} RunCountsAll(recordOf: string -> Option<Db.Row>, ids: seq<string>, size: int,
                                        start: int, ui: Table)
    requires size > 0 && 0 <= start <= |ids|
    ensures RunFrom(recordOf, ids, size, start, ui, {}).1 == |BatchRecords(recordOf, ids[start..])|
    decreases |ids| - start
  {
    if start < |ids| {
      var batch := BatchAt(ids, size, start);
      var records := BatchRecords(recordOf, batch);
      var next := if records != [] then UpsertAll(ui, records) else ui;
      var end := Min(start + size, |ids|);
      RunCountStep(recordOf, ids, size, start, ui);
      RunCountsAll(recordOf, ids, size, end, next);
      assert ids[start..] == batch + ids[end..];
      BatchRecordsAppend(recordOf, batch, ids[end..]);
    }
  }

  // ---------------------------------------------------------------- populate_preprints_ui

  /** `populate_preprints_ui(full_rebuild, batch_size)`. `order` is the order in which the
      candidate ids come out of the query or the set, `datetime` is SQLite's `datetime()`,
      `now` is `datetime.now().isoformat()` and `refused` holds the starts of the batches
      whose `upsert_all` raises (logged, not counted). A missing `preprints` table raises;
      no candidates returns 0; a `batch_size` of 0 makes `range` raise ValueError. */
  method PopulatePreprintsUi(db: Db.Database, fullRebuild: bool, batchSize: int, order: seq<string>,
                             datetime: Cell -> Option<string>, now: string, refused: set<int>)
    returns (r: Result<int, PyError>)
    modifies db`preprintsUi
    requires db.preprints.Some? ==>
      IsListing(order, Candidates(db.preprints.value, Db.TableOr(db.preprintsUi), fullRebuild, datetime))
    ensures db.preprints.None? ==> r == Err(NoSuchTable) && db.preprintsUi == Some(Db.TableOr(old(db.preprintsUi)))
    ensures db.preprints.Some? && (order == [] || batchSize < 0) ==>
      r == Ok(0) && db.preprintsUi == Some(Db.TableOr(old(db.preprintsUi)))
    ensures db.preprints.Some? && order != [] && batchSize == 0 ==>
      r == Err(ValueError) && db.preprintsUi == Some(Db.TableOr(old(db.preprintsUi)))
    ensures db.preprints.Some? && batchSize > 0 ==>
      var src := Sources(db.preprints.value, db.contributors, db.preprintContributors, db.subjects,
                         db.preprintSubjects);
      var out := RunFrom(RecordsOf(src, now), order, batchSize, 0, Db.TableOr(old(db.preprintsUi)), refused);
      r == Ok(out.1) && db.preprintsUi == Some(out.0)
  {
    CreatePreprintsUiTable(db);
    if db.preprints.None? {
      return Err(NoSuchTable);
    }
    if order == [] {
      return Ok(0);
    }
    if batchSize == 0 {
      return Err(ValueError);
    }
    if batchSize < 0 {
      return Ok(0);
    }
    var src := Sources(db.preprints.value, db.contributors, db.preprintContributors, db.subjects,
                       db.preprintSubjects);
    var total := WriteBatches(db, src, order, batchSize, now, refused);
    r := Ok(total);
  }

  /** One batch of the run: its records, upserted unless the write fails, and the count it adds. */
  function Step(recordOf: string -> Option<Db.Row>, ids: seq<string>, size: int, start: int, ui: Table,
                refused: set<int>): (Table, int)
    requires size > 0 && 0 <= start < |ids|
  {
    var records := BatchRecords(recordOf, BatchAt(ids, size, start));
    if records != [] && start !in refused then (UpsertAll(ui, records), |records|) else (ui, 0)
  }

  /** The run from a batch is that batch's step followed by the run from the next batch. */
  lemma RunStep(recordOf: string -> Option<Db.Row>, ids: seq<string>, size: int, start: int, ui: Table,
                refused: set<int>)
    requires size > 0 && 0 <= start < |ids|
    ensures var step := Step(recordOf, ids, size, start, ui, refused);
      var rest := RunFrom(recordOf, ids, size, start + size, step.0, refused);
      RunFrom(recordOf, ids, size, start, ui, refused) == (rest.0, rest.1 + step.1)
  {
  }

  /** The body of the batch loop: builds the batch's records and upserts them unless the
      write fails. */
  method WriteBatch(db: Db.Database, src: Sources, order: seq<string>, batchSize: int, i: int, now: string,
                    refused: set<int>) returns (n: int)
    requires batchSize > 0 && 0 <= i < |order| && db.preprintsUi.Some?
    modifies db`preprintsUi
    ensures db.preprintsUi.Some?
    ensures (db.preprintsUi.value, n) == Step(RecordsOf(src, now), order, batchSize, i, old(db.preprintsUi).value, refused)
  {
    var batch := BatchAt(order, batchSize, i);
    var records := BuildBatch(src, batch, now);
    n := 0;
    if records != [] && i !in refused {
      db.preprintsUi := Some(UpsertAll(db.preprintsUi.value, records));
      n := |records|;
    }
  }

  /** The batch loop: each batch's records are built, then upserted unless the write fails. */
  method WriteBatches(db: Db.Database, src: Sources, order: seq<string>, batchSize: int, now: string,
                      refused: set<int>) returns (total: int)
    requires batchSize > 0 && db.preprintsUi.Some?
    modifies db`preprintsUi
    ensures var out := RunFrom(RecordsOf(src, now), order, batchSize, 0, old(db.preprintsUi).value, refused);
      total == out.1 && db.preprintsUi == Some(out.0)
  {
    ghost var recordOf := RecordsOf(src, now);
    ghost var final := RunFrom(recordOf, order, batchSize, 0, db.preprintsUi.value, refused);
    total := 0;
    var i := 0;
    while i < |order|
      invariant 0 <= i
      invariant db.preprintsUi.Some?
      invariant RunFrom(recordOf, order, batchSize, i, db.preprintsUi.value, refused).0 == final.0
      invariant total + RunFrom(recordOf, order, batchSize, i, db.preprintsUi.value, refused).1 == final.1
      decreases |order| - i
    {
      ghost var before := db.preprintsUi.value;
      var n := WriteBatch(db, src, order, batchSize, i, now, refused);
      RunStep(recordOf, order, batchSize, i, before, refused);
      total := total + n;
      i := i + batchSize;
    }
  }

  /** A run with no failing write: every candidate that can be formatted ends with a UI row
      holding its record, rows of other preprints are kept, no other key is added, and the
      count is the number of records built, at most the number of candidates. */
  lemma RunOutcome(src: Sources, order: seq<string>, size: int, ui: Table, now: string)
    requires size > 0
    ensures var out := RunFrom(RecordsOf(src, now), order, size, 0, ui, {});
      (forall pid :: pid in order && RecordFor(src, pid, now).Some? ==>
        Holds(out.0, pid, RecordFor(src, pid, now).value)) &&
      (forall k :: k in out.0 ==> k in ui || k in order) &&
      (forall k :: k in ui && k !in order ==> k in out.0 && out.0[k] == ui[k]) &&
      out.1 == |BatchRecords(RecordsOf(src, now), order)| <= |order|
  {
    var recordOf := RecordsOf(src, now);
    assert order[0..] == order;
    RunWritesAll(recordOf, order, size, 0, ui);
    forall pid | pid in order && RecordFor(src, pid, now).Some?
      ensures Holds(RunFrom(recordOf, order, size, 0, ui, {}).0, pid, RecordFor(src, pid, now).value)
    {
      var j :| 0 <= j < |order| && order[j] == pid;
      assert recordOf(order[j]) == RecordFor(src, pid, now);
    }
    RunCountsAll(recordOf, order, size, 0, ui);
    RunAddsOnlyCandidates(recordOf, order, size, 0, ui, {});
    RunKeepsOthers(recordOf, order, size, 0, ui, {});
    RunCountBound(recordOf, order, size, 0, ui, {});
  }
}

=== FILE: sql.dfy ===
/** The SQLite semantics the queries rely on: how stored values compare (NULL first, then
    integers, then text in BINARY collation), `ORDER BY <key> [DESC]` over rows keyed by a
    text primary key, and `LIMIT` as appended by `if limit: ... LIMIT {int(limit)}`. */
module Sql {
  import opened Wrappers
  import Text
  import opened JsonModel

  /** A stored value as SQLite compares it. JSON text compares as the text `json.dumps` wrote. */
  datatype SqlValue = SNull | SInt(i: int) | SText(s: string)

  function ValueOf(c: Cell): (v: SqlValue)
    ensures c.Null? <==> v.SNull?
    ensures c.Int? <==> v.SInt?
  {
    match c
    case Null => SNull
    case Int(i) => SInt(i)
    case Text(s) => SText(s)
    case JsonText(doc) => SText(DumpsText(doc))
  }

  /** A nullable text column as stored. */
  function TextValue(o: Option<string>): SqlValue {
    if o.Some? then SText(o.value) else SNull
  }

  function Class(v: SqlValue): int {
    match v
    case SNull => 0
    case SInt(_) => 1
    case SText(_) => 2
  }

  /** SQLite's `<` between two stored values: NULL < INTEGER < TEXT, integers by value,
      text by code point. */
  predicate SqlLess(a: SqlValue, b: SqlValue) {
    if Class(a) != Class(b) then Class(a) < Class(b)
    else if a.SInt? then a.i < b.i
    else if a.SText? then Text.Less(a.s, b.s)
    else false
  }

  lemma SqlLessIrreflexive(a: SqlValue)
    ensures !SqlLess(a, a)
  {
    if a.SText? {
      Text.LessIrreflexive(a.s);
    }
  }

  lemma SqlLessTransitive(a: SqlValue, b: SqlValue, c: SqlValue)
    requires SqlLess(a, b) && SqlLess(b, c)
    ensures SqlLess(a, c)
  {
    if a.SText? && b.SText? && c.SText? {
      Text.LessTransitive(a.s, b.s, c.s);
    }
  }

  lemma SqlLessTotal(a: SqlValue, b: SqlValue)
    requires a != b
    ensures SqlLess(a, b) || SqlLess(b, a)
  {
    if a.SText? && b.SText? {
      Text.LessTotal(a.s, b.s);
    }
  }

  lemma SqlLessAsymmetric(a: SqlValue, b: SqlValue)
    requires SqlLess(a, b)
    ensures !SqlLess(b, a)
  {
    if a.SText? && b.SText? {
      Text.LessAsymmetric(a.s, b.s);
    }
  }

  /** The order `ORDER BY key [DESC]` puts rows in. Rows with equal keys come in primary-key
      order: SQLite leaves that order unspecified, so the model fixes one. */
  predicate Before(key: map<string, SqlValue>, desc: bool, a: string, b: string)
    requires a in key && b in key
  {
    if key[a] == key[b] then Text.Less(a, b)
    else if desc then SqlLess(key[b], key[a])
    else SqlLess(key[a], key[b])
  }

  lemma BeforeIrreflexive(key: map<string, SqlValue>, desc: bool, a: string)
    requires a in key
    ensures !Before(key, desc, a, a)
  {
    Text.LessIrreflexive(a);
  }

  lemma BeforeTransitive(key: map<string, SqlValue>, desc: bool, a: string, b: string, c: string)
    requires a in key && b in key && c in key
    requires Before(key, desc, a, b) && Before(key, desc, b, c)
    ensures Before(key, desc, a, c)
  {
    if key[a] == key[b] && key[b] == key[c] {
      Text.LessTransitive(a, b, c);
    } else if key[a] == key[c] {
      if desc {
        SqlLessAsymmetric(key[c], key[b]);
      } else {
        SqlLessAsymmetric(key[b], key[c]);
      }
    } else if key[a] != key[b] && key[b] != key[c] {
      if desc {
        SqlLessTransitive(key[c], key[b], key[a]);
      } else {
        SqlLessTransitive(key[a], key[b], key[c]);
      }
    }
  }

  lemma BeforeTotal(key: map<string, SqlValue>, desc: bool, a: string, b: string)
    requires a in key && b in key && a != b
    ensures Before(key, desc, a, b) || Before(key, desc, b, a)
  {
    if key[a] == key[b] {
      Text.LessTotal(a, b);
    } else {
      SqlLessTotal(key[a], key[b]);
    }
  }

  lemma BeforeAsymmetric(key: map<string, SqlValue>, desc: bool, a: string, b: string)
    requires a in key && b in key
    requires Before(key, desc, a, b)
    ensures !Before(key, desc, b, a)
  {
    if key[a] == key[b] {
      Text.LessAsymmetric(a, b);
    } else if desc {
      SqlLessAsymmetric(key[b], key[a]);
    } else {
      SqlLessAsymmetric(key[a], key[b]);
    }
  }

  predicate SortedByKey(key: map<string, SqlValue>, desc: bool, r: seq<string>)
    requires forall i :: 0 <= i < |r| ==> r[i] in key
  {
    forall i, j :: 0 <= i < j < |r| ==> Before(key, desc, r[i], r[j])
  }

  /** `m` comes first among `s` in `ORDER BY key [DESC]` order. */
  predicate IsFirst(key: map<string, SqlValue>, desc: bool, s: set<string>, m: string)
    requires s <= key.Keys
  {
    m in s && forall y :: y in s && y != m ==> Before(key, desc, m, y)
  }

  lemma {:induction false} First(key: map<string, SqlValue>, desc: bool, s: set<string>) returns (m: string)
    requires s != {} && s <= key.Keys
    ensures IsFirst(key, desc, s, m)
    decreases s
  {
    var x :| x in s;
    var rest := s - {x};
    if rest == {} {
      m := x;
      assert s == {x};
    } else {
      var m' := First(key, desc, rest);
      if Before(key, desc, x, m') {
        m := x;
        forall y | y in s && y != m ensures Before(key, desc, m, y) {
          assert y in rest;
          if y != m' {
            BeforeTransitive(key, desc, x, m', y);
          }
        }
      } else {
        BeforeTotal(key, desc, x, m');
        m := m';
        forall y | y in s && y != m ensures Before(key, desc, m, y) {
          if y != x {
            assert y in rest;
          }
        }
      }
    }
  }

  lemma FirstIsUnique(key: map<string, SqlValue>, desc: bool, s: set<string>)
    requires s != {} && s <= key.Keys
    ensures exists m :: IsFirst(key, desc, s, m)
    ensures forall m, n :: IsFirst(key, desc, s, m) && IsFirst(key, desc, s, n) ==> m == n
  {
    var m0 := First(key, desc, s);
    forall m, n | IsFirst(key, desc, s, m) && IsFirst(key, desc, s, n) ensures m == n {
      if m != n {
        BeforeAsymmetric(key, desc, m, n);
      }
    }
  }

  /** The primary keys `s` listed in `ORDER BY key [DESC]` order. */
  function SortedBy(key: map<string, SqlValue>, desc: bool, s: set<string>): (r: seq<string>)
    requires s <= key.Keys
    ensures forall y :: y in r <==> y in s
    ensures |r| == |s|
    ensures forall i :: 0 <= i < |r| ==> r[i] in key
    ensures SortedByKey(key, desc, r)
    decreases s
  {
    if s == {} then []
    else
      FirstIsUnique(key, desc, s);
      var m :| IsFirst(key, desc, s, m);
      var rest := SortedBy(key, desc, s - {m});
      PrependFirst(key, desc, s, m, rest);
      [m] + rest
  }

  lemma PrependFirst(key: map<string, SqlValue>, desc: bool, s: set<string>, m: string, rest: seq<string>)
    requires s <= key.Keys && IsFirst(key, desc, s, m)
    requires forall y :: y in rest <==> y in s - {m}
    requires forall i :: 0 <= i < |rest| ==> rest[i] in key
    requires SortedByKey(key, desc, rest)
    ensures SortedByKey(key, desc, [m] + rest)
  {
    var r := [m] + rest;
    forall i, j | 0 <= i < j < |r| ensures Before(key, desc, r[i], r[j]) {
      if i == 0 {
        assert r[j] == rest[j - 1];
        assert rest[j - 1] in rest;
      } else {
        assert r[i] == rest[i - 1] && r[j] == rest[j - 1];
      }
    }
  }

  /** The row `ORDER BY key DESC LIMIT 1` returns: no other row has a greater key. */
  function Greatest(key: map<string, SqlValue>, s: set<string>): (m: string)
    requires s != {} && s <= key.Keys
    ensures m in s
    ensures forall y :: y in s ==> !SqlLess(key[m], key[y])
  {
    var r := SortedBy(key, true, s);
    assert r[0] in s;
    FirstIsGreatest(key, s, r);
    r[0]
  }

  lemma FirstIsGreatest(key: map<string, SqlValue>, s: set<string>, r: seq<string>)
    requires s <= key.Keys && r != []
    requires forall y :: y in r <==> y in s
    requires forall i :: 0 <= i < |r| ==> r[i] in key
    requires SortedByKey(key, true, r)
    ensures forall y :: y in s ==> !SqlLess(key[r[0]], key[y])
  {
    forall y | y in s ensures !SqlLess(key[r[0]], key[y]) {
      var k :| 0 <= k < |r| && r[k] == y;
      if key[r[0]] == key[y] {
        SqlLessIrreflexive(key[y]);
      } else {
        assert Before(key, true, r[0], r[k]);
        SqlLessAsymmetric(key[y], key[r[0]]);
      }
    }
  }

  /** `rows` after `if limit: query += f" LIMIT {int(limit)}"`. A zero limit is falsy and adds
      no clause; SQLite reads a negative LIMIT as no limit. */
  function ApplyLimit<T>(rows: seq<T>, limit: Option<int>): (r: seq<T>)
    ensures limit.Some? && 0 < limit.value < |rows| ==> r == rows[..limit.value]
    ensures !(limit.Some? && 0 < limit.value < |rows|) ==> r == rows
  {
    if limit.Some? && 0 < limit.value < |rows| then rows[..limit.value] else rows
  }

  /** In ascending order a row placed before another does not have a greater key. */
  lemma BeforeAscending(key: map<string, SqlValue>, a: string, b: string)
    requires a in key && b in key && Before(key, false, a, b)
    ensures !SqlLess(key[b], key[a])
  {
    if key[a] == key[b] {
      SqlLessIrreflexive(key[a]);
    } else {
      SqlLessAsymmetric(key[a], key[b]);
    }
  }

  /** The primary keys `SELECT ... WHERE <in s> ORDER BY key ASC` lists, after the limit:
      distinct rows of `s` in ascending key order, as many as the limit lets through, and
      no row left out has a smaller key than a row returned. */
  function OrderedLimit(key: map<string, SqlValue>, s: set<string>, limit: Option<int>)
    : (r: seq<string>)
    requires s <= key.Keys
    ensures forall i :: 0 <= i < |r| ==> r[i] in s
    ensures forall i, j :: 0 <= i < j < |r| ==> r[i] != r[j]
    ensures forall i, j :: 0 <= i < j < |r| ==> !SqlLess(key[r[j]], key[r[i]])
    ensures |r| == if limit.Some? && 0 < limit.value < |s| then limit.value else |s|
    ensures !(limit.Some? && 0 < limit.value < |s|) ==> forall y :: y in r <==> y in s
    ensures forall y, i :: y in s && y !in r && 0 <= i < |r| ==> !SqlLess(key[y], key[r[i]])
  {
    var full := SortedBy(key, false, s);
    var r := ApplyLimit(full, limit);
    assert r == full[..|r|];
    forall i, j | 0 <= i < j < |r| ensures r[i] != r[j] && !SqlLess(key[r[j]], key[r[i]]) {
      BeforeIrreflexive(key, false, r[i]);
      BeforeAscending(key, r[i], r[j]);
    }
    assert forall m :: 0 <= m < |r| ==> full[m] in r;
    forall y, i | y in s && y !in r && 0 <= i < |r| ensures !SqlLess(key[y], key[r[i]]) {
      var k :| 0 <= k < |full| && full[k] == y;
      BeforeAscending(key, r[i], full[k]);
    }
    r
  }
}

=== FILE: text.dfy ===
/** Strings as Python and SQLite treat them: code-point order, substring search,
    splitting on a character, joining, and `str.strip` whitespace removal. */
module Text {

  /** Strict lexicographic order by code point. This is Python's `<` on `str`, and SQLite's
      BINARY collation on the UTF-8 encoding of the same text (UTF-8 preserves code-point order). */
  predicate Less(a: string, b: string)
    decreases |a|
  {
    if a == [] then b != []
    else if b == [] then false
    else if a[0] != b[0] then a[0] < b[0]
    else Less(a[1..], b[1..])
  }

  predicate LessEq(a: string, b: string) {
    a == b || Less(a, b)
  }

  lemma {:induction false} LessIrreflexive(a: string)
    ensures !Less(a, a)
    decreases |a|
  {
    if a != [] {
      LessIrreflexive(a[1..]);
    }
  }

  lemma {:induction false} LessTransitive(a: string, b: string, c: string)
    requires Less(a, b) && Less(b, c)
    ensures Less(a, c)
    decreases |a|
  {
    if a != [] && a[0] == b[0] && b[0] == c[0] {
      LessTransitive(a[1..], b[1..], c[1..]);
    }
  }

  lemma {:induction false} LessTotal(a: string, b: string)
    requires a != b
    ensures Less(a, b) || Less(b, a)
    decreases |a|
  {
    if a != [] && b != [] && a[0] == b[0] {
      assert a == [a[0]] + a[1..] && b == [b[0]] + b[1..];
      LessTotal(a[1..], b[1..]);
    }
  }

  lemma {:induction false} LessAsymmetric(a: string, b: string)
    requires Less(a, b)
    ensures !Less(b, a)
    decreases |a|
  {
    if a != [] && a[0] == b[0] {
      LessAsymmetric(a[1..], b[1..]);
    }
  }

  /** `Less` is a strict total order; the quantified form used by sorting. */
  lemma LessIsStrictTotalOrder()
    ensures forall a: string :: !Less(a, a)
    ensures forall a: string, b: string :: a != b ==> Less(a, b) || Less(b, a)
    ensures forall a: string, b: string, c: string :: Less(a, b) && Less(b, c) ==> Less(a, c)
  {
    forall a: string ensures !Less(a, a) {
      LessIrreflexive(a);
    }
    forall a: string, b: string | a != b ensures Less(a, b) || Less(b, a) {
      LessTotal(a, b);
    }
    forall a: string, b: string, c: string | Less(a, b) && Less(b, c) ensures Less(a, c) {
      LessTransitive(a, b, c);
    }
  }

  predicate StrictlySorted(s: seq<string>) {
    forall i, j :: 0 <= i < j < |s| ==> Less(s[i], s[j])
  }

  /** Two strictly sorted listings of the same strings are the same listing. */
  lemma {:induction false} SortedListingUnique(a: seq<string>, b: seq<string>)
    requires StrictlySorted(a) && StrictlySorted(b)
    requires forall y :: y in a <==> y in b
    ensures a == b
    decreases |a|
  {
    assert |b| > 0 ==> b[0] in a;
    if a != [] {
      assert a[0] in a;
      assert b != [];
      assert b[0] in b;
      var i :| 0 <= i < |a| && a[i] == b[0];
      var j :| 0 <= j < |b| && b[j] == a[0];
      if i > 0 && j > 0 {
        LessAsymmetric(a[0], a[i]);
      }
      assert a[0] == b[0];
      forall y ensures y in a[1..] <==> y in b[1..] {
        if y in a[1..] {
          var k :| 1 <= k < |a| && a[k] == y;
          LessIrreflexive(y);
          assert y in b;
          var m :| 0 <= m < |b| && b[m] == y;
          assert m != 0;
          assert b[1..][m - 1] == y;
        }
        if y in b[1..] {
          var k :| 1 <= k < |b| && b[k] == y;
          LessIrreflexive(y);
          assert y in a;
          var m :| 0 <= m < |a| && a[m] == y;
          assert m != 0;
          assert a[1..][m - 1] == y;
        }
      }
      SortedListingUnique(a[1..], b[1..]);
      assert a == [a[0]] + a[1..] && b == [b[0]] + b[1..];
    }
  }

  lemma {:induction false} Minimum(s: set<string>) returns (m: string)
    requires s != {}
    ensures m in s && forall y :: y in s ==> !Less(y, m)
    decreases s
  {
    var x :| x in s;
    var rest := s - {x};
    if rest == {} {
      LessIrreflexive(x);
      m := x;
      assert s == {x};
    } else {
      var m' := Minimum(rest);
      if Less(x, m') {
        m := x;
        forall y | y in s ensures !Less(y, m) {
          if y == x {
            LessIrreflexive(x);
          } else if Less(y, x) {
            assert y in rest;
            LessTransitive(y, x, m');
          }
        }
      } else {
        m := m';
        forall y | y in s ensures !Less(y, m) {
          if y != x {
            assert y in rest;
          }
        }
      }
    }
  }

  lemma MinimumExists(s: set<string>)
    requires s != {}
    ensures exists m :: m in s && forall y :: y in s ==> !Less(y, m)
  {
    var m := Minimum(s);
  }

  /** The strings of a set in ascending order (what `sorted(...)` or `ORDER BY` gives). */
  function SortedList(s: set<string>): (r: seq<string>)
    ensures StrictlySorted(r)
    ensures forall y :: y in r <==> y in s
    ensures |r| == |s|
    decreases s
  {
    if s == {} then []
    else
      LessIsStrictTotalOrder();
      MinimumExists(s);
      var m :| m in s && forall y :: y in s ==> !Less(y, m);
      var rest := SortedList(s - {m});
      assert forall y :: y in rest ==> Less(m, y);
      [m] + rest
  }

  function Elems(s: seq<string>): set<string> {
    set y | y in s
  }

  /** `sorted(set(xs))`: the distinct strings of `xs` in ascending order. */
  function SortedDistinct(xs: seq<string>): (r: seq<string>)
    ensures StrictlySorted(r)
    ensures forall y :: y in r <==> y in xs
  {
    SortedList(Elems(xs))
  }

  /** `sub` occurs in `s` starting at index `i`. */
  predicate OccursAt(s: string, sub: string, i: int) {
    0 <= i && i + |sub| <= |s| && s[i..i + |sub|] == sub
  }

  /** `s.startswith(p)`. */
  predicate StartsWith(s: string, p: string) {
    |p| <= |s| && s[..|p|] == p
  }

  /** `s.split(c)[0]`: the text before the first `c`, or all of `s`. */
  function BeforeFirst(s: string, c: char): (r: string)
    ensures StartsWith(s, r) && c !in r
    ensures c !in s ==> r == s
    ensures |r| < |s| ==> s[|r|] == c
  {
    if s == [] || s[0] == c then []
    else
      var rest := BeforeFirst(s[1..], c);
      assert s == [s[0]] + s[1..];
      [s[0]] + rest
  }

  /** Python's `sub in s`. */
  predicate Contains(s: string, sub: string) {
    exists i | 0 <= i <= |s| :: OccursAt(s, sub, i)
  }

  /** Index of the first occurrence of `sub` in `s` at or after `from`, or -1. */
  function FindFrom(s: string, sub: string, from: nat): (k: int)
    ensures k == -1 || (from <= k && OccursAt(s, sub, k))
    ensures forall i :: from <= i && (k == -1 || i < k) ==> !OccursAt(s, sub, i)
    decreases |s| - from
  {
    if from + |sub| > |s| then -1
    else if OccursAt(s, sub, from) then from
    else FindFrom(s, sub, from + 1)
  }

  /** Index of the first occurrence of `sub` in `s`, or -1 (`str.find`). */
  function IndexOf(s: string, sub: string): (k: int)
    ensures k == -1 <==> !Contains(s, sub)
    ensures k >= 0 ==> OccursAt(s, sub, k)
    ensures k >= 0 ==> forall i :: 0 <= i < k ==> !OccursAt(s, sub, i)
  {
    FindFrom(s, sub, 0)
  }

  /** `sep.join(parts)`. */
  function Join(parts: seq<string>, sep: string): string
    decreases |parts|
  {
    if parts == [] then ""
    else if |parts| == 1 then parts[0]
    else parts[0] + sep + Join(parts[1..], sep)
  }

  /** `s.split(c)` for a one-character separator: the pieces between separators, empty
      pieces included, so that joining them back with `c` gives `s`. */
  function Split(s: string, c: char): (r: seq<string>)
    ensures |r| >= 1
    ensures forall i :: 0 <= i < |r| ==> c !in r[i]
    ensures Join(r, [c]) == s
    decreases |s|
  {
    if s == [] then [""]
    else
      var rest := Split(s[1..], c);
      if s[0] == c then
        assert ([""] + rest)[1..] == rest;
        assert s == [c] + s[1..];
        [""] + rest
      else
        var r := [[s[0]] + rest[0]] + rest[1..];
        assert r[1..] == rest[1..];
        assert s == [s[0]] + s[1..];
        r
  }

  /** `s.replace(c, t)` for a one-character pattern. */
  function ReplaceChar(s: string, c: char, t: string): (r: string)
    ensures c !in t ==> c !in r
    ensures forall d :: d in r ==> (d in s && d != c) || d in t
    ensures c !in s ==> r == s
  {
    if s == [] then ""
    else (if s[0] == c then t else [s[0]]) + ReplaceChar(s[1..], c, t)
  }

  /** Replacing a character by one character keeps every position. */
  lemma {:induction false} ReplaceCharPositions(s: string, c: char, d: char)
    ensures |ReplaceChar(s, c, [d])| == |s|
    ensures forall k :: 0 <= k < |s| ==> ReplaceChar(s, c, [d])[k] == if s[k] == c then d else s[k]
  {
    if s != [] {
      ReplaceCharPositions(s[1..], c, d);
    }
  }

  /** A text found in `s` is found in anything `s` is found in. */
  lemma OccursWithin(a: string, b: string, sub: string, i: int, j: int)
    requires OccursAt(a, b, i) && OccursAt(b, sub, j)
    ensures OccursAt(a, sub, i + j)
  {
    forall k | 0 <= k < |sub| ensures a[i + j + k] == sub[k] {
      assert sub[k] == b[j + k] == a[i + (j + k)];
    }
    assert a[i + j..i + j + |sub|] == sub;
  }

  /** A text found in `s` has no character that `s` lacks. */
  lemma OccursLacks(s: string, sub: string, i: int, ch: char)
    requires OccursAt(s, sub, i) && ch !in s
    ensures ch !in sub
  {
    forall k | 0 <= k < |sub| ensures sub[k] != ch {
      assert sub[k] == s[i + k];
    }
  }

  /** Every part of `sep.join(parts)` is found in it. */
  lemma {:induction false} JoinPartsOccur(parts: seq<string>, sep: string)
    ensures forall k :: 0 <= k < |parts| ==> Contains(Join(parts, sep), parts[k])
    decreases |parts|
  {
    var whole := Join(parts, sep);
    forall k | 0 <= k < |parts| ensures Contains(whole, parts[k]) {
      if |parts| == 1 {
        assert OccursAt(whole, parts[k], 0);
      } else {
        var rest := Join(parts[1..], sep);
        assert whole == parts[0] + (sep + rest);
        if k == 0 {
          assert OccursAt(whole, parts[k], 0);
        } else {
          JoinPartsOccur(parts[1..], sep);
          var off := |parts[0]| + |sep|;
          assert OccursAt(whole, rest, off) by {
            assert whole == (parts[0] + sep) + rest;
          }
          assert parts[k] == parts[1..][k - 1];
          var i :| 0 <= i <= |rest| && OccursAt(rest, parts[k], i);
          OccursWithin(whole, rest, parts[k], off, i);
        }
      }
    }
  }

  /** Every piece `s.split(c)` returns is found in `s`. */
  lemma SplitPiecesOccur(s: string, c: char)
    ensures forall k :: 0 <= k < |Split(s, c)| ==> Contains(s, Split(s, c)[k])
  {
    JoinPartsOccur(Split(s, c), [c]);
  }

  /** Python's `str.isspace` for one character. */
  predicate IsSpace(ch: char) {
    var n := ch as int;
    n == 32 || 9 <= n <= 13 || 28 <= n <= 31 || n == 0x85 || n == 0xa0 || n == 0x1680
    || 0x2000 <= n <= 0x200a || n == 0x2028 || n == 0x2029 || n == 0x202f || n == 0x205f
    || n == 0x3000
  }

  predicate HasNoOuterSpace(s: string) {
    s == [] || (!IsSpace(s[0]) && !IsSpace(s[|s| - 1]))
  }

  /** The first index from `i` on that does not hold whitespace, or `|s|`. */
  function SkipSpaces(s: string, i: nat): (j: nat)
    requires i <= |s|
    ensures i <= j <= |s|
    ensures forall k :: i <= k < j ==> IsSpace(s[k])
    ensures j == |s| || !IsSpace(s[j])
    decreases |s| - i
  {
    if i < |s| && IsSpace(s[i]) then SkipSpaces(s, i + 1) else i
  }

  /** The index just after the last character before `j` that is not whitespace, or 0. */
  function SkipSpacesBack(s: string, j: nat): (i: nat)
    requires j <= |s|
    ensures i <= j
    ensures forall k :: i <= k < j ==> IsSpace(s[k])
    ensures i == 0 || !IsSpace(s[i - 1])
    decreases j
  {
    if j > 0 && IsSpace(s[j - 1]) then SkipSpacesBack(s, j - 1) else j
  }

  /** `s.strip()`: `s` without its leading and trailing whitespace. */
  function Strip(s: string): (r: string)
    ensures HasNoOuterSpace(r)
    ensures exists i :: OccursAt(s, r, i)
    ensures r == [] <==> forall i :: 0 <= i < |s| ==> IsSpace(s[i])
  {
    var lo := SkipSpaces(s, 0);
    var hi := SkipSpacesBack(s, |s|);
    if hi <= lo then
      assert OccursAt(s, [], 0);
      []
    else
      assert OccursAt(s, s[lo..hi], lo);
      s[lo..hi]
  }

  lemma {:induction false} StripIdempotent(s: string)
    ensures Strip(Strip(s)) == Strip(s)
  {
    var t := Strip(s);
    if t != [] {
      assert SkipSpaces(t, 0) == 0;
      assert SkipSpacesBack(t, |t|) == |t|;
      assert t[0..|t|] == t;
    }
  }

  /** Decimal text of an integer, as `str(n)`. */
  function IntToString(n: int): (r: string)
    ensures forall i :: 0 <= i < |r| ==> r[i] == '-' || '0' <= r[i] <= '9'
    ensures r != []
    decreases if n < 0 then 1 - n else n
  {
    if n < 0 then "-" + IntToString(-n)
    else if n < 10 then [DigitChar(n)]
    else IntToString(n / 10) + [DigitChar(n % 10)]
  }

  function DigitChar(d: int): (c: char)
    requires 0 <= d < 10
    ensures '0' <= c <= '9'
  {
    ['0', '1', '2', '3', '4', '5', '6', '7', '8', '9'][d]
  }
}

=== FILE: tracker.dfy ===
/** The harvest tracker (osf/tracker.py): a separate SQLite database whose one table,
    `harvested_preprints`, records each harvested preprint and whether it has been ingested.
    The table is a map from preprint id to row; `None` is the table not existing.

    Every entry point first opens the database at `config.TRACKER_DB_PATH`. The configuration
    module defines no such attribute, so as shipped that lookup raises AttributeError;
    `configured` says whether it is defined. Entry points with a `try` turn the error into their
    failure value, the others let it escape (`Err`). */
module Tracker {
  import opened Wrappers
  import opened JsonModel
  import Text
  import Sql

  /** A `harvested_preprints` row. `isIngested` is 0 or 1 as this module writes it; other
      writers may leave other values or NULL dates and paths. */
  datatype Tracked = Tracked(dateCreated: Option<string>, dateModified: Option<string>,
                             dateHarvested: Option<string>, filePath: Option<string>,
                             isIngested: int)

  type Table = map<string, Tracked>

  function TableOr(t: Option<Table>): Table {
    if t.Some? then t.value else map[]
  }

  /** The ids waiting for ingestion (`is_ingested = 0`). */
  function PendingIds(t: Table): set<string> {
    set id | id in t && t[id].isIngested == 0
  }

  /** The ids marked ingested (`is_ingested = 1`). */
  function IngestedIds(t: Table): set<string> {
    set id | id in t && t[id].isIngested == 1
  }

  /** The rows of `ids`, each with its id. */
  function RowsOf(t: Table, ids: seq<string>): (r: seq<(string, Tracked)>)
    requires forall i :: 0 <= i < |ids| ==> ids[i] in t
    ensures |r| == |ids|
    ensures forall i :: 0 <= i < |r| ==> r[i] == (ids[i], t[ids[i]])
  {
    if ids == [] then [] else [(ids[0], t[ids[0]])] + RowsOf(t, ids[1..])
  }

  /** The `ORDER BY date_created` key of each row. */
  function DateCreatedKey(t: Table): (key: map<string, Sql.SqlValue>)
    ensures key.Keys == t.Keys
    ensures forall id :: id in t ==> key[id] == Sql.TextValue(t[id].dateCreated)
  {
    map id | id in t :: Sql.TextValue(t[id].dateCreated)
  }

  /** The ids `get_pending_ingestion_preprints(limit)` lists from table `t`. */
  function PendingOrder(t: Table, limit: Option<int>): (ids: seq<string>)
    ensures forall i :: 0 <= i < |ids| ==> ids[i] in PendingIds(t)
  {
    Sql.OrderedLimit(DateCreatedKey(t), PendingIds(t), limit)
  }

  /** The rows `get_pending_ingestion_preprints(limit)` returns from table `t`: pending rows,
      at most `int(limit)` of them when `limit` is truthy and positive, otherwise all. */
  function PendingRows(t: Table, limit: Option<int>): (r: seq<(string, Tracked)>)
    ensures forall i :: 0 <= i < |r| ==> r[i].0 in PendingIds(t) && t[r[i].0] == r[i].1
    ensures |r| == if limit.Some? && 0 < limit.value < |PendingIds(t)| then limit.value
                   else |PendingIds(t)|
  {
    RowsOf(t, PendingOrder(t, limit))
  }

  /** The rows come once each, ascending by `date_created` (NULL first; equal dates in id
      order), and no pending row left out by the limit is dated before a row returned. */
  lemma PendingRowsOrdered(t: Table, limit: Option<int>)
    ensures var r := PendingRows(t, limit);
      forall i, j :: 0 <= i < j < |r| ==> (r[i].0 != r[j].0
        && !Sql.SqlLess(Sql.TextValue(r[j].1.dateCreated), Sql.TextValue(r[i].1.dateCreated)))
    ensures var r := PendingRows(t, limit);
      forall id, i :: id in PendingIds(t) && 0 <= i < |r| && !Listed(r, id) ==>
        !Sql.SqlLess(Sql.TextValue(t[id].dateCreated), Sql.TextValue(r[i].1.dateCreated))
  {
    var key := DateCreatedKey(t);
    var ids := PendingOrder(t, limit);
    var r := PendingRows(t, limit);
    forall id | id !in ids ensures !Listed(r, id) {
    }
  }

  /** Row `id` is in the listing. */
  predicate Listed(r: seq<(string, Tracked)>, id: string) {
    exists i :: 0 <= i < |r| && r[i].0 == id
  }

  /** The greatest non-null value of a nullable text column: what `ORDER BY c DESC LIMIT 1`
      returns, since NULL sorts last in descending order. None when no row has a value. */
  function Newest(col: map<string, Option<string>>): (r: Option<string>)
    ensures r.Some? <==> exists id :: id in col && col[id].Some?
    ensures r.Some? ==> exists id :: id in col && col[id] == r
    ensures r.Some? ==> forall id :: id in col && col[id].Some? ==> !Text.Less(r.value, col[id].value)
  {
    var ids := set id | id in col && col[id].Some?;
    assert forall id :: id in col && col[id].Some? ==> id in ids;
    if ids == {} then None
    else
      var key := map id | id in ids :: Sql.SText(col[id].value);
      var m := Sql.Greatest(key, ids);
      assert forall id :: id in ids ==> !Text.Less(col[m].value, col[id].value) by {
        forall id | id in ids ensures !Text.Less(col[m].value, col[id].value) {
          assert !Sql.SqlLess(key[m], key[id]);
        }
      }
      col[m]
  }

  /** Every row of the table after `UPDATE ... SET is_ingested = 0 WHERE is_ingested = 1`:
      the ingested rows become pending, every other column and row is kept. */
  function ResetAll(t: Table): (r: Table)
    ensures r.Keys == t.Keys
    ensures forall id :: id in r ==> r[id].isIngested != 1
    ensures forall id :: id in t ==> r[id].(isIngested := t[id].isIngested) == t[id]
    ensures forall id :: id in t && t[id].isIngested != 1 ==> r[id] == t[id]
    ensures forall id :: id in t && t[id].isIngested == 1 ==> r[id].isIngested == 0
  {
    map id | id in t :: if t[id].isIngested == 1 then t[id].(isIngested := 0) else t[id]
  }

  /** After a reset the pending rows are the ones pending before plus the ones ingested
      before, so the pending count grows by the number reset. */
  lemma ResetMakesIngestedPending(t: Table)
    ensures PendingIds(ResetAll(t)) == PendingIds(t) + IngestedIds(t)
    ensures IngestedIds(ResetAll(t)) == {}
    ensures |PendingIds(ResetAll(t))| == |PendingIds(t)| + |IngestedIds(t)|
  {
    var r := ResetAll(t);
    assert PendingIds(r) == PendingIds(t) + IngestedIds(t);
    assert PendingIds(t) * IngestedIds(t) == {};
  }

  /** `len(records)` for `SELECT id, file_path`, and a row's path passing
      `file_path and Path(file_path).is_file()`, with `files` the paths that are files. */
  predicate FileOk(row: Tracked, files: set<string>) {
    row.filePath.Some? && row.filePath.value != "" && row.filePath.value in files
  }

  function ValidIds(t: Table, files: set<string>): set<string> {
    set id | id in t && FileOk(t[id], files)
  }

  lemma SubsetCard<T>(a: set<T>, b: set<T>)
    requires a <= b
    ensures |a| <= |b|
  {
    assert b == a + (b - a);
  }

  /** The `for record in records` loop of `validate_harvested_file_paths`: each row's path
      is a file (`valid_count`) or not (`invalid_count`). */
  method CountPaths(t: Table, files: set<string>) returns (valid: int, invalid: int)
    ensures valid == |ValidIds(t, files)| && valid + invalid == |t|
  {
    valid, invalid := 0, 0;
    ghost var all := ValidIds(t, files);
    var rest := t.Keys;
    assert rest * all == all;
    while rest != {}
      invariant rest <= t.Keys
      invariant valid + |rest * all| == |all|
      invariant valid + invalid + |rest| == |t|
      decreases |rest|
    {
      var id :| id in rest;
      if FileOk(t[id], files) {
        assert (rest - {id}) * all == rest * all - {id};
        valid := valid + 1;
      } else {
        assert (rest - {id}) * all == rest * all;
        invalid := invalid + 1;
      }
      rest := rest - {id};
    }
  }

  class TrackerDb {
    /** Whether `config.TRACKER_DB_PATH` is defined. */
    const configured: bool
    var table: Option<Table>

    constructor (configured: bool, table: Option<Table>)
      ensures this.configured == configured && this.table == table
    {
      this.configured := configured;
      this.table := table;
    }

    /** `init_tracker_db()`: opens the database and creates an empty table if it is missing. */
    method InitTrackerDb() returns (ok: bool)
      modifies this
      ensures ok == configured
      ensures ok ==> table == Some(TableOr(old(table)))
      ensures !ok ==> table == old(table)
    {
      if !configured {
        return false;
      }
      if table.None? {
        table := Some(map[]);
      }
      ok := true;
    }

    /** `add_harvested_preprint(id, date_created, date_modified, file_path)`: upserts the row
        with every column given, so a re-harvested preprint is pending again. `filePath` is
        `str(file_path)`; `now` is `datetime.now().isoformat()`; `refused` makes the upsert
        raise. Any failure gives False. */
    method AddHarvestedPreprint(id: string, dateCreated: Option<string>,
                                dateModified: Option<string>, filePath: string, now: string,
                                refused: bool) returns (ok: bool)
      modifies this
      ensures ok <==> configured && !refused
      ensures ok ==> table == Some(TableOr(old(table))[id :=
        Tracked(dateCreated, dateModified, Some(now), Some(filePath), 0)])
      ensures ok ==> id in PendingIds(table.value)
      ensures !ok && configured ==> table == Some(TableOr(old(table)))
      ensures !configured ==> table == old(table)
    {
      ok := InitTrackerDb();
      if !ok || refused {
        return false;
      }
      table := Some(table.value[id := Tracked(dateCreated, dateModified, Some(now), Some(filePath), 0)]);
    }

    /** `mark_as_ingested(id)`: `update` sets `is_ingested = 1` on that row only; a missing
        table or row makes it raise, and any failure gives False. */
    method MarkAsIngested(id: string, refused: bool) returns (ok: bool)
      modifies this
      ensures ok <==> configured && !refused && old(table).Some? && id in old(table).value
      ensures ok ==> table == Some(old(table).value[id := old(table).value[id].(isIngested := 1)])
      ensures ok ==> id in IngestedIds(table.value) && id !in PendingIds(table.value)
      ensures !ok ==> table == old(table)
    {
      if !configured || refused || table.None? || id !in table.value {
        return false;
      }
      table := Some(table.value[id := table.value[id].(isIngested := 1)]);
      ok := true;
    }

    /** `get_most_recent_harvest_date()`: the greatest `date_harvested`. */
    function MostRecentHarvestDate(): (r: Result<Option<string>, PyError>)
      reads this
      ensures r.Err? <==> !configured
      ensures r.Ok? && r.value.Some? ==> (table.Some? &&
        exists id :: id in table.value && table.value[id].dateHarvested == r.value)
      ensures r.Ok? && r.value.Some? ==> forall id ::
        id in table.value && table.value[id].dateHarvested.Some? ==>
        !Text.Less(r.value.value, table.value[id].dateHarvested.value)
      ensures r.Ok? && r.value.None? ==> (table.None? ||
        forall id :: id in table.value ==> table.value[id].dateHarvested.None?)
    {
      if !configured then Err(AttributeError)
      else if table.None? then Ok(None)
      else
        var t := table.value;
        var col := map id | id in t :: t[id].dateHarvested;
        assert forall id :: id in t ==> col[id] == t[id].dateHarvested;
        Ok(Newest(col))
    }

    /** `get_most_recent_preprint_date()`: the greatest non-null `date_created`. */
    function MostRecentPreprintDate(): (r: Result<Option<string>, PyError>)
      reads this
      ensures r.Err? <==> !configured
      ensures r.Ok? && r.value.Some? ==> (table.Some? &&
        exists id :: id in table.value && table.value[id].dateCreated == r.value)
      ensures r.Ok? && r.value.Some? ==> forall id ::
        id in table.value && table.value[id].dateCreated.Some? ==>
        !Text.Less(r.value.value, table.value[id].dateCreated.value)
      ensures r.Ok? && r.value.None? ==> (table.None? ||
        forall id :: id in table.value ==> table.value[id].dateCreated.None?)
    {
      if !configured then Err(AttributeError)
      else if table.None? then Ok(None)
      else
        var t := table.value;
        var col := map id | id in t :: t[id].dateCreated;
        assert forall id :: id in t ==> col[id] == t[id].dateCreated;
        Ok(Newest(col))
    }

    /** `is_preprint_harvested(id)` (tracker.py). */
    function IsPreprintHarvested(id: string): (r: Result<bool, PyError>)
      reads this
      ensures r.Err? <==> !configured
      ensures r.Ok? ==> (r.value <==> table.Some? && id in table.value)
    {
      if !configured then Err(AttributeError)
      else Ok(table.Some? && id in table.value)
    }

    /** `get_pending_ingestion_preprints(limit)`. */
    function PendingIngestion(limit: Option<int>): (r: Result<seq<(string, Tracked)>, PyError>)
      reads this
      ensures r.Err? <==> !configured
      ensures r.Ok? ==> r.value == PendingRows(TableOr(table), limit)
    {
      if !configured then Err(AttributeError) else Ok(PendingRows(TableOr(table), limit))
    }

    /** `get_harvested_preprint_count()`. */
    function HarvestedCount(): (r: Result<int, PyError>)
      reads this
      ensures r.Err? <==> !configured
      ensures r.Ok? ==> r.value == |TableOr(table)|
    {
      if !configured then Err(AttributeError)
      else if table.None? then Ok(0)
      else Ok(|table.value|)
    }

    /** `get_pending_ingestion_count()`. */
    function PendingCount(): (r: Result<int, PyError>)
      reads this
      ensures r.Err? <==> !configured
      ensures r.Ok? ==> r.value == |PendingIds(TableOr(table))|
    {
      if !configured then Err(AttributeError)
      else if table.None? then Ok(0)
      else Ok(|PendingIds(table.value)|)
    }

    /** The pending count never exceeds the total, both are 0 without the table, and an
        unlimited pending listing has exactly the pending count of rows. */
    lemma PendingWithinTotal()
      requires configured
      ensures 0 <= PendingCount().value <= HarvestedCount().value
      ensures table.None? ==> PendingCount().value == 0 && HarvestedCount().value == 0
      ensures |PendingIngestion(None).value| == PendingCount().value
    {
      var t := TableOr(table);
      SubsetCard(PendingIds(t), t.Keys);
    }

    /** `reset_ingestion_status()`: every ingested row becomes pending again. Returns the
        number reset and True; (0, True) when the table is missing or nothing was ingested;
        (0, False) when anything raises, with nothing changed. */
    method ResetIngestionStatus(refused: bool) returns (count: int, ok: bool)
      modifies this
      ensures ok <==> configured && (old(table).None? || IngestedIds(old(table).value) == {} || !refused)
      ensures ok ==> count == |IngestedIds(TableOr(old(table)))|
      ensures !ok ==> count == 0
      ensures count > 0 ==> table == Some(ResetAll(old(table).value))
      ensures count == 0 ==> table == old(table)
      ensures ok ==> forall id :: id in TableOr(table) ==> TableOr(table)[id].isIngested != 1
    {
      if !configured {
        return 0, false;
      }
      if table.None? {
        return 0, true;
      }
      count := |IngestedIds(table.value)|;
      if count == 0 {
        assert forall id :: id in table.value && table.value[id].isIngested == 1 ==>
          id in IngestedIds(table.value);
        return 0, true;
      }
      if refused {
        return 0, false;
      }
      table := Some(ResetAll(table.value));
      ok := true;
    }

    /** `validate_harvested_file_paths(files)`: counts the rows whose path is a file and the
        others. The query has no ORDER BY, so the rows are taken in no particular order. */
    method ValidateFilePaths(files: set<string>) returns (r: Result<(int, int, int), PyError>)
      ensures r.Err? <==> !configured
      ensures r.Ok? ==> (r.value.2 == |TableOr(table)|
        && r.value.0 == |ValidIds(TableOr(table), files)|
        && r.value.0 + r.value.1 == r.value.2)
      ensures r.Ok? && TableOr(table) == map[] ==> r.value == (0, 0, 0)
    {
      if !configured {
        return Err(AttributeError);
      }
      if table.None? {
        return Ok((0, 0, 0));
      }
      var t := table.value;
      var total := |t|;
      if total == 0 {
        return Ok((0, 0, 0));
      }
      var valid, invalid := CountPaths(t, files);
      r := Ok((valid, invalid, total));
    }
  }
}

=== FILE: ui_columns.dfy ===
/** The column sets of a `preprints_ui` record (osf/optimizer_ui.py), kept apart from the
    record builder so that facts about the column names are checked on their own. */
module UiColumns {
  /** The columns copied unchanged from the `preprints` row. */
  const CopiedColumns: set<string> := {
    "title", "description", "date_created", "date_modified", "date_published",
    "original_publication_date", "publication_doi", "provider", "is_published", "reviews_state",
    "version", "is_latest_version", "preprint_doi", "license", "download_url", "has_coi",
    "conflict_of_interest_statement", "has_data_links", "has_prereg_links", "prereg_links",
    "prereg_link_info"
  }

  /** The columns of a UI record. */
  const RecordColumns: set<string> := CopiedColumns + {
    "id", "tags_list", "tags_data", "contributors_list", "contributors_data", "first_author",
    "subjects_list", "subjects_data", "last_updated"
  }

  /** The stamped columns are not among the copied ones. */
  lemma StampsAreNotCopied()
    ensures "id" !in CopiedColumns && "last_updated" !in CopiedColumns && "tags_data" !in CopiedColumns
  {
  }

  /** Three columns of the table's schema are not record columns. */
  lemma NoWhyNoData()
    ensures "why_no_data" !in RecordColumns
  {
    assert "why_no_data" !in CopiedColumns;
  }

  lemma NoDataLinks()
    ensures "data_links" !in RecordColumns
  {
    assert "data_links" !in CopiedColumns;
  }

  lemma NoWhyNoPrereg()
    ensures "why_no_prereg" !in RecordColumns
  {
    assert "why_no_prereg" !in CopiedColumns;
  }
}

=== FILE: version_flags.dfy ===
/** Version-flag reconciliation (tools/fix_version_flags.py): the base id of a preprint id as
    the SQL derives it, the `ROW_NUMBER() OVER (PARTITION BY base id ORDER BY version DESC)`
    rank, the rows whose `is_latest_version` flag is wrong, the count-based consistency
    check, the contributor-link flag check, and the exit code of `main`. The tables are the
    `preprints` rows keyed by id and the `preprint_contributors` rows keyed by
    (preprint id, contributor id). */
module VersionFlags {
  import opened Wrappers
  import opened JsonModel
  import Text
  import Sql
  import Db

  type Preprints = map<string, Db.Row>
  type Links = map<(string, string), Db.Row>

  // ---------------------------------------------------------------- base id

  /** `id LIKE '%_v%'`: `_` matches any one character and LIKE ignores ASCII case, so any id
      with a `v` or `V` after its first character matches, with or without an underscore. */
  predicate LikeVersioned(id: string) {
    exists i :: 1 <= i < |id| && (id[i] == 'v' || id[i] == 'V')
  }

  /** `INSTR(s, sub)`: the 1-based position of the first occurrence, 0 when there is none. */
  function Instr(s: string, sub: string): (r: int)
    ensures r == 0 <==> !Text.Contains(s, sub)
    ensures r > 0 ==> Text.OccursAt(s, sub, r - 1) && forall i :: 0 <= i < r - 1 ==> !Text.OccursAt(s, sub, i)
  {
    Text.IndexOf(s, sub) + 1
  }

  /** `SUBSTR(s, 1, n)`: the first `n` characters; a negative `n` asks for the characters
      before position 1, of which there are none. */
  function Substr1(s: string, n: int): (r: string)
    ensures Text.StartsWith(s, r)
    ensures 0 <= n <= |s| ==> |r| == n
    ensures n <= 0 ==> r == ""
  {
    if n <= 0 then "" else if n <= |s| then s[..n] else s
  }

  /** The base id: the text before the first `_v` when the id matches `LIKE '%_v%'`, the id
      itself otherwise. */
  function BaseId(id: string): string {
    if LikeVersioned(id) then Substr1(id, Instr(id, "_v") - 1) else id
  }

  /** The base id is a prefix of the id; for an id with a literal `_v` it is exactly the text
      before the first `_v`. */
  lemma BaseIdOfVersion(id: string)
    ensures Text.StartsWith(id, BaseId(id))
    ensures Text.Contains(id, "_v") ==> (Text.OccursAt(id, "_v", |BaseId(id)|) &&
      !Text.Contains(BaseId(id), "_v"))
  {
    if Text.Contains(id, "_v") {
      var k := Instr(id, "_v") - 1;
      assert id[k + 1] == "_v"[1];
      assert LikeVersioned(id);
      var b := BaseId(id);
      assert b == id[..k];
      if Text.Contains(b, "_v") {
        var i :| 0 <= i <= |b| && Text.OccursAt(b, "_v", i);
        assert id[i..i + 2] == b[i..i + 2];
        assert Text.OccursAt(id, "_v", i);
      }
    }
  }

  /** An id without a `v` or `V` after its first character is its own base id. */
  lemma BaseIdUnversioned(id: string)
    requires forall i :: 1 <= i < |id| ==> id[i] != 'v' && id[i] != 'V'
    ensures BaseId(id) == id
  {
  }

  /** The wildcard reading of `_`: an id with a `v` but no `_v` has the empty base id, so all
      such ids fall into one group. */
  lemma BaseIdWildcard(id: string)
    requires LikeVersioned(id) && !Text.Contains(id, "_v")
    ensures BaseId(id) == ""
  {
  }

  /** Two concrete ids: `abc_v2` has base `abc`, and `x8vq1`, an id shaped like an OSF id
      with a `v` in it, has the empty base. */
  lemma BaseIdExamples()
    ensures BaseId("abc_v2") == "abc"
    ensures BaseId("x8vq1") == ""
  {
    assert Text.OccursAt("abc_v2", "_v", 3);
    forall i | 0 <= i < 3 ensures !Text.OccursAt("abc_v2", "_v", i) {
      assert "abc_v2"[i] != '_';
    }
    assert "abc_v2"[4] == 'v';
    assert "x8vq1"[2] == 'v';
    forall i | 0 <= i <= |"x8vq1"| ensures !Text.OccursAt("x8vq1", "_v", i) {
      if i + 2 <= 5 {
        assert "x8vq1"[i] != '_';
      }
    }
  }

  // ---------------------------------------------------------------- rank

  /** The `version` column as SQLite orders it. */
  function VersionKey(t: Preprints): (key: map<string, Sql.SqlValue>)
    ensures key.Keys == t.Keys
  {
    map id | id in t :: Sql.ValueOf(Db.Col(t[id], "version"))
  }

  /** The rows ranked ahead of `id` in its base-id partition. */
  function Ahead(t: Preprints, id: string): set<string>
    requires id in t
  {
    set j | j in t && BaseId(j) == BaseId(id) && Sql.Before(VersionKey(t), true, j, id)
  }

  /** `version_rank`: one more than the number of rows ranked ahead. Rows with equal versions
      are ranked by id, an order SQLite leaves unspecified. */
  function Rank(t: Preprints, id: string): int
    requires id in t
  {
    1 + |Ahead(t, id)|
  }

  /** `should_be_latest`. */
  function ShouldBeLatest(t: Preprints, id: string): int
    requires id in t
  {
    if Rank(t, id) == 1 then 1 else 0
  }

  /** The rows of the partition of base id `b`. */
  function Partition(t: Preprints, b: string): set<string> {
    set id | id in t && BaseId(id) == b
  }

  /** The base ids present. */
  function BaseIds(t: Preprints): set<string> {
    set id | id in t :: BaseId(id)
  }

  /** A row is ahead of `id` exactly when it shares the base id and comes first in
      `ORDER BY version DESC`. */
  lemma AheadMember(t: Preprints, j: string, id: string)
    requires j in t && id in t
    ensures j in Ahead(t, id) <==> BaseId(j) == BaseId(id) && Sql.Before(VersionKey(t), true, j, id)
  {
  }

  /** Of two rows of one partition at most one has rank 1. */
  lemma RankOneUnique(t: Preprints, x: string, y: string)
    requires x in t && y in t && x != y
    ensures BaseId(x) == BaseId(y) ==> Rank(t, x) > 1 || Rank(t, y) > 1
  {
    Sql.BeforeTotal(VersionKey(t), true, x, y);
    AheadMember(t, x, y);
    AheadMember(t, y, x);
  }

  /** Every partition has a row of rank 1. */
  lemma RankOneExists(t: Preprints, b: string) returns (m: string)
    requires b in BaseIds(t)
    ensures m in t && BaseId(m) == b && Rank(t, m) == 1
  {
    var p := Partition(t, b);
    var x :| x in t && BaseId(x) == b;
    assert x in p;
    m := Sql.First(VersionKey(t), true, p);
    forall j ensures j !in Ahead(t, m) {
      if j in t {
        AheadMember(t, j, m);
        if j == m {
          Sql.BeforeIrreflexive(VersionKey(t), true, m);
        } else if j in p {
          Sql.BeforeAsymmetric(VersionKey(t), true, m, j);
        }
      }
    }
    assert Ahead(t, m) == {};
  }

  /** A row with a greater version in the same partition is ranked ahead, so the row of
      rank 1 carries the greatest version of its partition. */
  lemma RankOneHasMaxVersion(t: Preprints, x: string)
    requires x in t
    ensures Rank(t, x) == 1 ==>
      forall y :: y in t && BaseId(y) == BaseId(x) ==> !Sql.SqlLess(VersionKey(t)[x], VersionKey(t)[y])
  {
    forall y | y in t && BaseId(y) == BaseId(x)
      ensures Sql.SqlLess(VersionKey(t)[x], VersionKey(t)[y]) ==> y in Ahead(t, x)
    {
      Sql.SqlLessIrreflexive(VersionKey(t)[x]);
      AheadMember(t, y, x);
    }
  }

  /** The rows of rank 1. */
  function RankOnes(t: Preprints): set<string> {
    set id | id in t && Rank(t, id) == 1
  }

  /** Distinct base ids for distinct rows: the rows and their base ids are as many. */
  lemma {:induction false} InjectiveBaseIds(a: set<string>)
    requires forall x, y :: x in a && y in a && x != y ==> BaseId(x) != BaseId(y)
    ensures |set x | x in a :: BaseId(x)| == |a|
    decreases |a|
  {
    if a != {} {
      var x :| x in a;
      var rest := a - {x};
      InjectiveBaseIds(rest);
      assert (set y | y in a :: BaseId(y)) == (set y | y in rest :: BaseId(y)) + {BaseId(x)};
      assert BaseId(x) !in (set y | y in rest :: BaseId(y));
    }
  }

  /** Exactly one row per base id has rank 1. */
  lemma RankOnesMatchBaseIds(t: Preprints)
    ensures (set x | x in RankOnes(t) :: BaseId(x)) == BaseIds(t)
    ensures |RankOnes(t)| == |BaseIds(t)|
  {
    var ones := RankOnes(t);
    forall x, y | x in ones && y in ones && x != y ensures BaseId(x) != BaseId(y) {
      RankOneUnique(t, x, y);
    }
    InjectiveBaseIds(ones);
    forall b | b in BaseIds(t) ensures b in (set x | x in ones :: BaseId(x)) {
      var m := RankOneExists(t, b);
      assert m in ones;
    }
  }

  // ---------------------------------------------------------------- problems

  /** `flag != should`: NULL compares as unknown and is not a difference. */
  predicate FlagDiffers(flag: Cell, should: int) {
    !flag.Null? && Sql.ValueOf(flag) != Sql.SInt(should)
  }

  /** The rows the dry-run query lists: those whose flag differs from `should_be_latest`. */
  function Problems(t: Preprints): set<string> {
    set id | id in t && FlagDiffers(Db.Col(t[id], "is_latest_version"), ShouldBeLatest(t, id))
  }

  /** `dry_run_preview`'s count of preprint problems. */
  function DryRunCount(t: Preprints): int {
    |Problems(t)|
  }

  /** The count is 0 exactly when no row's flag differs from `should_be_latest`. */
  lemma DryRunZero(t: Preprints)
    ensures DryRunCount(t) == 0 <==>
      forall id :: id in t ==> !FlagDiffers(Db.Col(t[id], "is_latest_version"), ShouldBeLatest(t, id))
  {
    forall id | id in t
      ensures FlagDiffers(Db.Col(t[id], "is_latest_version"), ShouldBeLatest(t, id)) ==> id in Problems(t)
    {
    }
  }

  /** `check_current_status`: the number of rows flagged 1 equals the number of base ids. */
  predicate StatusOk(t: Preprints) {
    |set id | id in t && Sql.ValueOf(Db.Col(t[id], "is_latest_version")) == Sql.SInt(1)| == |BaseIds(t)|
  }

  /** The link rows `dry_run_preview` counts: those whose preprint exists and whose flag
      differs from the preprint's (NULL on either side is not a difference). */
  function LinkProblems(t: Preprints, links: Links): set<(string, string)> {
    set k | k in links && k.0 in t && LinkDiffers(Db.Col(links[k], "is_latest_version"),
                                                   Db.Col(t[k.0], "is_latest_version"))
  }

  predicate LinkDiffers(a: Cell, b: Cell) {
    !a.Null? && !b.Null? && Sql.ValueOf(a) != Sql.ValueOf(b)
  }

  // ---------------------------------------------------------------- the intended fix

  /** What `fix_latest_version_flags` is meant to leave: every row flagged with its
      `should_be_latest`, nothing else changed. */
  function FixedFlags(t: Preprints): (r: Preprints)
    ensures r.Keys == t.Keys
    ensures forall id :: id in t ==> Db.Col(r[id], "version") == Db.Col(t[id], "version")
  {
    map id | id in t :: t[id]["is_latest_version" := Int(ShouldBeLatest(t, id))]
  }

  /** What `fix_contributor_latest_version_flags` is meant to leave: every link of an existing
      preprint carries that preprint's flag. */
  function FixedLinks(t: Preprints, links: Links): (r: Links)
    ensures r.Keys == links.Keys
  {
    map k | k in links :: if k.0 in t then links[k]["is_latest_version" := Db.Col(t[k.0], "is_latest_version")]
                          else links[k]
  }

  /** Fixing keeps the versions and ids, so it keeps every rank. */
  lemma FixedKeepsRanks(t: Preprints)
    ensures forall id :: id in t ==> Rank(FixedFlags(t), id) == Rank(t, id)
  {
    var f := FixedFlags(t);
    assert VersionKey(f) == VersionKey(t);
    forall id | id in t ensures Rank(f, id) == Rank(t, id) {
      assert Ahead(f, id) == Ahead(t, id);
    }
  }

  /** After the fix the dry run finds no preprint problem. */
  lemma FixedHasNoProblems(t: Preprints)
    ensures Problems(FixedFlags(t)) == {}
  {
    FixedKeepsRanks(t);
  }

  /** After both fixes the dry run finds no link problem. */
  lemma FixedLinksHaveNoProblems(t: Preprints, links: Links)
    ensures LinkProblems(t, FixedLinks(t, links)) == {}
  {
  }

  /** The rows the fix flags 1 are the rows of rank 1. */
  lemma FixedLatestAreRankOnes(t: Preprints)
    ensures (set id | id in FixedFlags(t) &&
      Sql.ValueOf(Db.Col(FixedFlags(t)[id], "is_latest_version")) == Sql.SInt(1)) == RankOnes(t)
  {
  }

  /** After the fix exactly one row per base id is flagged latest, so `check_current_status`
      holds. */
  lemma FixedIsConsistent(t: Preprints)
    ensures StatusOk(FixedFlags(t))
  {
    FixedKeepsRanks(t);
    FixedLatestAreRankOnes(t);
    RankOnesMatchBaseIds(t);
    assert BaseIds(FixedFlags(t)) == BaseIds(t);
  }

  /** A table whose flags all equal `should_be_latest` passes `check_current_status`. */
  lemma NoProblemsIsConsistent(t: Preprints)
    requires forall id :: id in t ==> Db.Col(t[id], "is_latest_version") == Int(ShouldBeLatest(t, id))
    ensures StatusOk(t)
  {
    assert FixedFlags(t) == t by {
      forall id | id in t ensures FixedFlags(t)[id] == t[id] {
        assert "is_latest_version" in t[id];
      }
    }
    FixedIsConsistent(t);
  }

  // ---------------------------------------------------------------- main

  /** The tables `main` sees: `None` for a table that does not exist. */
  datatype Tables = Tables(preprints: Option<Preprints>, links: Option<Links>)

  /** `main()` with the two fix functions it imports defined as their dry-run queries
      describe: exit code and resulting tables. A missing `preprints` table gives 1; a dry
      run changes nothing and gives 0, or 1 when some flag is wrong and its link query then
      fails on a missing `preprint_contributors`; a consistent table without `--verbose` is
      left alone; else both fixes run in turn and the check is repeated. The preprint fix
      has already run when the link fix fails on a missing `preprint_contributors`, so that
      exit 1 leaves the fixed flags behind. */
  function MainCorrected(db: Tables, dryRun: bool, verbose: bool): (int, Tables) {
    if db.preprints.None? then (1, db)
    else
      var t := db.preprints.value;
      if dryRun then (if db.links.None? && Problems(t) != {} then 1 else 0, db)
      else if StatusOk(t) && !verbose then (0, db)
      else if db.links.None? then (1, Tables(Some(FixedFlags(t)), None))
      else
        var fixed := FixedFlags(t);
        var after := Tables(Some(fixed), Some(FixedLinks(fixed, db.links.value)));
        (if StatusOk(fixed) then 0 else 1, after)
  }

  /** `main` as written never runs: importing the two undefined names raises ImportError at
      load time, outside the `try`, and Python exits with status 1 having done nothing. */
  function MainAsWritten(db: Tables, dryRun: bool, verbose: bool): (int, Tables) {
    (1, db)
  }

  /** Exit codes of the corrected `main`: 1 without `preprints`; a dry run changes nothing
      and fails only when a flag is wrong and `preprint_contributors` is missing; a consistent
      table without `--verbose` is left alone; otherwise the fix fails exactly when
      `preprint_contributors` is missing. A run that changes anything has applied the
      preprint fix and ends consistent with no preprint problem; it returns 0 exactly when
      the link table exists, and then no link problem is left. */
  lemma MainCorrectedOutcome(db: Tables, dryRun: bool, verbose: bool)
    ensures db.preprints.None? ==> MainCorrected(db, dryRun, verbose) == (1, db)
    ensures MainCorrected(db, dryRun, verbose).0 in {0, 1}
    ensures dryRun ==> MainCorrected(db, dryRun, verbose).1 == db
    ensures dryRun && db.preprints.Some? ==>
      (MainCorrected(db, dryRun, verbose).0 == 0 <==>
        db.links.Some? ||
        forall id :: id in db.preprints.value ==>
          !FlagDiffers(Db.Col(db.preprints.value[id], "is_latest_version"),
                       ShouldBeLatest(db.preprints.value, id)))
    ensures !dryRun && db.preprints.Some? && StatusOk(db.preprints.value) && !verbose ==>
      MainCorrected(db, dryRun, verbose) == (0, db)
    ensures !dryRun && db.preprints.Some? && !(StatusOk(db.preprints.value) && !verbose) ==>
      (MainCorrected(db, dryRun, verbose).0 == 0 <==> db.links.Some?)
    ensures var (code, after) := MainCorrected(db, dryRun, verbose);
      after != db ==> (after.preprints.Some? && db.preprints.Some? &&
        after.preprints.value == FixedFlags(db.preprints.value) &&
        StatusOk(after.preprints.value) && Problems(after.preprints.value) == {} &&
        after.links.Some? == db.links.Some? && (code == 0 <==> after.links.Some?) &&
        (after.links.Some? ==> LinkProblems(after.preprints.value, after.links.value) == {}))
  {
    if db.preprints.Some? && dryRun {
      DryRunZero(db.preprints.value);
    }
    if db.preprints.Some? && !dryRun && !(StatusOk(db.preprints.value) && !verbose) {
      var fixed := FixedFlags(db.preprints.value);
      FixedIsConsistent(db.preprints.value);
      FixedHasNoProblems(db.preprints.value);
      if db.links.Some? {
        FixedLinksHaveNoProblems(fixed, db.links.value);
      }
    }
  }

  /** A dry run on an existing database: the corrected `main` returns 0, the code as written
      returns 1. */
  lemma MainImportCounterexample()
    ensures var db := Tables(Some(map[]), Some(map[]));
      MainCorrected(db, true, false).0 == 0 && MainAsWritten(db, true, false).0 == 1
  {
  }
}

=== FILE: wrappers.dfy ===
/** Option and Result, used for SQL NULLs, absent dictionary keys and raised exceptions. */
module Wrappers {

  datatype Option<T> = None | Some(value: T) {
    function GetOr(default: T): T {
      match this
      case Some(v) => v
      case None => default
    }
  }

  datatype Result<T, E> = Ok(value: T) | Err(error: E) {
    predicate IsFailure() {
      Err?
    }

    function PropagateFailure<U>(): Result<U, E>
      requires Err?
    {
      Err(error)
    }

    function Extract(): T
      requires Ok?
    {
      value
    }
  }
}
